=== FILE: README.md ===
# LockIn focus extension — a Dafny model

LockIn is a browser extension for focused work. It combines a Pomodoro timer, a task board and a
notification blocker. A background worker keeps one stored focus session (`timerState`). It drives
the session through START, PAUSE, RESUME, END and completion. While a Pomodoro runs, it classifies
notifications from Gmail and Google Calendar into an allowed list and a blocked list. The popup pages
read the same storage. They are the countdown view, the task board, the dashboard's active task, the
notification list and its filter settings, the settings form, and the session history and summaries.

This project models that logic as pure functions over immutable records:

- Storage is an explicit record: `SessionState.World` for the background worker, and plain values for
  the pages.
- Every clock reading is an integer `now`, in milliseconds.
- Every browser call a transition makes is returned as data: the alarm change, the badge text and
  the notifications created (`SessionState.Effects`).
- JavaScript's coercions are written out: `||` on numbers and strings, `!== false`, and `|| null` on
  ids. So are `Math.floor`, the truncating `%`, `parseInt(s, 10)`, `includes` and `trim`.

Modules follow the program's structure:

| module | what it models |
|---|---|
| `Wrappers`, `Coerce`, `Text`, `Seqs` | `Option`, JavaScript truthiness defaults, digit strings, `parseInt`, `trim`, `includes`, `replace`, lower-casing, `Array.prototype.filter` |
| `TimerTypes` | the three session types, the 25/5/15 table, the minutes/seconds split of a remaining time |
| `SessionState` | the stored `timerState`, the background world, the effects and the popup's messages |
| `FocusSession` | START, PAUSE, RESUME, END, completion and the `pomodoroEnd` alarm |
| `Notices`, `Classifier` | notification records and counters; `shouldBlockNotification`, the intercepted `create`, source detection, and the allowed and blocked lists |
| `Background` | the install handler and the message dispatcher |
| `Storage` | `getValue`/`setValue`, `initializeDefaultSettings`, `getTimerSettings`, the sound gate |
| `TimerView` | the countdown component: load view, relevance, expiry, tick, `saveTimerState`, the countdown effect's write-back, `MM:SS` |
| `TaskBoard`, `Dashboard` | the four-column board and its operations; active-task resolution |
| `NotificationFilter`, `NotificationsPage` | allow-list toggles; load filter, search, source filter, delete, clear and grouping |
| `Analytics` | capped session history, session completion, focus-time summaries, daily statistics |
| `SettingsForm` | the settings form: bounds, validated input, reset, load defaults, auto-save |
| `AdminFormat` | the admin dashboard's minutes formatter |

## Model

| member | source | states |
|---|---|---|
| TimerTypes.DefaultMinutes | background/background.js:155-161 | The built-in length is 5 exactly for SHORT_BREAK and 15 exactly for LONG_BREAK. Every other type string gets 25. |
| TimerTypes.TypeOrPomodoro | background/background.js:171 | `savedType \|\| 'POMODORO'` is never empty. A non-empty type is kept. |
| TimerTypes.Decompose | background/background.js:214-216 | The paused clock has seconds in [0,59]. Its whole-second value is within one second below the remaining milliseconds. |
| TimerTypes.DecomposeWholeSeconds | background/background.js:214-216 | A remaining time of exactly m*60+s seconds, with s<60, splits back into m and s. |
| FocusSession.Start | background/background.js:150-204 | START ignores the prior state. It stores an active session of the type's default length: endTime = now + length, seconds 0, no pausedAt, the task id. It also sets activeTimer, the focus flag, the alarm at endTime, badge ON and the start notification. |
| FocusSession.Pause | background/background.js:207-240 | PAUSE does nothing unless the session is running. Otherwise it freezes the floor of the remaining time, clears endTime, stamps pausedAt and keeps type and task. It clears the alarm, sets badge PAUSE and drops the focus flag. |
| FocusSession.Resume | background/background.js:243-274 | RESUME does nothing unless a stopped session exists. Otherwise the session runs again and ends exactly its saved time after now. The alarm is set there and the badge is ON. |
| FocusSession.End | background/background.js:277-314 | END on a stored session gives a stopped, full-length session of its type with 0 seconds and no endTime. The task is kept, the alarm cleared and the badge emptied. |
| FocusSession.Completed | background/background.js:317-338 | A POMODORO completion is END with the focus flag off. A break completion leaves the world unchanged. Either way it creates exactly one `<type> Completed!` notification with the type's message, and empties the badge. |
| FocusSession.OnAlarm | background/background.js:341-354 | Anything but a `pomodoroEnd` alarm on a running stored session changes nothing. That alarm creates exactly one completion notification titled with the stored type (POMODORO when empty) plus " Completed!", and clears the badge. A Pomodoro is stopped at its full length, keeping its task, with focus mode off and the alarm cleared. A break leaves the world unchanged. |
| FocusSession.PauseResumeRoundTrip | background/background.js:210-271 | Pausing at t and resuming at t' gives a remaining time at t' at most the remaining time at t, and less than one second below it. Type and task are kept. |
| FocusSession.EndIdempotent | background/background.js:277-314 | Ending twice equals ending once at the later time. |
| FocusSession.TransitionsPreserveWellFormed | background/background.js:150-354 | Every command keeps a well-formed stored session well-formed. A running session has an endTime and no pausedAt; a stopped one the reverse; seconds are in [0,59]. |
| FocusSession.PomodoroAlarmCompletesOnce | background/background.js:341-351 | A Pomodoro completed by its alarm is stopped, so a second alarm does nothing. |
| FocusSession.BreakAlarmLeavesSessionRunning | background/background.js:317-351 | A break completed by its alarm stays stored as running, so another alarm completes it again. |
| FocusSession.StartPauseResumeScenario | background/background.js:150-271 | A Pomodoro paused ten minutes after its start keeps 15:00. Resumed at t1, it ends at t1 + 900000. |
| SessionState.Then | background/background.js:317-337 | Composed effects list both sets of notifications in order. The later alarm change and badge win. |
| Coerce.IdOrNull | popup/components/PomodoroTimer.jsx:312-319 | `id \|\| null` keeps a truthy id and maps 0 or a missing id to null. |
| Classifier.ShouldBlock | background/background.js:438-475 | A source is blocked only while the focus flag is set and a stored session runs. A break with breaks enabled blocks nothing. Otherwise the source is blocked iff it is not in allowFrom; the default allowFrom is Gmail only. |
| Classifier.Bump | background/background.js:478-492 | Only a Gmail or Calendar source raises its own counter by one. |
| Classifier.Block | background/background.js:495-509 | The blocked list grows by exactly the stamped record. Nothing else changes. |
| Classifier.Allow | background/background.js:512-544 | A record with the same source and message younger than 10 s leaves the world unchanged. Otherwise the stamped record is appended and the counters bumped, which keeps them equal to the list's counts. |
| Classifier.Clear | background/background.js:142-147 | The allowed list is emptied and the counters zeroed. The blocked list and the session are untouched. |
| Classifier.AllowCollapsesRepeats | background/background.js:519-527 | The same notification allowed twice within 10 s is stored at most once. A second call after an append is a no-op. |
| Classifier.Intercept | background/background.js:71-101 | The extension's own ids and titles pass untouched. Another request is blocked iff a System notification would be blocked; a blocked one gets the empty id and a System record on the blocked list. |
| Classifier.DetectSite | background/background.js:393-396 | Gmail is detected iff the URL contains mail.google.com. Calendar is detected iff it does not, but contains calendar.google.com. |
| Classifier.ExtractDetails | background/background.js:357-374 | The details carry the site's source name and the URL as link. A Gmail message is the tab title, or `New Gmail notification` for an empty title. A Calendar message is `New Calendar notification` for an empty title. Otherwise it is the title trimmed, after removing its first `Google Calendar -`, so it has no white space at either end. |
| Classifier.CalendarMessage | background/background.js:370 | An empty title gives `New Calendar notification`. A non-empty title loses its first `Google Calendar -` and is trimmed, so the message starts and ends with no white space; a title without the prefix is only trimmed. |
| Classifier.CalendarTitleStripped | background/background.js:370 | A Calendar title that starts with `Google Calendar -` becomes the trimmed rest. |
| Classifier.Route | background/background.js:405-426 | A record is appended to the blocked list iff its source should be blocked, and then the allowed list and counters are unchanged. Otherwise the blocked list is unchanged, and the record is appended to the allowed list iff it is not a recent duplicate. A duplicate changes nothing. No other part of the world changes, and consistent counters stay consistent. |
| Classifier.OnRequestCompleted | background/background.js:377-435 | A request changes nothing when: focus is off, the URL has no notification keyword, no site matches, or the tab has no title. From a titled tab it routes `extractDetails(url, title)` of the detected site, so Gmail records the tab title and Calendar the title without its prefix, trimmed, each with the URL as link. Without a tab, it records `Potential <source> notification`. It never touches the session or the filter settings and keeps the counters consistent. |
| Classifier.TitledCalendarTabRecordsEvent | background/background.js:399-410 | A focused request from a Calendar tab titled `Google Calendar - <rest>` routes a Calendar record whose message is `<rest>` trimmed and whose link is the URL. |
| Background.Install | background/background.js:7-19 | Install writes the default filter settings, empty lists and zero counters. It keeps the session and the focus flag. |
| Background.Dispatch | background/background.js:118-139 | START runs a full-length session of the (defaulted) type for the task with focus mode on. PAUSE leaves nothing running. RESUME restarts a stopped session to end its saved time after now, and changes nothing otherwise. END stops any stored session with focus mode off. TIMER_COMPLETED creates one notification and clears the badge, stopping a Pomodoro and leaving the world alone for a break. CLEAR_NOTIFICATIONS empties the allowed list and zeroes the counters, keeping the blocked list and the session. CHECK_FOCUS_MODE alone replies, with the blocking decision for its source (System by default). Unknown actions change nothing. |
| Background.OwnNotificationsNeverBlocked | background/background.js:71-85 | Every notification created by START, by completion or by the alarm path is self-exempt from interception. |
| Background.CompletedTitleExempt | background/background.js:75 | Every completion title contains `Completed`. |
| Background.NothingBlockedWhenStopped | background/background.js:453-456 | After PAUSE or END, or while no session runs, no source is blocked. |
| Background.CheckFocusModeDuringPomodoro | background/background.js:131-137 | During a started Pomodoro, CHECK_FOCUS_MODE for Gmail answers not blocking under the default list. It answers blocking when the list is empty. |
| Background.BreakLetsGmailThrough | background/background.js:399-475 | During a short break with breaks enabled, a Gmail request is never put on the blocked list. From a titled Gmail tab it goes through the allowed list with the tab title as message and the URL as link. |
| Background.MessagesPauseResume | background/background.js:118-127 | START, PAUSE and RESUME messages give the state machine's own results. |
| Storage.GetValue | utils/storage.js:4-10 | A stored value, null included, is returned. Only a missing key gives the default. |
| Storage.SetValue | utils/storage.js:13-19 | The key gets the value. Every other key keeps its value. |
| Storage.GetAfterSet | utils/storage.js:4-19 | A value set is read back. Other keys read as before. |
| Storage.InitializeDefaultSettings | utils/storage.js:52-79 | The defaults are written only when no settings are stored. Existing settings are returned unchanged. |
| Storage.InitializeIdempotent | utils/storage.js:52-79 | Initialising twice is initialising once. |
| Storage.InitialDuration | popup/components/PomodoroTimer.jsx:28-35 | SHORT_BREAK uses the stored short-break length when truthy, else 5. LONG_BREAK uses the stored long-break length when truthy, else 15. Every other type, unknown ones included, uses the stored Pomodoro length when truthy, else 25. The result is never 0. |
| Storage.GetTimerSettings | utils/storage.js:123-138 | The lengths are the `\|\|`-defaulted settings. The interval is the stored one when truthy, else 4. autoStartBreaks is false only for a stored false; autoStartPomodoros is true only for a stored true. The timer state is passed through. |
| Storage.TimerSettingsDefaultsAgree | utils/storage.js:54-79 | With nothing stored, the timer settings equal those read from the written defaults: 25/5/15, true, false, 4. |
| Storage.PlaySoundNotification | utils/storage.js:85-100 | Sound is muted iff enableSounds is exactly false. Otherwise the given sound (when non-empty) plays at the given volume, or at 70. |
| TimerView.SaveTimerState | popup/components/PomodoroTimer.jsx:299-321 | A running state ends mins:secs after now and has no pausedAt. A stopped one has no endTime and pausedAt = now. Task and activeTimer are the id or null. The state is well-formed for a proper clock. |
| TimerView.SelectorDuration | popup/components/PomodoroTimer.jsx:57-61 | For the three known types, the view's ternary agrees with getInitialDuration. Any other type gets the long-break length. |
| TimerView.LoadView | popup/components/PomodoroTimer.jsx:44-164 | With no state, or in an instance that does not own the session, the view shows its own type's length, stopped, and writes nothing. A running session shows the floor split of endTime - now; once expired it resets to full length and writes a stopped state. A paused session shows its saved clock, with 0 minutes falling back to full length. |
| TimerView.Tick | popup/components/PomodoroTimer.jsx:199-261 | Without a truthy endTime the tick does nothing. Otherwise it counts down iff time remains, showing the floor split of the remaining time. It expires iff nothing remains. It then stops at the type's full length, writes a stopped state paused at now with no endTime for the instance's type and task, and sends TIMER_COMPLETED. |
| TimerView.SyncOnRerun | popup/components/PomodoroTimer.jsx:187-197 | A loaded, running instance writes a running state whenever its countdown effect re-runs. The state ends the displayed minutes and seconds after now, for its type and task. A stopped or unloaded instance writes nothing. |
| TimerView.SyncDrift | popup/components/PomodoroTimer.jsx:187-197 | The rewrite moves the stored end time. Let d be the time since the clock was shown. The new end time is at most d later, and less than one second minus d earlier. |
| TimerView.TickThenSync | popup/components/PomodoroTimer.jsx:199-268 | The same bound holds for the clock a tick just computed, which is what the minute-change re-run writes back. |
| TimerView.SyncShortensExample | popup/components/PomodoroTimer.jsx:187-268 | 60.5 s before the end, the tick shows 01:00. The re-run at that instant makes the session end half a second early. |
| TimerView.LoadAndTickAgree | popup/components/PomodoroTimer.jsx:109-126 | A fresh load and a tick show the same clock for the same running session and the same instant. |
| TimerView.ExpiredWriteBackIsStable | popup/components/PomodoroTimer.jsx:127-136 | The state written on expiry, loaded again, shows the same view and writes nothing more. |
| TimerView.ExpiredTickReloads | popup/components/PomodoroTimer.jsx:229-258 | The state a tick writes on expiry loads as that type's full length, stopped. |
| TimerView.StartThenView | popup/components/PomodoroTimer.jsx:109-126 | After the worker starts a session, its instance shows the floor split of the time left and is running. |
| TimerView.StartScenario | popup/components/PomodoroTimer.jsx:109-126 | A Pomodoro started at t0 shows 24:55 at t0 + 5000. |
| TimerView.PauseThenView | popup/components/PomodoroTimer.jsx:151-164 | After a background pause, the owning instance shows the frozen clock, stopped, at any later time, unless 0 minutes fall back to full length. |
| TimerView.IrrelevantInstanceIsInert | popup/components/PomodoroTimer.jsx:74-92 | An instance that does not own the stored session shows its own type's configured length, stopped, and writes nothing. |
| TimerView.ChangeType | popup/components/PomodoroTimer.jsx:271-296 | Switching type stops at the new type's full length and writes that stopped state. Loading it back at any later time shows the same view. |
| TimerView.FormatTime | popup/components/PomodoroTimer.jsx:323-328 | "Loading..." appears iff the minutes are unknown. For non-negative minutes and seconds below 60, the text splits at its third character from the end into two digit groups that read back as the clock. It is five characters iff the minutes are below 100. |
| TimerView.ClockTextReadsBack | popup/components/Tasks.jsx:99-101 | The board's MM:SS for non-negative minutes and seconds below 60 splits at the colon, the third character from the end, into two digit groups that read back as the clock. It is five characters iff the minutes are below 100. |
| TimerView.Pad2ReadsBack | popup/components/Tasks.jsx:99-101 | `padStart(2, '0')` of a natural number gives at least two digits that read back as it. It gives exactly two below 100, and the plain decimal text from 10 on. |
| TaskBoard.Set | popup/components/Tasks.jsx:113-116 | The computed key replaces exactly one column. |
| TaskBoard.Without | popup/components/Tasks.jsx:143 | Filtering by id keeps exactly the tasks with another id and no more than the column held. |
| TaskBoard.WithoutIsFilter | popup/components/Tasks.jsx:143 | Removing by id is the generic array filter with the test `t.id !== id`. |
| TaskBoard.WithoutKeepsOrder | popup/components/Tasks.jsx:143 | Removing by id keeps the other tasks in their order, each as often as it occurs, and drops every copy of the id. |
| TaskBoard.FindIndex | popup/components/Tasks.jsx:302 | findIndex returns the first task with the id, and -1 (None) iff there is none. |
| TaskBoard.BoardDuration | popup/components/Tasks.jsx:89-96 | The board's duration table is the 25/5/15 table. |
| TaskBoard.AddTask | popup/components/Tasks.jsx:104-116 | The new task is appended at the end of the chosen column. The other columns are unchanged and the multiset of tasks gains exactly it. |
| TaskBoard.ApplyPatch | popup/components/Tasks.jsx:130 | A merge keeps id and creation time and overrides only the edited fields. |
| TaskBoard.UpdateTask | popup/components/Tasks.jsx:126-135 | Only tasks with the id in that column are patched. Every other task and column is unchanged. |
| TaskBoard.UpdateKeepsIds | popup/components/Tasks.jsx:126-135 | An edit keeps every column's ids in order, so no task is added, removed or moved. Applying the same edit twice equals applying it once. |
| TaskBoard.DeleteTask | popup/components/Tasks.jsx:139-153 | No task with the id remains in the column. Every other task of the column stays, as often as it occurred and in its order, and nothing is added. The other columns are unchanged. activeTimer is cleared iff it was the deleted id. |
| TaskBoard.ClearColumn | popup/components/Tasks.jsx:156-173 | Unconfirmed, nothing changes. Confirmed, exactly that column is emptied, and activeTimer is cleared iff it was unset or its task was in the column. |
| TaskBoard.MoveTaskAsWritten | popup/components/Tasks.jsx:301-328 | With the id absent from the source column, the board is unchanged. Otherwise it is the object literal as written, where the computed key overrides the toDo entry. |
| TaskBoard.MoveTask | popup/components/Tasks.jsx:301-328 | An absent id, or a refused confirmation, changes nothing. An ordinary move takes the task out of the source and appends it to the target. A confirmed move into a busy inProgress makes it [task] and appends the old in-progress tasks to toDo, also when the source is toDo. In every case the columns the move does not touch are unchanged. |
| TaskBoard.WithoutUnique | popup/components/Tasks.jsx:143 | Filtering out an id that occurs once removes exactly that task from the multiset. |
| TaskBoard.MoveConserves | popup/components/Tasks.jsx:301-328 | Moving a task with a unique id between two columns conserves the multiset of all tasks. |
| TaskBoard.MoveAgreesOutsideLoss | popup/components/Tasks.jsx:308-326 | The move as written and the corrected move agree except on a confirmed move from toDo into a busy inProgress. |
| TaskBoard.MoveFromToDoLosesInProgress | popup/components/Tasks.jsx:318-319 | As written, moving from toDo into a busy inProgress loses exactly the old in-progress tasks. |
| TaskBoard.MoveLossExample | popup/components/Tasks.jsx:318-319 | Dragging task 2 from toDo onto an inProgress holding task 1 leaves a board without task 1. |
| TaskBoard.Drop | popup/components/Tasks.jsx:286-298 | A drop onto the same column, of an id the source column lacks, or into a busy inProgress with the confirmation refused, changes nothing. Otherwise the task lands in the target column and leaves the source column. The move is `moveTask` as written: a task whose id is unique in its column keeps the multiset of all tasks, except on a confirmed drop from toDo into a busy inProgress, where exactly the old in-progress tasks are lost and toDo keeps the remaining to-do tasks. |
| TaskBoard.DropCorrected | popup/components/Tasks.jsx:286-298 | handleDrop on the corrected move: it agrees with Drop except on a confirmed drop from toDo into a busy inProgress, where the task goes in progress and the old in-progress tasks follow the remaining to-do tasks. A task whose id is unique in its column keeps the multiset of all tasks in every case. |
| TaskBoard.DropLossExample | popup/components/Tasks.jsx:292 | Dropping task 2 from toDo onto an inProgress holding task 1 and confirming leaves a board without task 1; the corrected drop moves task 1 to toDo. |
| TaskBoard.Persist | popup/components/Tasks.jsx:80-86 | The stored board is replaced by the page's board iff some column is non-empty; otherwise storage keeps what it had. |
| TaskBoard.ClearingLastColumnIsNotPersisted | popup/components/Tasks.jsx:80-86 | Clearing the only non-empty column leaves the old board in storage. |
| TaskBoard.ReadTimer | popup/components/Tasks.jsx:35-42 | The board's timer copy follows a stored session: minutes with 0 read as 25, seconds as stored (the 0 default only stands in for a missing value), running flag, and a missing type read as POMODORO. With none stored, it is kept. |
| TaskBoard.ToggleReadsBack | popup/components/Tasks.jsx:35-42 | The board reads back what the toggle stored: its running flag, its type when one was set (POMODORO otherwise), the full length of the type after a start, and the clock that was showing after a pause. |
| TaskBoard.ColumnOf | popup/components/Tasks.jsx:255-261 | The column found holds the id, and there is none iff no column does. It is the first column holding the id in the order inProgress, toDo, completed, backlog. |
| TaskBoard.TogglePomodoroForTask | popup/components/Tasks.jsx:223-270 | activeTimer and the stored task become the task. If that task's timer is running, its clock is stored paused at now and PAUSE is sent. Otherwise a full-length state of the type (default POMODORO) is stored and START is sent. The board changes only on a start, which moves the task into inProgress with `moveTask` as written. |
| TaskBoard.ToggleStartMovesTaskInProgress | popup/components/Tasks.jsx:253-262 | Starting a task's timer, when the move is accepted, leaves the task in inProgress. |
| Dashboard.ResolveActive | popup/components/Dashboard.jsx:27-41 | Without a truthy activeTimer and a board, nothing is resolved or removed. Otherwise the active task is the first inProgress task with that id, as `find` returns. activeTimer is removed iff there is none. |
| Dashboard.ResolveIdempotent | popup/components/Dashboard.jsx:27-41 | Resolving again with what the first pass left changes nothing more. |
| Dashboard.OtherColumnIsDangling | popup/components/Dashboard.jsx:28-30 | A task that is on the board but not in progress counts as dangling: its activeTimer is removed. |
| Dashboard.ToggleStartIsResolved | popup/components/Dashboard.jsx:27-33 | After a task's timer is started from the board and the move is accepted, the dashboard resolves that task as active. |
| Seqs.Filter | popup/components/Notifications.jsx:53 | filter keeps exactly the elements that pass, in a list no longer than the input. |
| Seqs.FilterSubsequence | popup/components/Notifications.jsx:53 | The filtered list is a subsequence of the input: elements are only deleted, never reordered. |
| Seqs.FilterMultiset | popup/components/Notifications.jsx:53 | Each passing value is kept exactly as often as it occurs, and every other value is dropped. |
| Seqs.FilterIdempotent | popup/components/Notifications.jsx:53 | Filtering twice with the same test is filtering once. |
| Seqs.FilterCommutes | popup/components/Notifications.jsx:35-47 | Two filters in either order give the same list. |
| NotificationFilter.LoadSettings | popup/components/NotificationFilter.jsx:4-15 | With nothing stored, the settings are Gmail only with breaks enabled. Stored settings are taken as they are. |
| NotificationFilter.PageShowsEnforcedSettings | popup/components/NotificationFilter.jsx:4-15 | The page shows the settings the background enforces, with the same default. A source the background blocks is shown as not allowed, and a toggle the page stores is what the background reads next. |
| NotificationFilter.ToggleSource | popup/components/NotificationFilter.jsx:17-29 | The toggled source's membership flips and every other source's membership is kept. An absent source is appended at the end; a present one is removed, shortening the list. enableDuringBreaks is unchanged. |
| NotificationFilter.ToggleBreakNotifications | popup/components/NotificationFilter.jsx:31-41 | enableDuringBreaks is negated and allowFrom kept. |
| NotificationFilter.ToggleTwiceRestoresMembership | popup/components/NotificationFilter.jsx:19-21 | Toggling twice restores membership of every source. It restores the very settings when the source was absent. |
| NotificationFilter.ToggleBreakTwice | popup/components/NotificationFilter.jsx:31-41 | Toggling breaks twice restores the settings. |
| NotificationFilter.AllowedSourceIsNeverBlocked | popup/components/NotificationFilter.jsx:17-29 | A source toggled into the list is never blocked by the worker. |
| NotificationFilter.RemovedSourceIsBlockedInFocus | popup/components/NotificationFilter.jsx:17-29 | A source toggled out of the list is blocked during a running Pomodoro with focus on. |
| NotificationsPage.LoadFilter | popup/components/Notifications.jsx:18-20 | Exactly the Gmail and Calendar records are loaded, each as often as stored and in stored order. |
| NotificationsPage.LoadFilterKeepsStats | popup/components/Notifications.jsx:18-20 | The loaded list has the same Gmail and Calendar counts as the stored one. |
| NotificationsPage.LoadFilterIdempotent | popup/components/Notifications.jsx:18-20 | Loading an already loaded list changes nothing. |
| NotificationsPage.Search | popup/components/Notifications.jsx:35-40 | An empty term keeps everything. Otherwise the records kept are exactly those whose message or source contains the term, ignoring case. They keep their multiplicity and order. |
| NotificationsPage.SourceFilter | popup/components/Notifications.jsx:43-47 | `all` keeps everything. Otherwise the records kept are exactly those whose source equals the filter, ignoring case. They keep their multiplicity and order. |
| NotificationsPage.FiltersCommute | popup/components/Notifications.jsx:35-47 | Searching then filtering by source equals filtering by source then searching. |
| NotificationsPage.Delete | popup/components/Notifications.jsx:52-73 | No record with the id remains and every other record stays. The counters equal the Gmail and Calendar counts of what remains. |
| NotificationsPage.DeleteUniqueRecount | popup/components/Notifications.jsx:52-73 | Deleting the one record with a given id takes exactly it out. Only its own source's count drops, by one. |
| NotificationsPage.ClearAll | popup/components/Notifications.jsx:75-87 | The list is emptied and the counters zeroed, the same as the worker's CLEAR_NOTIFICATIONS. |
| NotificationsPage.GroupBySourceIsGrouping | popup/components/Notifications.jsx:110-117 | The reduce yields one key per occurring source, each holding exactly that source's records in list order. |
| NotificationsPage.GroupedOnce | popup/components/Notifications.jsx:110-117 | Every listed record appears under its own source and under no other key. |
| Analytics.SessionStart | utils/analytics.js:28-44 | A started session is not completed and records its task, type and start time. |
| Analytics.TrackFocusSession | utils/analytics.js:4-25 | The history gains the session, stamped and completed, at its end. Only the last 500 entries are kept, in order. |
| Analytics.TrackKeepsCap | utils/analytics.js:16-17 | A history of at most 500 stays at most 500. Below the cap, the session is appended. |
| Analytics.SessionDuration | utils/analytics.js:58-66 | Only the three known types get a duration, which is the configured length. |
| Analytics.TrackSessionComplete | utils/analytics.js:47-90 | With no current session, the result is null. Otherwise the session is closed with its duration and end time, only a Pomodoro is added to the history, and the current session is removed. |
| Analytics.StartThenComplete | utils/analytics.js:28-90 | A started session, once completed, keeps its task, type and start time, ends now with the configured length of its type, and leaves the history alone unless it is a Pomodoro. A Pomodoro below the cap is appended and adds exactly one counted session. |
| Analytics.CompleteCountsPomodoro | utils/analytics.js:47-90 | Completing keeps the 500 cap. Below the cap, the completed Pomodoros in the history grow by one iff the session was a Pomodoro. At the cap, a counted oldest record makes room. |
| Analytics.FocusTime | utils/analytics.js:118-123 | The focus time of minutes that are all non-negative is non-negative. |
| Analytics.FocusSummary | utils/analytics.js:93-173 | Each period's count and minutes equal a direct count and sum of the completed Pomodoros that started in its window. A window inside another, today within the week or the week within the month, counts no more. Today and yesterday count no more than all time. |
| Analytics.WindowCounts | utils/analytics.js:118-134 | Filtering the completed Pomodoros by a window gives the direct count and minute sum. |
| Analytics.CountInMonotone | utils/analytics.js:126-134 | A window contained in another counts no more sessions. |
| Analytics.SplitWindow | utils/analytics.js:126-134 | Filtering by two disjoint windows that cover a third splits its count and its focus time. |
| Analytics.YesterdayAndTodayPartition | utils/analytics.js:126-134 | Yesterday plus today is exactly the sessions since yesterday's midnight, in count and in minutes. |
| Analytics.DailyStats | utils/analytics.js:176-221 | There are exactly `days` entries, oldest first. Entry k counts the sessions of the inclusive day starting `days-1-k` days before today. |
| Analytics.DailyStatsAreConsecutive | utils/analytics.js:190-196 | Consecutive entries are consecutive days and the last is today. |
| Analytics.DailyYesterdayMatchesSummary | utils/analytics.js:131-134 | The daily entry for yesterday, an inclusive day, counts exactly the summary's yesterday sessions and minutes, a half-open window. |
| SettingsForm.Bounds | popup/components/Settings.jsx:130-172 | The inputs accept 1-120 Pomodoro minutes, 1-30 short-break minutes, 1-60 long-break minutes and a long break every 2-10 sessions. The defaults lie within every range. |
| SettingsForm.SetField | popup/components/Settings.jsx:116 | Setting a field changes exactly that field. |
| SettingsForm.HandleNumberChange | popup/components/Settings.jsx:113-118 | The field takes the parsed value only when parsing succeeds and the value is within [min, max]. Otherwise the form is unchanged. |
| SettingsForm.InputKeepsValid | popup/components/Settings.jsx:113-118 | Typing into a valid form keeps it valid. |
| SettingsForm.TypingInRangeSets | popup/components/Settings.jsx:113-118 | Typing the decimal text of an in-range number sets the field to it. |
| SettingsForm.ResetToDefaults | popup/components/Settings.jsx:100-110 | Reset gives the form a first load shows with nothing stored, which is also what loading the written defaults gives. It is valid. |
| SettingsForm.LoadFormAsWritten | popup/components/Settings.jsx:28-47 | With nothing stored, the form is kept. Otherwise each numeric field is the stored value when truthy, else 25, 5, 15, 70 or 4. The sound is the stored one when non-empty, else `bell`. enableSounds and autoStartBreaks are true unless stored false, and autoStartPomodoros only when stored true. So a stored volume 0 reads as 70. |
| SettingsForm.LoadForm | popup/components/Settings.jsx:28-47 | The volume defaults to 70 only when missing, so a stored 0 stays 0. enableSounds and autoStartBreaks are true unless exactly false, and autoStartPomodoros is true only for true. Every other field, the three lengths, the sound and the interval included, is the load as written, also when the stored volume is 0. |
| SettingsForm.ToSettings | popup/components/Settings.jsx:64-74 | The saved object has no weekly goal. Its lengths are what the timer reads for a valid form. |
| SettingsForm.SaveLoadRoundTrip | popup/components/Settings.jsx:28-78 | Saving a valid form and loading it back gives the same form. |
| SettingsForm.VolumeZeroLost | popup/components/Settings.jsx:40 | As written, a saved volume of 0 reloads as 70. |
| SettingsForm.AutoSave | popup/components/Settings.jsx:59-78 | Nothing is written while loading. Afterwards a form whose defaulted fields are truthy, as every valid form with a sound is, is written so that it loads back as exactly that form. |
| SettingsForm.Mount | popup/components/Settings.jsx:23-78 | Opening the page with the corrected load writes a complete settings object without a weekly goal, and loading it shows the same form as before, so opening the page twice shows the same form. MountAsWritten is the page as written. |
| SettingsForm.MountAsWritten | popup/components/Settings.jsx:23-78 | As written, opening the page likewise writes a complete object. Loading it with `\|\|` shows the same form as before, so a lost volume stays lost. |
| SettingsForm.SoundFollowsForm | utils/storage.js:85-100 | Sounds are muted iff the saved form turned them off, for any requested sound and volume. Without a sound argument the parameter default `bell` plays, not the saved sound. |
| SettingsForm.OpeningThePageRewritesVolume | popup/components/Settings.jsx:40 | As written, merely opening the page replaces a stored volume of 0 by 70. With the corrected load, the stored settings are unchanged. |
| AdminFormat.JsRem60 | popup/components/AdminDashboard.jsx:161 | `m % 60` has the sign of m, magnitude below 60, and differs from m by a multiple of 60. |
| AdminFormat.FormatMinutes | popup/components/AdminDashboard.jsx:159-167 | From 60 minutes up, the text is `<hours>h <mins>m`. Below 60, it is `<m>m`. |
| AdminFormat.HoursAndMinutes | popup/components/AdminDashboard.jsx:160-161 | For m >= 0, 60*hours + mins = m, with mins in [0,59]. |
| AdminFormat.FormatReadsBack | popup/components/AdminDashboard.jsx:159-167 | Every non-negative count prints as text that reads back as it. |
| AdminFormat.FormatInjective | popup/components/AdminDashboard.jsx:159-167 | Distinct non-negative counts print differently. |
| Text.ReplaceFirst | background/background.js:370 | `replace` with a string pattern substitutes the first occurrence only, with no occurrence before it. Without an occurrence the text is unchanged. |
| Text.TrimStart | background/background.js:370 | Leading white space is removed: everything dropped is white space and the rest does not start with any. |
| Text.TrimEnd | background/background.js:370 | Trailing white space is removed: everything dropped is white space and the rest does not end with any. |
| Text.Trim | background/background.js:370 | `trim` returns the piece of its input between a run of leading and a run of trailing white space, with no white space at either end. |
| Text.ParseIntOfNatToString | popup/components/Settings.jsx:114 | `parseInt` reads back the decimal text of every natural number. |

## Left out

- All browser plumbing (`chrome.storage`, alarms, badge, `notifications.create`, `webRequest`,
  `tabs.get`, `runtime.sendMessage`) is left out. Storage is an explicit record and the calls are
  returned values.
- Callbacks run in sequence. Concurrent writers and last-write-wins races are not modelled. That
  includes `toggleTimer` in the countdown (popup/components/PomodoroTimer.jsx:330-346), which writes
  its own state and then has the worker overwrite it with a full-length session.
- The in-memory `isFocusModeActive` flag and its loss on a worker restart are not modelled. It is a
  field of the world that only the transitions change.
- The varargs decoding of `chrome.notifications.create` is not modelled. The interceptor takes an
  already decoded (id, title, message) request.
- A stored `endTime` that is missing (NaN arithmetic) is treated like `null` (0 in arithmetic).
- `handleTimerCompleted` with no type prints `undefined Completed!` in the source. The model's empty
  type prints ` Completed!`.
- The install handler's one-time creation of an empty board and empty `focusSessions` is left out;
  the board model starts from whatever is stored.
- Progress percentages are left out: they are floating point. So is `getTotalSeconds`, which only
  feeds them; its arithmetic is the same as `FocusSession.SavedMs`. Volume/100 and audio playback are
  left out too.
- Dates: `Date.now()`, `toISOString`, `toLocaleDateString`, `setHours` and `setDate` are not
  modelled. Midnights are integer parameters, and day k of `getDailyStats` starts at
  `todayStart - k*86400000`, so daylight-saving days are not modelled.
- Storage.PlaySoundNotification: no code of the extension calls it; it is only defined and
  exported (utils/storage.js:85, 154). The model states what a call would do, and no transition
  plays a sound.
- Analytics.DailyStats: `days` is always passed. The source's parameter default `days = 7`
  (utils/analytics.js:176) is the constant `DEFAULT_DAYS`, which a caller omitting it passes.
- `startTime` in the analytics is an integer. Session ids are integers, the numeric value of
  `Date.now().toString()`; they are not assumed unique.
- Regular expressions `/mail\.google\.com/` and `/calendar\.google\.com/` are substring tests. The
  listener's URL scope `*://*.google.com/*` is not modelled.
- Lower-casing covers ASCII letters only.
- The keys of the grouping object keep first-occurrence order. JavaScript would move integer-like
  source names to the front; that is not modelled.
- `window.confirm` is a boolean input.
- TaskBoard.DeleteTask and TaskBoard.ClearColumn: when they clear `activeTimer` they also set the
  page's local timer copy to not running (popup/components/Tasks.jsx:146-149, 160-163). `Page` does
  not hold that copy, so this is not modelled; it is display state of the board page only.
- TaskBoard.TogglePomodoroForTask: the `startTime` field the toggle writes into `timerState`
  (popup/components/Tasks.jsx:234) is not part of `TimerState`. No session logic reads it; the
  analytics' `startTime` belongs to the separate session records.
- Notifications.jsx has its own `toggleNotificationSource` (popup/components/Notifications.jsx:89-98)
  and `toggleBreakNotifications` (100-107). Both are modelled by `NotificationFilter.ToggleSource`
  and `NotificationFilter.ToggleBreakNotifications`. The page's version pushes onto the shared array
  in place; that aliasing is not modelled.
- AdminFormat.FormatMinutes: fractional minute counts (`Math.floor` on a non-integer) are not
  modelled, and negative counts are stated only through `JsRem60`.
- Analytics.FocusTime: states only non-negativity of the sum. Its exact value is fixed by
  `Analytics.FocusTimeCons` and `Analytics.SplitWindow`.
- dist/background.js, the popup's tab routing, PopoutButton, ProductivityAnalytics, FocusStreak,
  NotificationsOverview and content-script.js are not part of this model. So is the rest of the
  admin dashboard beyond `formatTime`.

## Findings

| source | as written | input that shows it | evidently intended | confidence | as-written member | corrected member |
|---|---|---|---|---|---|---|
| popup/components/Tasks.jsx:318-319 | the computed key `[fromColumn]` overrides the `toDo` entry built on the line before when the source column is `toDo` | drag task 2 from toDo `[2]` onto inProgress `[1]` and confirm: the board becomes inProgress `[2]`, toDo `[]`, and task 1 is gone | the old in-progress tasks move to To Do, as the confirmation text says | high; not executed | TaskBoard.MoveTaskAsWritten (TaskBoard.MoveFromToDoLosesInProgress, TaskBoard.MoveLossExample, TaskBoard.Drop, TaskBoard.DropLossExample) | TaskBoard.MoveTask (TaskBoard.MoveConserves, TaskBoard.DropCorrected) |
| popup/components/Settings.jsx:40 | `settings.notificationVolume \|\| 70` treats a saved volume of 0 as missing | save volume 0 (the slider's minimum) and reopen the page: it shows 70, and the auto-save writes 70 back | 0 is a legitimate volume and is kept | medium; not executed | SettingsForm.LoadFormAsWritten (SettingsForm.VolumeZeroLost, SettingsForm.OpeningThePageRewritesVolume) | SettingsForm.LoadForm (SettingsForm.SaveLoadRoundTrip) |

=== FILE: admin_format.dfy ===
/** The admin dashboard's minutes formatter (`formatTime`), which prints a
    number of minutes as `"<h>h <m>m"` or `"<m>m"`. */
module AdminFormat {
  import opened Wrappers
  import opened Text

  /** JavaScript's `a % 60`: the remainder takes the sign of the dividend. */
  function JsRem60(a: int): (r: int)
    ensures a >= 0 ==> 0 <= r < 60
    ensures a < 0 ==> -60 < r <= 0
    ensures exists q :: a == 60 * q + r
  {
    if a >= 0 then
      assert a == 60 * (a / 60) + a % 60;
      a % 60
    else
      assert -a == 60 * ((-a) / 60) + (-a) % 60;
      assert a == 60 * (-((-a) / 60)) + -((-a) % 60);
      -((-a) % 60)
  }

  /** `formatTime(minutes)`: `Math.floor(m / 60)` hours and `m % 60`
      minutes; the hours are shown only when positive. */
  function FormatMinutes(m: int): (s: string)
    ensures m >= 60 ==> s == NatToString(m / 60) + "h " + NatToString(m % 60) + "m"
    ensures 0 <= m < 60 ==> s == NatToString(m) + "m"
  {
    var hours := m / 60;
    var mins := JsRem60(m);
    assert hours > 0 <==> m >= 60;
    assert m >= 0 ==> mins == m % 60;
    assert 0 <= m < 60 ==> mins == m;
    if hours > 0 then IntToString(hours) + "h " + IntToString(mins) + "m"
    else IntToString(mins) + "m"
  }

  /** For a non-negative count the two parts recompose it. */
  lemma HoursAndMinutes(m: int)
    requires m >= 0
    ensures 60 * (m / 60) + JsRem60(m) == m && 0 <= JsRem60(m) < 60
  {
  }

  /** Reads `"<h>h <m>m"` or `"<m>m"` back as a number of minutes. */
  function ReadMinutes(s: string): (r: Option<int>)
    ensures r.Some? ==> r.value >= 0
  {
    if |s| == 0 || s[|s| - 1] != 'm' then None else ReadCount(s[..|s| - 1])
  }

  /** The index of the first non-digit of `s` at or after `i`, or `|s|`. */
  function DigitRunEnd(s: string, i: nat): (k: nat)
    requires i <= |s|
    ensures i <= k <= |s|
    ensures forall j :: i <= j < k ==> IsDigit(s[j])
    ensures k < |s| ==> !IsDigit(s[k])
    decreases |s| - i
  {
    if i == |s| || !IsDigit(s[i]) then i else DigitRunEnd(s, i + 1)
  }

  /** The text before the final `m`: a digit run, or a digit run, `h `, and
      a second digit run. */
  function ReadCount(body: string): (r: Option<int>)
    ensures r.Some? ==> r.value >= 0
  {
    var k := DigitRunEnd(body, 0);
    if k == 0 then None
    else if k == |body| then Some(DigitsValue(body))
    else if k + 2 < |body| && body[k] == 'h' && body[k + 1] == ' ' && AllDigits(body[k + 2..]) then
      Some(60 * DigitsValue(body[..k]) + DigitsValue(body[k + 2..]))
    else None
  }

  /** Every non-negative count prints as text that reads back as it, so the
      formatter never prints two counts the same way. */
  lemma FormatReadsBack(m: int)
    requires m >= 0
    ensures ReadMinutes(FormatMinutes(m)) == Some(m)
  {
    if m >= 60 {
      HoursFormReadsBack(m, FormatMinutes(m));
    } else {
      MinutesTextReadsBack(m);
    }
  }

  /** The hours form of a count of at least an hour. */
  lemma HoursFormReadsBack(m: int, s: string)
    requires m >= 60 && s == NatToString(m / 60) + "h " + NatToString(m % 60) + "m"
    ensures ReadMinutes(s) == Some(m)
  {
    NatToStringValue(m / 60);
    NatToStringValue(m % 60);
    HoursTextRead(NatToString(m / 60), NatToString(m % 60), m / 60, m % 60);
  }

  /** `"<h>h <mm>m"` over two digit runs worth `h` and `mm` reads back as
      `60*h + mm`. */
  lemma HoursTextRead(H: string, M: string, h: nat, mm: nat)
    requires |H| > 0 && AllDigits(H) && |M| > 0 && AllDigits(M)
    requires DigitsValue(H) == h && DigitsValue(M) == mm
    ensures ReadMinutes(H + "h " + M + "m") == Some(60 * h + mm)
  {
    var body := H + ("h " + M);
    DropLast(H + "h " + M, body);
    HoursBodySplit(H, M, body);
    HoursBodyReads(H, M, h, mm, body);
  }

  /** The text before the final `m`. */
  lemma DropLast(s: string, body: string)
    requires s == body
    ensures (s + "m")[..|s|] == body
  {
  }

  /** Where the hours form splits. */
  lemma HoursBodySplit(H: string, M: string, body: string)
    requires body == H + ("h " + M)
    ensures |body| == |H| + 2 + |M|
    ensures body[|H|] == 'h' && body[|H| + 1] == ' '
    ensures body[..|H|] == H && body[|H| + 2..] == M
    ensures forall j :: 0 <= j < |H| ==> body[j] == H[j]
  {
  }

  /** The hours form without its final `m` reads as its two digit runs. */
  lemma HoursBodyReads(H: string, M: string, h: nat, mm: nat, body: string)
    requires |H| > 0 && AllDigits(H) && |M| > 0 && AllDigits(M)
    requires DigitsValue(H) == h && DigitsValue(M) == mm
    requires |body| == |H| + 2 + |M|
    requires body[|H|] == 'h' && body[|H| + 1] == ' '
    requires body[..|H|] == H && body[|H| + 2..] == M
    requires forall j :: 0 <= j < |H| ==> body[j] == H[j]
    ensures ReadCount(body) == Some(60 * h + mm)
  {
    DigitRunStops(body, 0, |H|);
  }

  /** The digit run starting at `i` ends at the first non-digit `k`. */
  lemma {:induction false} DigitRunStops(s: string, i: nat, k: nat)
    requires i <= k < |s|
    requires forall j :: i <= j < k ==> IsDigit(s[j])
    requires !IsDigit(s[k])
    ensures DigitRunEnd(s, i) == k
    decreases k - i
  {
    if i < k {
      DigitRunStops(s, i + 1, k);
    }
  }

  /** `"<m>m"` reads back as `m`. */
  lemma MinutesTextReadsBack(m: nat)
    ensures ReadMinutes(NatToString(m) + "m") == Some(m)
  {
    var M := NatToString(m);
    DropLast(M, M);
    DigitRunToEnd(M, 0);
    NatToStringValue(m);
  }

  /** A digit string is one digit run. */
  lemma {:induction false} DigitRunToEnd(s: string, i: nat)
    requires i <= |s| && AllDigits(s)
    ensures DigitRunEnd(s, i) == |s|
    decreases |s| - i
  {
    if i < |s| {
      DigitRunToEnd(s, i + 1);
    }
  }

  /** Distinct non-negative counts print differently. */
  lemma FormatInjective(a: int, b: int)
    requires a >= 0 && b >= 0 && FormatMinutes(a) == FormatMinutes(b)
    ensures a == b
  {
    FormatReadsBack(a);
    FormatReadsBack(b);
  }
}

=== FILE: analytics.dfy ===
/** Session history (`utils/analytics.js`): the capped history of completed
    sessions, the completion of the current session, the focus-time
    summary and the per-day statistics, with day boundaries given as
    millisecond timestamps. */
module Analytics {
  import opened Wrappers
  import opened Coerce
  import opened Seqs
  import opened TimerTypes
  import opened Storage

  /** A session record; `id` is the creation time, kept as a number. */
  datatype Session = Session(id: int, taskId: Option<int>, sessionType: string, startTime: int,
                             endTime: Option<int>, duration: Option<int>, completed: bool)

  /** At most this many sessions are kept. */
  const HISTORY_LIMIT: nat := 500

  const DAY_MS: int := 86400000

  /** `trackSessionStart`: a new, not yet completed session. */
  function SessionStart(taskId: Option<int>, timerType: string, now: int): (s: Session)
    ensures !s.completed && s.startTime == now && s.sessionType == timerType && s.taskId == taskId
  {
    Session(now, taskId, timerType, now, None, None, false)
  }

  /** `trackFocusSession`: append the session, stamped and completed, and
      keep only the most recent 500. */
  function TrackFocusSession(history: seq<Session>, s: Session, now: int): (r: seq<Session>)
    ensures |r| == if |history| < HISTORY_LIMIT then |history| + 1 else HISTORY_LIMIT
    ensures r[|r| - 1] == s.(id := now, completed := true)
    ensures forall j | 0 <= j < |r| - 1 :: r[j] == history[|history| - (|r| - 1) + j]
  {
    var appended := history + [s.(id := now, completed := true)];
    if |appended| <= HISTORY_LIMIT then appended else appended[|appended| - HISTORY_LIMIT..]
  }

  /** The cap is kept: a history of at most 500 stays at most 500, and one
      below the cap grows by exactly the tracked session. */
  lemma TrackKeepsCap(history: seq<Session>, s: Session, now: int)
    ensures |history| <= HISTORY_LIMIT ==> |TrackFocusSession(history, s, now)| <= HISTORY_LIMIT
    ensures |history| < HISTORY_LIMIT ==> TrackFocusSession(history, s, now) == history + [s.(id := now, completed := true)]
  {
    var r := TrackFocusSession(history, s, now);
    if |history| < HISTORY_LIMIT {
      assert r[..|r| - 1] == history;
      assert r == r[..|r| - 1] + [r[|r| - 1]];
    }
  }

  /** The result of `trackSessionComplete`. */
  datatype Completion = Completion(completed: Option<Session>, history: seq<Session>, current: Option<Session>)

  /** The duration a completed session records: the configured length of
      its type, and none for a type the code does not know. */
  function SessionDuration(sessionType: string, settings: RawSettings): (d: Option<int>)
    ensures sessionType in {POMODORO, SHORT_BREAK, LONG_BREAK} <==> d.Some?
    ensures d.Some? ==> d.value == InitialDuration(sessionType, settings)
  {
    if sessionType == POMODORO then Some(OrNumber(settings.pomodoroMinutes, 25))
    else if sessionType == SHORT_BREAK then Some(OrNumber(settings.shortBreakMinutes, 5))
    else if sessionType == LONG_BREAK then Some(OrNumber(settings.longBreakMinutes, 15))
    else None
  }

  /** `trackSessionComplete`: close the current session; only a Pomodoro
      enters the history; the current session is removed either way. */
  function TrackSessionComplete(current: Option<Session>, settings: Option<RawSettings>,
                                history: seq<Session>, now: int): (r: Completion)
    ensures current.None? ==> r == Completion(None, history, None)
    ensures current.Some? ==>
      && r.completed.Some? && r.current.None?
      && r.completed.value.completed && r.completed.value.endTime == Some(now)
      && r.completed.value.duration == SessionDuration(current.value.sessionType, SettingsOrEmpty(settings))
      && r.completed.value.(endTime := current.value.endTime, duration := current.value.duration, completed := current.value.completed) == current.value
      && (current.value.sessionType != POMODORO ==> r.history == history)
      && (current.value.sessionType == POMODORO ==>
            |r.history| > 0 && r.history[|r.history| - 1] == r.completed.value.(id := now))
  {
    match current
    case None => Completion(None, history, None)
    case Some(session) =>
      var done := session.(endTime := Some(now), duration := SessionDuration(session.sessionType, SettingsOrEmpty(settings)), completed := true);
      if session.sessionType == POMODORO then
        Completion(Some(done), TrackFocusSession(history, done, now), None)
      else Completion(Some(done), history, None)
  }

  /** Completing the current session keeps the 500 cap, and the number of
      completed Pomodoros in the history grows by one exactly when the
      session was a Pomodoro (below the cap; at the cap the oldest record
      makes room). */
  lemma CompleteCountsPomodoro(current: Option<Session>, settings: Option<RawSettings>, history: seq<Session>, now: int)
    ensures |history| <= HISTORY_LIMIT ==> |TrackSessionComplete(current, settings, history, now).history| <= HISTORY_LIMIT
    ensures var r := TrackSessionComplete(current, settings, history, now);
      var gained := if current.Some? && current.value.sessionType == POMODORO then 1 else 0;
      && (|history| < HISTORY_LIMIT ==> |Counted(r.history)| == |Counted(history)| + gained)
      && (|history| == HISTORY_LIMIT ==>
            |Counted(r.history)| == |Counted(history)| + gained - (if gained == 1 && IsCounted(history[0]) then 1 else 0))
  {
    var r := TrackSessionComplete(current, settings, history, now);
    if current.Some? && current.value.sessionType == POMODORO {
      var done := r.completed.value.(id := now);
      assert IsCounted(done);
      var appended := history + [done];
      FilterConcat(history, [done], IsCounted);
      assert Filter([done], IsCounted) == [done];
      if |history| < HISTORY_LIMIT {
        TrackKeepsCap(history, r.completed.value, now);
      } else if |history| == HISTORY_LIMIT {
        assert r.history == appended[1..];
        assert appended == [history[0]] + appended[1..];
        FilterConcat([history[0]], appended[1..], IsCounted);
      }
      TrackKeepsCap(history, r.completed.value, now);
    }
  }

  /** A session started by `trackSessionStart` and then completed keeps
      its task, type and start time, records the configured length of its
      type, and, when it is a Pomodoro below the cap, is the one record
      the history gains. */
  lemma StartThenComplete(taskId: Option<int>, timerType: string, t0: int, settings: Option<RawSettings>,
                          history: seq<Session>, now: int)
    ensures var r := TrackSessionComplete(Some(SessionStart(taskId, timerType, t0)), settings, history, now);
      && r.completed.Some? && r.current.None?
      && var done := r.completed.value;
      && done.startTime == t0 && done.id == t0 && done.sessionType == timerType && done.taskId == taskId
      && done.completed && done.endTime == Some(now)
      && done.duration == SessionDuration(timerType, SettingsOrEmpty(settings))
      && (timerType != POMODORO ==> r.history == history)
      && (timerType == POMODORO && |history| < HISTORY_LIMIT ==>
            && r.history == history + [done.(id := now)]
            && |Counted(r.history)| == |Counted(history)| + 1)
  {
    var current := Some(SessionStart(taskId, timerType, t0));
    var r := TrackSessionComplete(current, settings, history, now);
    CompleteCountsPomodoro(current, settings, history, now);
    if timerType == POMODORO && |history| < HISTORY_LIMIT {
      TrackKeepsCap(history, r.completed.value, now);
    }
  }

  // ---------------------------------------------------------------------
  // Summaries
  // ---------------------------------------------------------------------

  /** Sessions that count: completed Pomodoros. */
  predicate IsCounted(s: Session) {
    s.sessionType == POMODORO && s.completed
  }

  /** Minutes a session contributes: a missing or zero duration counts 25. */
  function Minutes(s: Session): int {
    OrNumber(s.duration, 25)
  }

  /** `calculateFocusTime`. */
  function FocusTime(list: seq<Session>): (t: int)
    ensures (forall i | 0 <= i < |list| :: Minutes(list[i]) >= 0) ==> t >= 0
  {
    if |list| == 0 then 0 else Minutes(list[0]) + FocusTime(list[1..])
  }

  datatype Period = Period(sessions: nat, focusTime: int)

  function PeriodOf(list: seq<Session>): (p: Period)
    ensures p.sessions == |list|
  {
    Period(|list|, FocusTime(list))
  }

  function Counted(history: seq<Session>): seq<Session> {
    Filter(history, IsCounted)
  }

  function Since(t: int): Session -> bool {
    (s: Session) => s.startTime >= t
  }

  function Between(lo: int, hi: int): Session -> bool {
    (s: Session) => lo <= s.startTime < hi
  }

  /** `[dayStart, dayStart + 23:59:59.999]`, inclusive at both ends. */
  function OnDay(dayStart: int): Session -> bool {
    (s: Session) => dayStart <= s.startTime <= dayStart + DAY_MS - 1
  }

  datatype Summary = Summary(today: Period, yesterday: Period, week: Period, month: Period, allTime: Period)

  /** Completed Pomodoros of `history` in a window, counted directly. */
  function CountIn(history: seq<Session>, window: Session -> bool): (k: nat)
    ensures k <= |history|
  {
    if |history| == 0 then 0
    else (if IsCounted(history[0]) && window(history[0]) then 1 else 0) + CountIn(history[1..], window)
  }

  /** Their minutes, summed directly. */
  function MinutesIn(history: seq<Session>, window: Session -> bool): int {
    if |history| == 0 then 0
    else (if IsCounted(history[0]) && window(history[0]) then Minutes(history[0]) else 0) + MinutesIn(history[1..], window)
  }

  function Always(): Session -> bool {
    (s: Session) => true
  }

  /** `getFocusTimeSummary` for the given midnights: each period counts the
      completed Pomodoros that started in its window, with their minutes,
      and a window that contains another counts at least as many. */
  function FocusSummary(history: seq<Session>, todayStart: int, yesterdayStart: int, weekStart: int, monthStart: int): (r: Summary)
    ensures r.today == Period(CountIn(history, Since(todayStart)), MinutesIn(history, Since(todayStart)))
    ensures r.yesterday == Period(CountIn(history, Between(yesterdayStart, todayStart)), MinutesIn(history, Between(yesterdayStart, todayStart)))
    ensures r.week == Period(CountIn(history, Since(weekStart)), MinutesIn(history, Since(weekStart)))
    ensures r.month == Period(CountIn(history, Since(monthStart)), MinutesIn(history, Since(monthStart)))
    ensures r.allTime == Period(CountIn(history, Always()), MinutesIn(history, Always()))
    ensures weekStart <= todayStart ==> r.today.sessions <= r.week.sessions
    ensures monthStart <= weekStart ==> r.week.sessions <= r.month.sessions
    ensures r.today.sessions <= r.allTime.sessions && r.yesterday.sessions <= r.allTime.sessions
  {
    var c := Counted(history);
    WindowCounts(history, Since(todayStart));
    WindowCounts(history, Between(yesterdayStart, todayStart));
    WindowCounts(history, Since(weekStart));
    WindowCounts(history, Since(monthStart));
    WindowCounts(history, Always());
    FilterKeepsAll(c, Always());
    CountInMonotone(history, Since(todayStart), Since(weekStart));
    CountInMonotone(history, Since(weekStart), Since(monthStart));
    CountInMonotone(history, Since(todayStart), Always());
    CountInMonotone(history, Between(yesterdayStart, todayStart), Always());
    Summary(PeriodOf(Filter(c, Since(todayStart))),
            PeriodOf(Filter(c, Between(yesterdayStart, todayStart))),
            PeriodOf(Filter(c, Since(weekStart))),
            PeriodOf(Filter(c, Since(monthStart))),
            PeriodOf(c))
  }

  /** Filtering the counted sessions by a window agrees with the direct
      count and sum. */
  lemma {:induction false} WindowCounts(history: seq<Session>, window: Session -> bool)
    ensures |Filter(Counted(history), window)| == CountIn(history, window)
    ensures FocusTime(Filter(Counted(history), window)) == MinutesIn(history, window)
    decreases |history|
  {
    if |history| > 0 {
      WindowCounts(history[1..], window);
      var h := if IsCounted(history[0]) then [history[0]] else [];
      assert Counted(history) == h + Counted(history[1..]);
      FilterConcat(h, Counted(history[1..]), window);
      if IsCounted(history[0]) && window(history[0]) {
        assert Filter(h, window) == [history[0]];
        FocusTimeCons(history[0], Filter(Counted(history[1..]), window));
      } else {
        assert Filter(h, window) == [];
        assert Filter(Counted(history), window) == Filter(Counted(history[1..]), window);
      }
    }
  }

  /** A window inside another counts no more sessions. */
  lemma {:induction false} CountInMonotone(history: seq<Session>, inner: Session -> bool, outer: Session -> bool)
    ensures (forall i | 0 <= i < |history| :: inner(history[i]) ==> outer(history[i])) ==>
      CountIn(history, inner) <= CountIn(history, outer)
    decreases |history|
  {
    if |history| > 0 {
      CountInMonotone(history[1..], inner, outer);
    }
  }

  lemma FocusTimeCons(s: Session, rest: seq<Session>)
    ensures FocusTime([s] + rest) == Minutes(s) + FocusTime(rest)
  {
    assert ([s] + rest)[1..] == rest;
  }

  /** Filtering by two disjoint predicates splits the count and the focus
      time of filtering by their union. */
  lemma {:induction false} SplitWindow(list: seq<Session>, whole: Session -> bool, p: Session -> bool, q: Session -> bool)
    requires forall i | 0 <= i < |list| :: whole(list[i]) == (p(list[i]) || q(list[i])) && !(p(list[i]) && q(list[i]))
    ensures |Filter(list, whole)| == |Filter(list, p)| + |Filter(list, q)|
    ensures FocusTime(Filter(list, whole)) == FocusTime(Filter(list, p)) + FocusTime(Filter(list, q))
    decreases |list|
  {
    if |list| > 0 {
      SplitWindow(list[1..], whole, p, q);
      FilterStep(list, whole);
      FilterStep(list, p);
      FilterStep(list, q);
    }
  }

  /** One element of the filter: the head counts when it passes. */
  lemma FilterStep(list: seq<Session>, p: Session -> bool)
    requires |list| > 0
    ensures |Filter(list, p)| == (if p(list[0]) then 1 else 0) + |Filter(list[1..], p)|
    ensures FocusTime(Filter(list, p)) == (if p(list[0]) then Minutes(list[0]) else 0) + FocusTime(Filter(list[1..], p))
  {
    if p(list[0]) {
      FocusTimeCons(list[0], Filter(list[1..], p));
    } else {
      assert Filter(list, p) == Filter(list[1..], p);
    }
  }

  /** Yesterday and today together are exactly the sessions since
      yesterday's midnight. */
  lemma YesterdayAndTodayPartition(history: seq<Session>, todayStart: int, yesterdayStart: int, weekStart: int, monthStart: int)
    requires yesterdayStart <= todayStart
    ensures var r := FocusSummary(history, todayStart, yesterdayStart, weekStart, monthStart);
      var since := PeriodOf(Filter(Counted(history), Since(yesterdayStart)));
      && since.sessions == r.yesterday.sessions + r.today.sessions
      && since.focusTime == r.yesterday.focusTime + r.today.focusTime
  {
    SplitWindow(Counted(history), Since(yesterdayStart), Between(yesterdayStart, todayStart), Since(todayStart));
  }

  // ---------------------------------------------------------------------
  // Per-day statistics
  // ---------------------------------------------------------------------

  datatype DayStat = DayStat(dayStart: int, focusTime: int, sessions: nat)

  /** The entry for the day starting at `dayStart`. */
  function DayOf(counted: seq<Session>, dayStart: int): (d: DayStat)
    ensures d.dayStart == dayStart && d.sessions <= |counted|
  {
    var list := Filter(counted, OnDay(dayStart));
    DayStat(dayStart, FocusTime(list), |list|)
  }

  /** The `days` of a `getDailyStats()` call that passes none: a week. */
  const DEFAULT_DAYS: int := 7

  /** `getDailyStats(days)`: one entry per day, oldest first, the last one
      for the day starting at `todayStart`. The parameter default is
      explicit here: a caller omitting it passes `DEFAULT_DAYS`. */
  method DailyStats(history: seq<Session>, todayStart: int, days: int) returns (stats: seq<DayStat>)
    ensures |stats| == if days > 0 then days else 0
    ensures forall k | 0 <= k < |stats| :: stats[k] == DayOf(Counted(history), todayStart - (|stats| - 1 - k) * DAY_MS)
  {
    var counted := Counted(history);
    stats := [];
    var i := days - 1;
    while i >= 0
      invariant i <= days - 1 && (days > 0 ==> i >= -1) && (days <= 0 ==> i == days - 1)
      invariant |stats| == days - 1 - i
      invariant forall k | 0 <= k < |stats| :: stats[k] == DayOf(counted, todayStart - (days - 1 - k) * DAY_MS)
      decreases i
    {
      stats := stats + [DayOf(counted, todayStart - i * DAY_MS)];
      i := i - 1;
    }
  }

  /** Consecutive entries are consecutive days and the last is today. */
  lemma DailyStatsAreConsecutive(stats: seq<DayStat>, history: seq<Session>, todayStart: int)
    requires forall k | 0 <= k < |stats| :: stats[k] == DayOf(Counted(history), todayStart - (|stats| - 1 - k) * DAY_MS)
    ensures forall k | 0 <= k < |stats| - 1 :: stats[k + 1].dayStart == stats[k].dayStart + DAY_MS
    ensures |stats| > 0 ==> stats[|stats| - 1].dayStart == todayStart
  {
  }

  /** The daily entry for yesterday counts the same sessions and minutes as
      the summary's yesterday. */
  lemma DailyYesterdayMatchesSummary(history: seq<Session>, todayStart: int, weekStart: int, monthStart: int)
    ensures var r := FocusSummary(history, todayStart, todayStart - DAY_MS, weekStart, monthStart);
      var d := DayOf(Counted(history), todayStart - DAY_MS);
      d.sessions == r.yesterday.sessions && d.focusTime == r.yesterday.focusTime
  {
    FilterAgree(Counted(history), OnDay(todayStart - DAY_MS), Between(todayStart - DAY_MS, todayStart));
  }
}

=== FILE: background.dfy ===
/** The background worker's entry points: the install handler, the message
    listener and the alarm listener, wired to the focus-session state
    machine and the classifier. */
module Background {
  import opened Wrappers
  import opened Text
  import opened TimerTypes
  import opened Notices
  import opened SessionState
  import opened FocusSession
  import opened Classifier
  import Coerce

  /** `onInstalled`: default filter settings and empty notification lists. */
  function Install(w: World): (r: World)
    ensures r.notificationSettings == Some(DEFAULT_NOTIFICATION_SETTINGS)
    ensures r.notifications == [] && r.blocked == [] && StatsConsistent(r)
    ensures r.timerState == w.timerState && r.focusFlag == w.focusFlag
  {
    w.(notificationSettings := Some(DEFAULT_NOTIFICATION_SETTINGS), notifications := [], blocked := [], stats := ZERO_STATS)
  }

  datatype Reply = NoReply | FocusModeReply(isBlocking: bool)

  datatype Outcome = Outcome(step: Step, reply: Reply)

  /** The `runtime.onMessage` listener. Each session action reaches its
      transition: START runs a fresh full-length session, PAUSE leaves
      nothing running, RESUME restarts a stopped session for its saved
      time, END stops any stored session, TIMER_COMPLETED raises one
      completion notification and stops a finished Pomodoro, and
      CLEAR_NOTIFICATIONS empties the allowed list. Unknown actions are
      ignored; only `CHECK_FOCUS_MODE` answers, for
      `message.source || 'System'`. */
  function Dispatch(w: World, msg: Message, now: int): (r: Outcome)
    ensures msg.CheckFocusMode? <==> r.reply.FocusModeReply?
    ensures msg.CheckFocusMode? ==>
      && r.step == Step(w, NO_EFFECTS)
      && r.reply.isBlocking == ShouldBlock(w, Coerce.OrString(msg.source, SYSTEM))
    ensures msg.StartPomodoro? ==>
      && IsRunning(r.step.world) && r.step.world.focusFlag
      && r.step.world.timerState.value.taskId == msg.taskId
      && r.step.world.timerState.value.savedType == TypeOrPomodoro(msg.timerType)
      && RemainingMs(r.step.world.timerState.value, now) == DefaultMinutes(msg.timerType) * MS_PER_MINUTE
    ensures msg.PausePomodoro? ==> !IsRunning(r.step.world) && (IsRunning(w) ==> IsStopped(r.step.world) && !r.step.world.focusFlag)
    ensures msg.ResumePomodoro? && IsStopped(w) ==>
      IsRunning(r.step.world) && r.step.world.timerState.value.endTime == Some(now + FocusSession.SavedMs(w.timerState.value))
    ensures msg.ResumePomodoro? && !IsStopped(w) ==> r.step.world == w
    ensures msg.EndPomodoro? && w.timerState.Some? ==> IsStopped(r.step.world) && !r.step.world.focusFlag
    ensures msg.EndPomodoro? && w.timerState.None? ==> r.step.world == w
    ensures msg.TimerCompleted? ==>
      && |r.step.effects.notifications| == 1 && r.step.effects.badge == Some(BADGE_IDLE)
      && (msg.completedType == POMODORO ==> !IsRunning(r.step.world) && !r.step.world.focusFlag)
      && (msg.completedType != POMODORO ==> r.step.world == w)
    ensures msg.ClearNotifications? ==>
      && r.step.world.notifications == [] && r.step.world.stats == ZERO_STATS
      && r.step.world.blocked == w.blocked && r.step.world.timerState == w.timerState
    ensures msg.OtherAction? ==> r == Outcome(Step(w, NO_EFFECTS), NoReply)
    ensures StatsConsistent(w) ==> StatsConsistent(r.step.world)
  {
    match msg
    case StartPomodoro(taskId, timerType) => Outcome(Start(w, taskId, timerType, now), NoReply)
    case PausePomodoro => Outcome(Pause(w, now), NoReply)
    case ResumePomodoro => Outcome(Resume(w, now), NoReply)
    case EndPomodoro => Outcome(End(w, now), NoReply)
    case TimerCompleted(timerType, taskId) => Outcome(Completed(w, timerType, taskId, now), NoReply)
    case ClearNotifications => Outcome(Step(Clear(w), NO_EFFECTS), NoReply)
    case CheckFocusMode(source) =>
      Outcome(Step(w, NO_EFFECTS), FocusModeReply(ShouldBlock(w, Coerce.OrString(source, SYSTEM))))
    case OtherAction(_) => Outcome(Step(w, NO_EFFECTS), NoReply)
  }

  /** The extension's own notifications, created on start and on completion,
      are never blocked, whatever the stored state and settings. */
  lemma OwnNotificationsNeverBlocked(w: World, taskId: Option<int>, timerType: string, now: int, any: World, t: int)
    ensures forall req | req in Start(w, taskId, timerType, now).effects.notifications ::
              Intercept(any, req, t) == Interception(Exempt, any)
    ensures forall req | req in Completed(w, timerType, taskId, now).effects.notifications ::
              Intercept(any, req, t) == Interception(Exempt, any)
    ensures forall req | req in OnAlarm(w, ALARM_NAME, now).effects.notifications ::
              Intercept(any, req, t) == Interception(Exempt, any)
  {
    CompletedTitleExempt(timerType);
    if IsRunning(w) {
      CompletedTitleExempt(TypeOrPomodoro(w.timerState.value.savedType));
    }
  }

  lemma CompletedTitleExempt(timerType: string)
    ensures Contains(CompletedTitle(timerType), "Completed")
  {
    ContainsInfix(timerType + " ", "Completed", "!");
    assert timerType + " " + "Completed" + "!" == CompletedTitle(timerType);
  }

  /** While no session runs, nothing is blocked, whatever the settings. */
  lemma NothingBlockedWhenStopped(w: World, now: int, source: string)
    ensures !ShouldBlock(Pause(w, now).world, source)
    ensures !ShouldBlock(End(w, now).world, source)
    ensures !IsRunning(w) ==> !ShouldBlock(w, source)
  {
  }

  /** A Pomodoro started by message: Gmail passes with the default allow
      list and is blocked with an empty one. */
  lemma CheckFocusModeDuringPomodoro(w: World, t0: int, t: int, breaks: bool)
    ensures var s := Dispatch(w.(notificationSettings := Some(NotificationSettings([GMAIL], breaks))),
                              StartPomodoro(None, POMODORO), t0).step.world;
      Dispatch(s, CheckFocusMode(GMAIL), t).reply == FocusModeReply(false)
    ensures var s := Dispatch(w.(notificationSettings := Some(NotificationSettings([], breaks))),
                              StartPomodoro(None, POMODORO), t0).step.world;
      Dispatch(s, CheckFocusMode(GMAIL), t).reply == FocusModeReply(true)
  {
  }

  /** During a short break with breaks exempt, a Gmail request is never
      put on the blocked list, whatever the allow list holds; a titled
      Gmail tab's request goes to the allowed list with the tab title. */
  lemma BreakLetsGmailThrough(w: World, allowFrom: seq<string>, t0: int, url: string, tabId: int,
                              tabTitle: Option<string>, t: int)
    ensures var s := Start(w.(notificationSettings := Some(NotificationSettings(allowFrom, true))),
                           None, SHORT_BREAK, t0).world;
      OnRequestCompleted(s, url, tabId, tabTitle, t).blocked == s.blocked
    ensures var s := Start(w.(notificationSettings := Some(NotificationSettings(allowFrom, true))),
                           None, SHORT_BREAK, t0).world;
      IsCandidateUrl(url) && DetectSite(url) == Some(GmailSite) && tabId > 0 && tabTitle.Some? && tabTitle.value != "" ==>
        OnRequestCompleted(s, url, tabId, tabTitle, t) == Allow(s, Details(GMAIL, tabTitle.value, Some(url), None), t)
  {
  }

  /** The dispatcher reaches the state machine: START then PAUSE then
      RESUME through messages keeps the remaining time to within a second. */
  lemma MessagesPauseResume(w: World, taskId: Option<int>, timerType: string, t0: int, t1: int, t2: int)
    requires t0 <= t1
    ensures var started := Dispatch(w, StartPomodoro(taskId, timerType), t0).step.world;
      var paused := Dispatch(started, PausePomodoro, t1).step.world;
      var resumed := Dispatch(paused, ResumePomodoro, t2).step.world;
      && IsRunning(resumed)
      && RemainingMs(resumed.timerState.value, t2) <= RemainingMs(started.timerState.value, t1)
      && RemainingMs(started.timerState.value, t1) < RemainingMs(resumed.timerState.value, t2) + MS_PER_SECOND
  {
    var started := Dispatch(w, StartPomodoro(taskId, timerType), t0).step.world;
    PauseResumeRoundTrip(started, t1, t2);
  }
}

=== FILE: classifier.dfy ===
/** The background worker's notification classifier: the focus-mode
    decision `shouldBlockNotification`, the interception of
    `chrome.notifications.create` with its self-exemption, the detection of
    Gmail and Calendar traffic from request URLs, and the blocked and
    allowed lists with their counters. */
module Classifier {
  import opened Wrappers
  import opened Text
  import opened TimerTypes
  import opened Notices
  import opened SessionState
  import FocusSession
  import Coerce

  const DEDUP_WINDOW_MS: int := 10000

  /** The stored notification settings, or the defaults when none are stored. */
  function SettingsOf(w: World): NotificationSettings {
    w.notificationSettings.GetOr(DEFAULT_NOTIFICATION_SETTINGS)
  }

  /** `shouldBlockNotification(source)`: block only while the cached focus
      flag is set and the stored session runs, not during a break when
      breaks are exempt, and only sources outside `allowFrom`. */
  function ShouldBlock(w: World, source: string): (block: bool)
    ensures block ==> w.focusFlag && FocusSession.IsRunning(w)
    ensures block ==> source !in SettingsOf(w).allowFrom
    ensures block ==> !(IsBreak(w.timerState.value.savedType) && SettingsOf(w).enableDuringBreaks)
    ensures !block && w.focusFlag && FocusSession.IsRunning(w)
            && !(IsBreak(w.timerState.value.savedType) && SettingsOf(w).enableDuringBreaks)
            ==> source in SettingsOf(w).allowFrom
  {
    if !w.focusFlag then false
    else if w.timerState.None? || !w.timerState.value.savedIsActive then false
    else if IsBreak(w.timerState.value.savedType) && SettingsOf(w).enableDuringBreaks then false
    else source !in SettingsOf(w).allowFrom
  }

  // ---------------------------------------------------------------------
  // Blocked and allowed lists
  // ---------------------------------------------------------------------

  /** The allowed list and the counters agree. */
  predicate StatsConsistent(w: World) {
    w.stats == StatsOf(w.notifications)
  }

  /** `updateNotificationStats(source)`: only Gmail and Calendar are counted. */
  function Bump(stats: Stats, source: string): (r: Stats)
    ensures r.gmail == stats.gmail + (if source == GMAIL then 1 else 0)
    ensures r.calendar == stats.calendar + (if source == CALENDAR then 1 else 0)
  {
    if source == GMAIL then stats.(gmail := stats.gmail + 1)
    else if source == CALENDAR then stats.(calendar := stats.calendar + 1)
    else stats
  }

  /** `blockNotification`: the record is always appended to the blocked list. */
  function Block(w: World, d: Details, now: int): (r: World)
    ensures r.blocked == w.blocked + [Stamp(d, now)]
    ensures r.(blocked := w.blocked) == w
  {
    w.(blocked := w.blocked + [Stamp(d, now)])
  }

  /** An allowed record with the same source and message was stored less
      than ten seconds before `now`. */
  predicate IsDuplicate(list: seq<Notice>, d: Details, now: int) {
    exists n :: n in list && n.source == d.source && n.message == d.message && now - n.time < DEDUP_WINDOW_MS
  }

  /** `allowNotification`: a record that is not a recent duplicate is
      appended and counted; a duplicate changes nothing. */
  function Allow(w: World, d: Details, now: int): (r: World)
    ensures IsDuplicate(w.notifications, d, now) ==> r == w
    ensures !IsDuplicate(w.notifications, d, now) ==>
      && r.notifications == w.notifications + [Stamp(d, now)]
      && r.stats == Bump(w.stats, d.source)
      && r.(notifications := w.notifications, stats := w.stats) == w
    ensures StatsConsistent(w) ==> StatsConsistent(r)
  {
    if IsDuplicate(w.notifications, d, now) then w
    else
      var n := Stamp(d, now);
      CountSourceAppend(w.notifications, n, GMAIL);
      CountSourceAppend(w.notifications, n, CALENDAR);
      w.(notifications := w.notifications + [n], stats := Bump(w.stats, d.source))
  }

  /** `clearNotifications`: the allowed list and the counters are reset; the
      blocked list is kept. */
  function Clear(w: World): (r: World)
    ensures r.notifications == [] && r.stats == ZERO_STATS && StatsConsistent(r)
    ensures r.blocked == w.blocked && r.timerState == w.timerState
  {
    w.(notifications := [], stats := ZERO_STATS)
  }

  /** Two identical allowed notifications within ten seconds leave at most
      one new record. */
  lemma AllowCollapsesRepeats(w: World, d: Details, t: int, t2: int)
    requires t <= t2 < t + DEDUP_WINDOW_MS
    ensures |Allow(Allow(w, d, t), d, t2).notifications| <= |w.notifications| + 1
    ensures |Allow(w, d, t).notifications| == |w.notifications| + 1 ==> Allow(Allow(w, d, t), d, t2) == Allow(w, d, t)
  {
    var w1 := Allow(w, d, t);
    if !IsDuplicate(w.notifications, d, t) {
      var n := Stamp(d, t);
      assert n in w1.notifications;
      assert IsDuplicate(w1.notifications, d, t2);
    }
  }

  // ---------------------------------------------------------------------
  // Interception of chrome.notifications.create
  // ---------------------------------------------------------------------

  /** The extension's own notifications pass without classification. */
  predicate SelfExempt(req: NotificationRequest) {
    || req.id == Some(FocusSession.START_NOTIFICATION_ID)
    || req.id == Some(FocusSession.COMPLETED_NOTIFICATION_ID)
    || req.title == Some(FocusSession.START_TITLE)
    || (req.title.Some? && Contains(req.title.value, "Completed"))
  }

  /** `Blocked("")` is the empty id handed to the caller's callback. */
  datatype Decision = Exempt | Shown | Blocked(callbackId: string)

  datatype Interception = Interception(decision: Decision, world: World)

  /** The record kept for a blocked system notification. */
  function SystemDetails(req: NotificationRequest): Details {
    Details(SYSTEM, Coerce.OrOptString(req.title, "Notification blocked"), None,
            Some(Coerce.OrOptString(req.message, "")))
  }

  /** The replaced `chrome.notifications.create`. */
  function Intercept(w: World, req: NotificationRequest, now: int): (r: Interception)
    ensures SelfExempt(req) ==> r == Interception(Exempt, w)
    ensures r.decision.Blocked? <==> !SelfExempt(req) && ShouldBlock(w, SYSTEM)
    ensures r.decision.Blocked? ==> r.decision.callbackId == "" && r.world == Block(w, SystemDetails(req), now)
    ensures !r.decision.Blocked? ==> r.world == w
  {
    if SelfExempt(req) then Interception(Exempt, w)
    else if ShouldBlock(w, SYSTEM) then Interception(Blocked(""), Block(w, SystemDetails(req), now))
    else Interception(Shown, w)
  }

  // ---------------------------------------------------------------------
  // Gmail and Calendar traffic seen by chrome.webRequest.onCompleted
  // ---------------------------------------------------------------------

  const GMAIL_PATTERN: string := "mail.google.com"
  const CALENDAR_PATTERN: string := "calendar.google.com"
  const CALENDAR_TITLE_PREFIX: string := "Google Calendar -"

  datatype Site = GmailSite | CalendarSite

  function SiteName(site: Site): string {
    match site
    case GmailSite => GMAIL
    case CalendarSite => CALENDAR
  }

  /** The URL keywords that mark a request as a possible notification. */
  predicate IsCandidateUrl(url: string) {
    || Contains(url, "notifications") || Contains(url, "mail/u") || Contains(url, "calendar/event")
    || Contains(url, "push") || Contains(url, "alert")
  }

  /** The first source whose pattern matches: Gmail is tried before Calendar. */
  function DetectSite(url: string): (r: Option<Site>)
    ensures r == Some(GmailSite) <==> Contains(url, GMAIL_PATTERN)
    ensures r == Some(CalendarSite) <==> !Contains(url, GMAIL_PATTERN) && Contains(url, CALENDAR_PATTERN)
  {
    if Contains(url, GMAIL_PATTERN) then Some(GmailSite)
    else if Contains(url, CALENDAR_PATTERN) then Some(CalendarSite)
    else None
  }

  /** `extractDetails(url, title)` of each source: a Gmail record carries
      the tab title, a Calendar record the title without its first
      `Google Calendar -` and trimmed; an empty title gets the source's
      placeholder text. */
  function ExtractDetails(site: Site, url: string, title: string): (d: Details)
    ensures d.source == SiteName(site) && d.link == Some(url) && d.details.None?
    ensures site == GmailSite && title != "" ==> d.message == title
    ensures site == GmailSite && title == "" ==> d.message == "New Gmail notification"
    ensures site == CalendarSite && title == "" ==> d.message == "New Calendar notification"
    ensures site == CalendarSite && title != "" && !Contains(title, CALENDAR_TITLE_PREFIX) ==> d.message == Trim(title)
    ensures site == CalendarSite && title != "" && |d.message| > 0 ==> !IsSpace(d.message[0]) && !IsSpace(d.message[|d.message| - 1])
  {
    match site
    case GmailSite => Details(GMAIL, Coerce.OrString(title, "New Gmail notification"), Some(url), None)
    case CalendarSite => Details(CALENDAR, CalendarMessage(title), Some(url), None)
  }

  /** The message of a Calendar record: the title without its first
      `Google Calendar -`, trimmed, or the placeholder for an empty title. */
  function CalendarMessage(title: string): (m: string)
    ensures title == "" ==> m == "New Calendar notification"
    ensures title != "" && !Contains(title, CALENDAR_TITLE_PREFIX) ==> m == Trim(title)
    ensures title != "" ==> m == Trim(ReplaceFirst(title, CALENDAR_TITLE_PREFIX, ""))
    ensures title != "" && |m| > 0 ==> !IsSpace(m[0]) && !IsSpace(m[|m| - 1])
  {
    if title != "" then Trim(ReplaceFirst(title, CALENDAR_TITLE_PREFIX, "")) else "New Calendar notification"
  }

  /** A Calendar tab title loses its `Google Calendar -` prefix and the
      surrounding white space. */
  lemma CalendarTitleStripped(url: string, rest: string)
    ensures ExtractDetails(CalendarSite, url, CALENDAR_TITLE_PREFIX + " " + rest).message == Trim(rest)
  {
    var title := CALENDAR_TITLE_PREFIX + " " + rest;
    assert title[..|CALENDAR_TITLE_PREFIX|] == CALENDAR_TITLE_PREFIX;
    ReplaceLeadingPrefix(title, CALENDAR_TITLE_PREFIX);
    assert title[|CALENDAR_TITLE_PREFIX|..] == " " + rest;
    SpaceThenTrim(rest);
  }

  /** A leading blank disappears under `trim`. */
  lemma SpaceThenTrim(rest: string)
    ensures Trim(" " + rest) == Trim(rest)
  {
    assert (" " + rest)[1..] == rest;
    assert TrimStart(" " + rest) == TrimStart(rest);
  }

  /** A focused request from a Calendar tab whose title carries the
      `Google Calendar -` prefix records the rest of the title, trimmed,
      with the request's URL as the link. */
  lemma TitledCalendarTabRecordsEvent(w: World, url: string, tabId: int, rest: string, now: int)
    requires w.focusFlag && IsCandidateUrl(url) && DetectSite(url) == Some(CalendarSite) && tabId > 0
    ensures OnRequestCompleted(w, url, tabId, Some(CALENDAR_TITLE_PREFIX + " " + rest), now)
            == Route(w, Details(CALENDAR, Trim(rest), Some(url), None), now)
  {
    CalendarTitleStripped(url, rest);
  }

  /** A stored record goes to the blocked or the allowed list: it is
      blocked exactly when the filter says so, an allowed record is added
      and counted unless it is a recent duplicate, and nothing else in the
      world changes. */
  function Route(w: World, d: Details, now: int): (r: World)
    ensures ShouldBlock(w, d.source) <==> r.blocked == w.blocked + [Stamp(d, now)]
    ensures !ShouldBlock(w, d.source) ==> r.blocked == w.blocked
    ensures ShouldBlock(w, d.source) ==> r.notifications == w.notifications && r.stats == w.stats
    ensures !ShouldBlock(w, d.source) ==>
      (r.notifications == w.notifications + [Stamp(d, now)] <==> !IsDuplicate(w.notifications, d, now))
    ensures !ShouldBlock(w, d.source) && IsDuplicate(w.notifications, d, now) ==> r == w
    ensures |r.notifications| <= |w.notifications| + 1
    ensures r.(blocked := w.blocked, notifications := w.notifications, stats := w.stats) == w
    ensures StatsConsistent(w) ==> StatsConsistent(r)
  {
    if ShouldBlock(w, d.source) then Block(w, d, now) else Allow(w, d, now)
  }

  /** The `webRequest.onCompleted` listener for one request. `tabTitle` is
      what `chrome.tabs.get` returned: `None` for no tab, `Some("")` for a tab
      without a title. */
  function OnRequestCompleted(w: World, url: string, tabId: int, tabTitle: Option<string>, now: int): (r: World)
    ensures !w.focusFlag || !IsCandidateUrl(url) || DetectSite(url).None? ==> r == w
    ensures w.focusFlag && IsCandidateUrl(url) && DetectSite(url).Some? && tabId <= 0 ==>
      var source := SiteName(DetectSite(url).value);
      r == Route(w, Details(source, "Potential " + source + " notification", Some(url), None), now)
    ensures tabId > 0 && (tabTitle.None? || tabTitle == Some("")) ==> r == w
    ensures w.focusFlag && IsCandidateUrl(url) && DetectSite(url).Some? && tabId > 0 && tabTitle.Some? && tabTitle.value != "" ==>
      r == Route(w, ExtractDetails(DetectSite(url).value, url, tabTitle.value), now)
    ensures r.timerState == w.timerState && r.notificationSettings == w.notificationSettings
    ensures StatsConsistent(w) ==> StatsConsistent(r)
  {
    if !w.focusFlag || !IsCandidateUrl(url) then w
    else
      match DetectSite(url)
      case None => w
      case Some(site) =>
        if tabId > 0 then
          if tabTitle.None? || tabTitle.value == "" then w
          else Route(w, ExtractDetails(site, url, tabTitle.value), now)
        else
          var source := SiteName(site);
          Route(w, Details(source, "Potential " + source + " notification", Some(url), None), now)
  }
}

=== FILE: coerce.dfy ===
/** JavaScript coercions the extension relies on when reading stored records:
    `x || d` on numbers, strings and ids (where `0`, `""`, `null` and
    `undefined` are falsy) and `x !== false` on booleans. */
module Coerce {
  import opened Wrappers

  /** A stored number is truthy when present and non-zero. */
  predicate TruthyNumber(v: Option<int>) {
    v.Some? && v.value != 0
  }

  /** `v || d` for a stored number. */
  function OrNumber(v: Option<int>, d: int): int {
    if TruthyNumber(v) then v.value else d
  }

  /** `v || d` for a string, where the empty string stands for a falsy value. */
  function OrString(v: string, d: string): string {
    if v != "" then v else d
  }

  /** `v || d` for a stored string that may be absent. */
  function OrOptString(v: Option<string>, d: string): string {
    if v.Some? && v.value != "" then v.value else d
  }

  /** `v !== false`: true unless the stored value is exactly `false`. */
  predicate NotFalse(v: Option<bool>) {
    v != Some(false)
  }

  /** `v || false`: true only for a stored `true`. */
  predicate OrFalse(v: Option<bool>) {
    v == Some(true)
  }

  /** `v || null` for a task id: ids are numbers, so `0` is dropped like `null`. */
  function IdOrNull(v: Option<int>): (r: Option<int>)
    ensures r.Some? ==> TruthyNumber(r)
    ensures TruthyNumber(v) ==> r == v
    ensures !TruthyNumber(v) ==> r.None?
  {
    if TruthyNumber(v) then v else None
  }
}

=== FILE: dashboard.dfy ===
/** The dashboard's active-task lookup (`loadStorageData`), which also
    removes an `activeTimer` that names no in-progress task. */
module Dashboard {
  import opened Wrappers
  import opened Coerce
  import opened TaskBoard

  /** The task shown as active and the `activeTimer` left in storage. */
  datatype Resolution = Resolution(activeTask: Option<Task>, activeTimer: Option<int>)

  /** Only `inProgress` is searched, for the first task with the stored id;
      a set id with no such task is removed. */
  function ResolveActive(tasks: Option<Board>, activeTimer: Option<int>): (r: Resolution)
    ensures !(TruthyNumber(activeTimer) && tasks.Some?) ==> r == Resolution(None, activeTimer)
    ensures TruthyNumber(activeTimer) && tasks.Some? ==>
      (r.activeTask.Some? <==> HasId(tasks.value.inProgress, activeTimer.value))
    ensures r.activeTask.Some? ==> r.activeTask.value in tasks.value.inProgress && r.activeTask.value.id == activeTimer.value
    ensures r.activeTask.Some? ==> exists i | 0 <= i < |tasks.value.inProgress| ::
      && tasks.value.inProgress[i] == r.activeTask.value
      && forall j | 0 <= j < i :: tasks.value.inProgress[j].id != activeTimer.value
    ensures r.activeTimer == activeTimer || r.activeTimer.None?
    ensures r.activeTimer.None? <==>
      activeTimer.None? || (TruthyNumber(activeTimer) && tasks.Some? && !HasId(tasks.value.inProgress, activeTimer.value))
  {
    if TruthyNumber(activeTimer) && tasks.Some? then
      match FindIndex(tasks.value.inProgress, activeTimer.value)
      case Some(i) => Resolution(Some(tasks.value.inProgress[i]), activeTimer)
      case None => Resolution(None, None)
    else Resolution(None, activeTimer)
  }

  /** Resolving again with what the first pass left changes nothing more:
      the removal of a dangling id happens once. */
  lemma ResolveIdempotent(tasks: Option<Board>, activeTimer: Option<int>)
    ensures var r := ResolveActive(tasks, activeTimer);
      ResolveActive(tasks, r.activeTimer) == r
  {
  }

  /** A task that is on the board but not in progress does not count: its
      id is removed as dangling. */
  lemma OtherColumnIsDangling(b: Board, id: int, c: Column)
    requires id != 0 && c != InProgress && HasId(Get(b, c), id) && !HasId(b.inProgress, id)
    ensures ResolveActive(Some(b), Some(id)) == Resolution(None, None)
  {
  }

  /** After a task's timer is started from the board (and the user accepts
      displacing the current in-progress tasks), the dashboard finds that
      task as the active one and keeps the id. */
  lemma ToggleStartIsResolved(pg: Page, timer: TaskTimer, taskId: int, now: int, confirmed: bool)
    requires taskId != 0
    requires !(pg.activeTimer == Some(taskId) && timer.isActive)
    requires exists c :: HasId(Get(pg.board, c), taskId)
    requires |pg.board.inProgress| == 0 || confirmed || HasId(pg.board.inProgress, taskId)
    ensures var t := TogglePomodoroForTask(pg, timer, taskId, now, confirmed);
      var r := ResolveActive(Some(t.page.board), t.page.activeTimer);
      r.activeTask.Some? && r.activeTask.value.id == taskId && r.activeTimer == Some(taskId)
  {
    ToggleStartMovesTaskInProgress(pg, timer, taskId, now, confirmed);
  }
}

=== FILE: focus_session.dfy ===
/** The background worker's focus-session state machine
    (`startFocusSession`, `pauseFocusSession`, `resumeFocusSession`,
    `endFocusSession`, `handleTimerCompleted` and the alarm listener).
    Each transition reads the stored `timerState`, writes the new one and
    returns the alarm, badge and notification calls it makes as data. */
module FocusSession {
  import opened Wrappers
  import opened Text
  import opened TimerTypes
  import opened SessionState

  const ALARM_NAME: string := "pomodoroEnd"
  const START_NOTIFICATION_ID: string := "focus-mode-notification"
  const COMPLETED_NOTIFICATION_ID: string := "timer-completed-notification"
  const START_TITLE: string := "Focus Mode Activated"
  const RUNNING_COLOR: string := "#F87060"
  const BADGE_ON: string := "ON"
  const BADGE_PAUSE: string := "PAUSE"
  const BADGE_IDLE: string := ""

  datatype Step = Step(world: World, effects: Effects)

  /** Milliseconds left at `now` on a running session: `max(0, endTime - now)`. */
  function RemainingMs(ts: TimerState, now: int): nat {
    if EndOrZero(ts) - now > 0 then EndOrZero(ts) - now else 0
  }

  /** Milliseconds a stopped session still has to run, from its saved clock. */
  function SavedMs(ts: TimerState): int {
    (ts.savedMinutes * 60 + ts.savedSeconds) * MS_PER_SECOND
  }

  function StartMessage(minutes: int): string {
    "Notifications will be filtered for the next " + IntToString(minutes) + " minutes."
  }

  /** START: overwrite any prior session with a running one of the type's
      full default length, ending `now + duration`. */
  function Start(w: World, taskId: Option<int>, timerType: string, now: int): (r: Step)
    ensures r.world.timerState.Some?
    ensures var ts := r.world.timerState.value;
      && WellFormed(ts) && ts.savedIsActive
      && ts.savedType == TypeOrPomodoro(timerType) && ts.taskId == taskId
      && RemainingMs(ts, now) == DefaultMinutes(timerType) * MS_PER_MINUTE
      && SavedMs(ts) == RemainingMs(ts, now)
      && r.effects.alarm == AlarmSet(ts.endTime.value)
    ensures r.world.activeTimer == taskId && r.world.focusFlag
    ensures r.world.(timerState := w.timerState, activeTimer := w.activeTimer, focusFlag := w.focusFlag) == w
    ensures r.effects.badge == Some(BADGE_ON) && r.effects.badgeColor == Some(RUNNING_COLOR)
    ensures r.effects.notifications == [NotificationRequest(Some(START_NOTIFICATION_ID), Some(START_TITLE),
                                      Some(StartMessage(DefaultMinutes(timerType))))]
  {
    var duration := DefaultMinutes(timerType) * MS_PER_MINUTE;
    var endTime := now + duration;
    var ts := TimerState(TypeOrPomodoro(timerType), duration / MS_PER_MINUTE, 0, true, Some(endTime), None, taskId);
    var request := NotificationRequest(Some(START_NOTIFICATION_ID), Some(START_TITLE), Some(StartMessage(ts.savedMinutes)));
    Step(w.(timerState := Some(ts), activeTimer := taskId, focusFlag := true),
         Effects(AlarmSet(endTime), Some(BADGE_ON), Some(RUNNING_COLOR), [request]))
  }

  predicate IsRunning(w: World) {
    w.timerState.Some? && w.timerState.value.savedIsActive
  }

  predicate IsStopped(w: World) {
    w.timerState.Some? && !w.timerState.value.savedIsActive
  }

  /** PAUSE: a running session is frozen at the floor of its remaining time;
      anything else is left alone. */
  function Pause(w: World, now: int): (r: Step)
    ensures !IsRunning(w) ==> r == Step(w, NO_EFFECTS)
    ensures IsRunning(w) ==>
      var before := w.timerState.value;
      && r.world.timerState.Some?
      && var ts := r.world.timerState.value;
      && !ts.savedIsActive && ts.endTime.None? && ts.pausedAt == Some(now)
      && ts.savedMinutes >= 0 && 0 <= ts.savedSeconds < 60
      && SavedMs(ts) <= RemainingMs(before, now) < SavedMs(ts) + MS_PER_SECOND
      && ts.savedType == before.savedType && ts.taskId == before.taskId
      && r.world == w.(timerState := Some(ts), focusFlag := false)
      && r.effects == Effects(AlarmCleared, Some(BADGE_PAUSE), None, [])
  {
    if IsRunning(w) then
      var before := w.timerState.value;
      var clock := Decompose(RemainingMs(before, now));
      var ts := before.(savedIsActive := false, savedMinutes := clock.minutes, savedSeconds := clock.seconds,
                        endTime := None, pausedAt := Some(now));
      Step(w.(timerState := Some(ts), focusFlag := false), Effects(AlarmCleared, Some(BADGE_PAUSE), None, []))
    else
      Step(w, NO_EFFECTS)
  }

  /** RESUME: a stopped session runs again for exactly its saved time. */
  function Resume(w: World, now: int): (r: Step)
    ensures !IsStopped(w) ==> r == Step(w, NO_EFFECTS)
    ensures IsStopped(w) ==>
      var before := w.timerState.value;
      && r.world.timerState.Some?
      && var ts := r.world.timerState.value;
      && ts.savedIsActive && ts.endTime == Some(now + SavedMs(before)) && ts.pausedAt.None?
      && ts.savedMinutes == before.savedMinutes && ts.savedSeconds == before.savedSeconds
      && ts.savedType == before.savedType && ts.taskId == before.taskId
      && r.world == w.(timerState := Some(ts), focusFlag := true)
      && r.effects == Effects(AlarmSet(ts.endTime.value), Some(BADGE_ON), None, [])
  {
    if IsStopped(w) then
      var before := w.timerState.value;
      var endTime := now + SavedMs(before);
      var ts := before.(savedIsActive := true, endTime := Some(endTime), pausedAt := None);
      Step(w.(timerState := Some(ts), focusFlag := true), Effects(AlarmSet(endTime), Some(BADGE_ON), None, []))
    else
      Step(w, NO_EFFECTS)
  }

  /** END: any stored session becomes a stopped, full-length session of its type. */
  function End(w: World, now: int): (r: Step)
    ensures w.timerState.None? ==> r == Step(w, NO_EFFECTS)
    ensures w.timerState.Some? ==>
      var before := w.timerState.value;
      && r.world.timerState.Some?
      && var ts := r.world.timerState.value;
      && WellFormed(ts) && !ts.savedIsActive && ts.pausedAt == Some(now)
      && ts.savedType == TypeOrPomodoro(before.savedType) && ts.taskId == before.taskId
      && SavedMs(ts) == DefaultMinutes(ts.savedType) * MS_PER_MINUTE
      && r.world == w.(timerState := Some(ts), focusFlag := false)
      && r.effects == Effects(AlarmCleared, Some(BADGE_IDLE), None, [])
  {
    if w.timerState.Some? then
      var before := w.timerState.value;
      var timerType := TypeOrPomodoro(before.savedType);
      var ts := TimerState(timerType, DefaultMinutes(timerType), 0, false, None, Some(now), before.taskId);
      Step(w.(timerState := Some(ts), focusFlag := false), Effects(AlarmCleared, Some(BADGE_IDLE), None, []))
    else
      Step(w, NO_EFFECTS)
  }

  function CompletedTitle(timerType: string): string {
    timerType + " Completed!"
  }

  function CompletedMessage(timerType: string): string {
    if timerType == POMODORO then "Time for a break!" else "Ready to focus again?"
  }

  /** Completion of a session of `timerType`: a Pomodoro is ended, a break
      leaves the stored session as it is; either way one completion
      notification is created and the badge cleared. */
  function Completed(w: World, timerType: string, taskId: Option<int>, now: int): (r: Step)
    ensures timerType == POMODORO ==> r.world == End(w.(focusFlag := false), now).world
    ensures timerType != POMODORO ==> r.world == w
    ensures r.effects.notifications == [NotificationRequest(Some(COMPLETED_NOTIFICATION_ID),
                                      Some(CompletedTitle(timerType)), Some(CompletedMessage(timerType)))]
    ensures r.effects.badge == Some(BADGE_IDLE)
    ensures timerType == POMODORO && w.timerState.Some? ==> r.effects.alarm == AlarmCleared
  {
    var ended := if timerType == POMODORO then End(w.(focusFlag := false), now) else Step(w, NO_EFFECTS);
    var request := NotificationRequest(Some(COMPLETED_NOTIFICATION_ID), Some(CompletedTitle(timerType)),
                                       Some(CompletedMessage(timerType)));
    Step(ended.world, Then(ended.effects, Effects(AlarmKept, Some(BADGE_IDLE), None, [request])))
  }

  /** The alarm listener: only a `pomodoroEnd` alarm on a stored running
      session completes it, with the stored type and task. */
  function OnAlarm(w: World, name: string, now: int): (r: Step)
    ensures !(name == ALARM_NAME && IsRunning(w)) ==> r == Step(w, NO_EFFECTS)
    ensures name == ALARM_NAME && IsRunning(w) ==>
      var ty := TypeOrPomodoro(w.timerState.value.savedType);
      && r.effects.notifications == [NotificationRequest(Some(COMPLETED_NOTIFICATION_ID), Some(ty + " Completed!"),
                                       Some(if ty == POMODORO then "Time for a break!" else "Ready to focus again?"))]
      && r.effects.badge == Some(BADGE_IDLE)
      && (ty == POMODORO ==>
            && IsStopped(r.world) && !r.world.focusFlag && r.effects.alarm == AlarmCleared
            && r.world.timerState.value.taskId == w.timerState.value.taskId
            && r.world.timerState.value.pausedAt == Some(now)
            && SavedMs(r.world.timerState.value) == DefaultMinutes(POMODORO) * MS_PER_MINUTE)
      && (ty != POMODORO ==> r.world == w)
  {
    if name == ALARM_NAME && IsRunning(w) then
      Completed(w, TypeOrPomodoro(w.timerState.value.savedType), w.timerState.value.taskId, now)
    else
      Step(w, NO_EFFECTS)
  }

  // ---------------------------------------------------------------------
  // Properties of the state machine
  // ---------------------------------------------------------------------

  /** Pausing at `t` and resuming at `t2` leaves a remaining time within one
      second below what was left at the pause, and keeps type and task. */
  lemma PauseResumeRoundTrip(w: World, t: int, t2: int)
    requires IsRunning(w)
    ensures var resumed := Resume(Pause(w, t).world, t2).world;
      && IsRunning(resumed)
      && RemainingMs(resumed.timerState.value, t2) <= RemainingMs(w.timerState.value, t)
      && RemainingMs(w.timerState.value, t) < RemainingMs(resumed.timerState.value, t2) + MS_PER_SECOND
      && resumed.timerState.value.savedType == w.timerState.value.savedType
      && resumed.timerState.value.taskId == w.timerState.value.taskId
  {
    var paused := Pause(w, t).world;
    var resumed := Resume(paused, t2).world;
    assert SavedMs(paused.timerState.value) >= 0;
    assert RemainingMs(resumed.timerState.value, t2) == SavedMs(paused.timerState.value);
  }

  /** Ending twice is ending once at the later time. */
  lemma EndIdempotent(w: World, t1: int, t2: int)
    ensures End(End(w, t1).world, t2) == End(w, t2)
  {
  }

  /** Every transition keeps a well-formed stored session well-formed. */
  lemma TransitionsPreserveWellFormed(w: World, now: int, taskId: Option<int>, timerType: string, name: string)
    requires w.timerState.Some? ==> WellFormed(w.timerState.value)
    ensures WellFormed(Start(w, taskId, timerType, now).world.timerState.value)
    ensures var x := Pause(w, now).world; x.timerState.Some? ==> WellFormed(x.timerState.value)
    ensures var x := Resume(w, now).world; x.timerState.Some? ==> WellFormed(x.timerState.value)
    ensures var x := End(w, now).world; x.timerState.Some? ==> WellFormed(x.timerState.value)
    ensures var x := Completed(w, timerType, taskId, now).world; x.timerState.Some? ==> WellFormed(x.timerState.value)
    ensures var x := OnAlarm(w, name, now).world; x.timerState.Some? ==> WellFormed(x.timerState.value)
  {
    var c := OnAlarm(w, name, now);
    if name == ALARM_NAME && IsRunning(w) {
      var ty := TypeOrPomodoro(w.timerState.value.savedType);
      assert c == Completed(w, ty, w.timerState.value.taskId, now);
    }
  }

  /** A Pomodoro completed by its alarm is stopped, so a second alarm does nothing. */
  lemma PomodoroAlarmCompletesOnce(w: World, t1: int, t2: int)
    requires IsRunning(w) && TypeOrPomodoro(w.timerState.value.savedType) == POMODORO
    ensures |OnAlarm(w, ALARM_NAME, t1).effects.notifications| == 1
    ensures OnAlarm(OnAlarm(w, ALARM_NAME, t1).world, ALARM_NAME, t2) == Step(OnAlarm(w, ALARM_NAME, t1).world, NO_EFFECTS)
  {
  }

  /** A break completed by its alarm stays stored as running, so another
      alarm on the same state completes it again (a second notification). */
  lemma BreakAlarmLeavesSessionRunning(w: World, t1: int, t2: int)
    requires IsRunning(w) && IsBreak(w.timerState.value.savedType)
    ensures OnAlarm(w, ALARM_NAME, t1).world == w
    ensures |OnAlarm(OnAlarm(w, ALARM_NAME, t1).world, ALARM_NAME, t2).effects.notifications| == 1
  {
  }

  /** A Pomodoro started at `t0` and paused ten minutes later keeps 15:00;
      resumed at `t1` it ends at `t1 + 900000`. */
  lemma StartPauseResumeScenario(w: World, t0: int, t1: int)
    ensures var started := Start(w, None, POMODORO, t0).world;
      && started.timerState.value.endTime == Some(t0 + 1500000)
      && var paused := Pause(started, t0 + 600000).world;
      && paused.timerState.value.savedMinutes == 15 && paused.timerState.value.savedSeconds == 0
      && paused.timerState.value.endTime.None?
      && Resume(paused, t1).world.timerState.value.endTime == Some(t1 + 900000)
  {
    var started := Start(w, None, POMODORO, t0).world;
    assert RemainingMs(started.timerState.value, t0 + 600000) == 900000;
    DecomposeWholeSeconds(15, 0);
  }
}

=== FILE: notices.dfy ===
/** Notification records, the per-source counters and the notification
    filter settings, as stored under `notifications`, `blockedNotifications`,
    `notificationStats` and `notificationSettings`. */
module Notices {
  import opened Wrappers

  const GMAIL: string := "Gmail"
  const CALENDAR: string := "Calendar"
  const SYSTEM: string := "System"

  /** What a classifier call knows about a notification before it is stored. */
  datatype Details = Details(source: string, message: string, link: Option<string>, details: Option<string>)

  /** A stored notification; `id` is the creation time (`Date.now().toString()`
      in the source, kept here as the number it is printed from). */
  datatype Notice = Notice(source: string, message: string, link: Option<string>, details: Option<string>, time: int, id: int)

  function Stamp(d: Details, now: int): (n: Notice)
    ensures n.source == d.source && n.message == d.message && n.time == now
  {
    Notice(d.source, d.message, d.link, d.details, now, now)
  }

  /** `{ gmail, calendar }` counters shown on the dashboard. */
  datatype Stats = Stats(gmail: int, calendar: int)

  const ZERO_STATS: Stats := Stats(0, 0)

  /** Number of records of `list` whose source is `source`. */
  function CountSource(list: seq<Notice>, source: string): (k: nat)
    ensures k <= |list|
  {
    if |list| == 0 then 0
    else CountSource(list[..|list| - 1], source) + (if list[|list| - 1].source == source then 1 else 0)
  }

  /** The counters a list of allowed notifications should have. */
  function StatsOf(list: seq<Notice>): Stats {
    Stats(CountSource(list, GMAIL), CountSource(list, CALENDAR))
  }

  /** Appending one record adds one to the count of its own source only. */
  lemma CountSourceAppend(list: seq<Notice>, n: Notice, source: string)
    ensures CountSource(list + [n], source) == CountSource(list, source) + (if n.source == source then 1 else 0)
  {
    assert (list + [n])[..|list|] == list;
  }

  /** `{ allowFrom, enableDuringBreaks }`. */
  datatype NotificationSettings = NotificationSettings(allowFrom: seq<string>, enableDuringBreaks: bool)

  /** The defaults written on install and assumed when nothing is stored. */
  const DEFAULT_NOTIFICATION_SETTINGS: NotificationSettings := NotificationSettings([GMAIL], true)
}

=== FILE: notification_filter.dfy ===
/** The notification filter settings (`NotificationFilter`): which sources
    may interrupt a focus session, and whether breaks are exempt. */
module NotificationFilter {
  import opened Wrappers
  import opened Seqs
  import opened Notices
  import opened SessionState
  import opened TimerTypes
  import FocusSession
  import Classifier

  /** The settings shown before anything is read, and kept when nothing is
      stored. */
  function LoadSettings(stored: Option<NotificationSettings>): (r: NotificationSettings)
    ensures stored.None? ==> r.allowFrom == [GMAIL] && r.enableDuringBreaks
    ensures stored.Some? ==> r == stored.value
  {
    stored.GetOr(DEFAULT_NOTIFICATION_SETTINGS)
  }

  /** The page shows the settings the background enforces: the same stored
      object, with the same default when none is stored. A source the
      background blocks is one the page shows as not allowed, and a toggle
      the page stores is what the background reads next. */
  lemma PageShowsEnforcedSettings(w: World, source: string)
    ensures LoadSettings(w.notificationSettings) == Classifier.SettingsOf(w)
    ensures Classifier.ShouldBlock(w, source) ==> source !in LoadSettings(w.notificationSettings).allowFrom
    ensures var ns := ToggleSource(LoadSettings(w.notificationSettings), source);
      Classifier.SettingsOf(w.(notificationSettings := Some(ns))) == ns
  {
  }

  /** `toggleSource`: drop every occurrence of a listed source, or append an
      unlisted one at the end. */
  function ToggleSource(ns: NotificationSettings, source: string): (r: NotificationSettings)
    ensures r.enableDuringBreaks == ns.enableDuringBreaks
    ensures source in r.allowFrom <==> source !in ns.allowFrom
    ensures forall x | x != source :: x in r.allowFrom <==> x in ns.allowFrom
    ensures source !in ns.allowFrom ==> r.allowFrom == ns.allowFrom + [source]
    ensures source in ns.allowFrom ==> |r.allowFrom| < |ns.allowFrom|
  {
    if source in ns.allowFrom then
      var kept := Filter(ns.allowFrom, x => x != source);
      assert |kept| < |ns.allowFrom| by { FilterDropsOne(ns.allowFrom, source); }
      ns.(allowFrom := kept)
    else ns.(allowFrom := ns.allowFrom + [source])
  }

  /** Removing a present value shortens the list. */
  lemma {:induction false} FilterDropsOne(s: seq<string>, v: string)
    requires v in s
    ensures |Filter(s, x => x != v)| < |s|
    decreases |s|
  {
    if s[0] != v {
      FilterDropsOne(s[1..], v);
    }
  }

  /** `toggleBreakNotifications`. */
  function ToggleBreakNotifications(ns: NotificationSettings): (r: NotificationSettings)
    ensures r.allowFrom == ns.allowFrom && r.enableDuringBreaks != ns.enableDuringBreaks
  {
    ns.(enableDuringBreaks := !ns.enableDuringBreaks)
  }

  /** Toggling the same source twice restores which sources are allowed;
      from an unlisted source it restores the settings exactly. */
  lemma ToggleTwiceRestoresMembership(ns: NotificationSettings, source: string)
    ensures var r := ToggleSource(ToggleSource(ns, source), source);
      && r.enableDuringBreaks == ns.enableDuringBreaks
      && forall x :: x in r.allowFrom <==> x in ns.allowFrom
    ensures source !in ns.allowFrom ==> ToggleSource(ToggleSource(ns, source), source) == ns
  {
    if source !in ns.allowFrom {
      var once := ns.allowFrom + [source];
      FilterKeepsAll(ns.allowFrom, x => x != source);
      FilterConcat(ns.allowFrom, [source], x => x != source);
      assert Filter(once, x => x != source) == ns.allowFrom;
    }
  }

  lemma ToggleBreakTwice(ns: NotificationSettings)
    ensures ToggleBreakNotifications(ToggleBreakNotifications(ns)) == ns
  {
  }

  /** Once a source is toggled into the allowed list, the background
      classifier lets it through whatever the session state. */
  lemma AllowedSourceIsNeverBlocked(w: World, source: string)
    requires source !in Classifier.SettingsOf(w).allowFrom
    ensures !Classifier.ShouldBlock(w.(notificationSettings := Some(ToggleSource(Classifier.SettingsOf(w), source))), source)
  {
  }

  /** Toggling an allowed source out blocks it during a running Pomodoro of
      the focus mode. */
  lemma RemovedSourceIsBlockedInFocus(w: World, source: string)
    requires source in Classifier.SettingsOf(w).allowFrom
    requires w.focusFlag && FocusSession.IsRunning(w) && w.timerState.value.savedType == POMODORO
    ensures Classifier.ShouldBlock(w.(notificationSettings := Some(ToggleSource(Classifier.SettingsOf(w), source))), source)
  {
  }
}

=== FILE: notifications_page.dfy ===
/** The notifications page (`Notifications`): the Gmail/Calendar load
    filter, search, the source filter, deletion with recounted statistics,
    clearing, and grouping by source. */
module NotificationsPage {
  import opened Wrappers
  import opened Text
  import opened Seqs
  import opened Notices
  import opened SessionState
  import Classifier

  predicate IsMailOrCalendar(n: Notice) {
    n.source == GMAIL || n.source == CALENDAR
  }

  function MatchesTerm(term: string): Notice -> bool {
    (n: Notice) => Matches(n, term)
  }

  function SourceLike(filter: string): Notice -> bool {
    (n: Notice) => ToLower(n.source) == ToLower(filter)
  }

  function SourceIs(source: string): Notice -> bool {
    (n: Notice) => n.source == source
  }

  function IdIsNot(id: int): Notice -> bool {
    (n: Notice) => n.id != id
  }

  /** Only Gmail and Calendar records are loaded into the page, each as
      often as it is stored and in stored order. */
  function LoadFilter(stored: seq<Notice>): (r: seq<Notice>)
    ensures forall n | n in r :: n in stored && IsMailOrCalendar(n)
    ensures forall n | n in stored && IsMailOrCalendar(n) :: n in r
    ensures forall n | n in stored :: multiset(r)[n] == if IsMailOrCalendar(n) then multiset(stored)[n] else 0
    ensures IsSubsequence(r, stored)
  {
    FilterSubsequence(stored, IsMailOrCalendar);
    assert forall n | n in stored :: multiset(Filter(stored, IsMailOrCalendar))[n] == if IsMailOrCalendar(n) then multiset(stored)[n] else 0 by {
      forall n | n in stored { FilterMultiset(stored, IsMailOrCalendar, n); }
    }
    Filter(stored, IsMailOrCalendar)
  }

  /** The load filter keeps every record the counters count, so the page
      shows the same counters as the stored list. */
  lemma LoadFilterKeepsStats(stored: seq<Notice>)
    ensures StatsOf(LoadFilter(stored)) == StatsOf(stored)
  {
    LoadFilterKeepsCount(stored, GMAIL);
    LoadFilterKeepsCount(stored, CALENDAR);
  }

  lemma {:induction false} LoadFilterKeepsCount(stored: seq<Notice>, source: string)
    requires source == GMAIL || source == CALENDAR
    ensures CountSource(LoadFilter(stored), source) == CountSource(stored, source)
    decreases |stored|
  {
    if |stored| > 0 {
      LoadFilterKeepsCount(stored[1..], source);
      var h := if IsMailOrCalendar(stored[0]) then [stored[0]] else [];
      assert LoadFilter(stored) == h + LoadFilter(stored[1..]);
      CountSourceConcat(h, LoadFilter(stored[1..]), source);
      CountSourceCons(stored, source);
      if h == [] {
        assert CountSource(h, source) == 0;
      } else {
        CountSourceCons(h, source);
      }
    }
  }

  /** Counting from the front: the first record adds one to its own source. */
  lemma CountSourceCons(list: seq<Notice>, source: string)
    requires |list| > 0
    ensures CountSource(list, source) == (if list[0].source == source then 1 else 0) + CountSource(list[1..], source)
  {
    assert list == [list[0]] + list[1..];
    CountSourceConcat([list[0]], list[1..], source);
    assert [list[0]] == [] + [list[0]];
    CountSourceAppend([], list[0], source);
  }

  /** Loading an already loaded list changes nothing. */
  lemma LoadFilterIdempotent(stored: seq<Notice>)
    ensures LoadFilter(LoadFilter(stored)) == LoadFilter(stored)
  {
    FilterIdempotent(stored, IsMailOrCalendar);
  }

  /** The search test: message or source contains the term, ignoring case. */
  predicate Matches(n: Notice, term: string) {
    Contains(ToLower(n.message), ToLower(term)) || Contains(ToLower(n.source), ToLower(term))
  }

  /** Search; an empty term keeps every record. Matching records keep
      their multiplicity and order. */
  function Search(list: seq<Notice>, term: string): (r: seq<Notice>)
    ensures term == "" ==> r == list
    ensures forall n | n in r :: n in list && Matches(n, term)
    ensures forall n | n in list && Matches(n, term) :: n in r
    ensures forall n | n in list :: multiset(r)[n] == if Matches(n, term) then multiset(list)[n] else 0
    ensures IsSubsequence(r, list)
  {
    if term == "" then
      assert forall n | n in list :: Matches(n, term) by {
        forall n | n in list ensures Matches(n, term) { ContainsEmpty(ToLower(n.message)); }
      }
      SubsequenceRefl(list);
      list
    else
      FilterSubsequence(list, MatchesTerm(term));
      assert forall n | n in list :: multiset(Filter(list, MatchesTerm(term)))[n] == if Matches(n, term) then multiset(list)[n] else 0 by {
        forall n | n in list { FilterMultiset(list, MatchesTerm(term), n); }
      }
      Filter(list, MatchesTerm(term))
  }

  lemma ContainsEmpty(s: string)
    ensures Contains(s, "")
  {
    ContainsIff(s, "");
    assert OccursAt(s, "", 0);
  }

  /** The source filter: `all` keeps every record, any other value keeps
      the records whose source equals it ignoring case. */
  function SourceFilter(list: seq<Notice>, filter: string): (r: seq<Notice>)
    ensures filter == "all" ==> r == list
    ensures filter != "all" ==> forall n | n in r :: n in list && ToLower(n.source) == ToLower(filter)
    ensures filter != "all" ==> forall n | n in list && ToLower(n.source) == ToLower(filter) :: n in r
    ensures filter != "all" ==> forall n | n in list :: multiset(r)[n] == if ToLower(n.source) == ToLower(filter) then multiset(list)[n] else 0
    ensures IsSubsequence(r, list)
  {
    if filter == "all" then
      SubsequenceRefl(list);
      list
    else
      FilterSubsequence(list, SourceLike(filter));
      assert forall n | n in list :: multiset(Filter(list, SourceLike(filter)))[n] == if ToLower(n.source) == ToLower(filter) then multiset(list)[n] else 0 by {
        forall n | n in list { FilterMultiset(list, SourceLike(filter), n); }
      }
      Filter(list, SourceLike(filter))
  }

  /** What the page lists: search first, then the source filter. */
  function Visible(list: seq<Notice>, term: string, filter: string): seq<Notice> {
    SourceFilter(Search(list, term), filter)
  }

  /** Both filters keep records in their original order, so applying them
      the other way round lists the same records. */
  lemma FiltersCommute(list: seq<Notice>, term: string, filter: string)
    ensures Visible(list, term, filter) == Search(SourceFilter(list, filter), term)
  {
    if term != "" && filter != "all" {
      FilterCommutes(list, MatchesTerm(term), SourceLike(filter));
    }
  }

  // ---------------------------------------------------------------------
  // Deleting and clearing
  // ---------------------------------------------------------------------

  /** The stored list and its counters. */
  datatype Stored = Stored(notifications: seq<Notice>, stats: Stats)

  predicate HasNoticeId(list: seq<Notice>, id: int) {
    exists i | 0 <= i < |list| :: list[i].id == id
  }

  /** `deleteNotification(id)` on the stored list; the counters are
      recounted from what remains. */
  function Delete(stored: seq<Notice>, id: int): (r: Stored)
    ensures !HasNoticeId(r.notifications, id)
    ensures forall n | n in stored && n.id != id :: n in r.notifications
    ensures forall n | n in r.notifications :: n in stored
    ensures r.stats.gmail == CountSource(r.notifications, GMAIL) && r.stats.calendar == CountSource(r.notifications, CALENDAR)
  {
    var kept := Filter(stored, IdIsNot(id));
    assert forall j | 0 <= j < |kept| :: kept[j].id != id by {
      forall j | 0 <= j < |kept| ensures kept[j].id != id { assert kept[j] in kept; }
    }
    Stored(kept, StatsOf(kept))
  }

  lemma {:induction false} CountSourceConcat(a: seq<Notice>, b: seq<Notice>, source: string)
    ensures CountSource(a + b, source) == CountSource(a, source) + CountSource(b, source)
    decreases |b|
  {
    if |b| > 0 {
      var b' := b[..|b| - 1];
      CountSourceConcat(a, b', source);
      assert a + b == (a + b') + [b[|b| - 1]];
      assert b == b' + [b[|b| - 1]];
      CountSourceAppend(a + b', b[|b| - 1], source);
      CountSourceAppend(b', b[|b| - 1], source);
    } else {
      assert a + b == a;
    }
  }

  /** Filtering out an id that occurs once, at `i`, removes exactly that
      record. */
  lemma {:induction false} FilterRemovesUnique(stored: seq<Notice>, i: nat)
    requires i < |stored| && forall j | 0 <= j < |stored| && j != i :: stored[j].id != stored[i].id
    ensures Filter(stored, IdIsNot(stored[i].id)) == stored[..i] + stored[i + 1..]
    decreases i
  {
    var tail := stored[1..];
    if i == 0 {
      FilterRemovesHead(stored);
    } else {
      var p := IdIsNot(stored[i].id);
      assert tail[i - 1] == stored[i];
      assert p(stored[0]);
      FilterRemovesUnique(tail, i - 1);
      assert Filter(stored, p) == [stored[0]] + Filter(tail, p);
      WithoutSplitsHead(stored, i);
    }
  }

  /** Taking out an element past the head keeps the head in front. */
  lemma WithoutSplitsHead<T>(s: seq<T>, i: nat)
    requires 0 < i < |s|
    ensures s[..i] + s[i + 1..] == [s[0]] + (s[1..][..i - 1] + s[1..][i..])
  {
    assert s[..i] == [s[0]] + s[1..][..i - 1];
    assert s[i + 1..] == s[1..][i..];
  }

  lemma FilterRemovesHead(stored: seq<Notice>)
    requires |stored| > 0 && forall j | 0 < j < |stored| :: stored[j].id != stored[0].id
    ensures Filter(stored, IdIsNot(stored[0].id)) == stored[1..]
  {
    var p := IdIsNot(stored[0].id);
    var tail := stored[1..];
    forall j | 0 <= j < |tail| ensures p(tail[j]) { assert tail[j] == stored[j + 1]; }
    FilterKeepsAll(tail, p);
  }

  /** A sequence is what comes before `i`, its element at `i`, and what
      comes after. */
  lemma SplitAround<T>(s: seq<T>, i: nat)
    requires i < |s|
    ensures s == (s[..i] + [s[i]]) + s[i + 1..]
  {
  }

  /** Taking out the record at `i` lowers only its own source's count. */
  lemma CountSourceRemove(stored: seq<Notice>, i: nat, source: string)
    requires i < |stored|
    ensures CountSource(stored[..i] + stored[i + 1..], source)
         == CountSource(stored, source) - (if stored[i].source == source then 1 else 0)
  {
    var pre, post := stored[..i], stored[i + 1..];
    SplitAround(stored, i);
    CountSourceConcat(pre, post, source);
    CountSourceConcat(pre + [stored[i]], post, source);
    CountSourceAppend(pre, stored[i], source);
  }

  /** Deleting the one record with a given id takes exactly one off the
      counter of its source and leaves the other counter alone. */
  lemma DeleteUniqueRecount(stored: seq<Notice>, i: nat)
    requires i < |stored| && forall j | 0 <= j < |stored| && j != i :: stored[j].id != stored[i].id
    ensures var r := Delete(stored, stored[i].id);
      && r.stats.gmail == CountSource(stored, GMAIL) - (if stored[i].source == GMAIL then 1 else 0)
      && r.stats.calendar == CountSource(stored, CALENDAR) - (if stored[i].source == CALENDAR then 1 else 0)
  {
    FilterRemovesUnique(stored, i);
    CountSourceRemove(stored, i, GMAIL);
    CountSourceRemove(stored, i, CALENDAR);
  }

  /** `clearAllNotifications`: an empty list with zero counters, the same
      allowed list and counters the background leaves on the message it
      sends. */
  function ClearAll(): (r: Stored)
    ensures r.notifications == [] && r.stats == StatsOf(r.notifications)
    ensures forall w: World :: r == Stored(Classifier.Clear(w).notifications, Classifier.Clear(w).stats)
  {
    Stored([], ZERO_STATS)
  }

  // ---------------------------------------------------------------------
  // Grouping
  // ---------------------------------------------------------------------

  datatype Group = Group(source: string, items: seq<Notice>)

  /** Records of one source, in list order. */
  function OfSource(list: seq<Notice>, source: string): seq<Notice> {
    Filter(list, SourceIs(source))
  }

  /** Where `groups[source]` lives, if the key exists. */
  function KeyIndex(groups: seq<Group>, source: string): (r: Option<nat>)
    ensures r.Some? ==> r.value < |groups| && groups[r.value].source == source
    ensures r.None? ==> forall k | 0 <= k < |groups| :: groups[k].source != source
  {
    if |groups| == 0 then None
    else if groups[|groups| - 1].source == source then Some(|groups| - 1)
    else KeyIndex(groups[..|groups| - 1], source)
  }

  /** One step of the `reduce`: push onto the record's source, creating the
      key at the end on first sight. */
  function Push(groups: seq<Group>, n: Notice): seq<Group> {
    match KeyIndex(groups, n.source)
    case Some(k) => groups[k := Group(n.source, groups[k].items + [n])]
    case None => groups + [Group(n.source, [n])]
  }

  /** `filteredNotifications.reduce(...)`, keys in order of first
      appearance. */
  function GroupBySource(list: seq<Notice>): seq<Group>
    decreases |list|
  {
    if |list| == 0 then [] else Push(GroupBySource(list[..|list| - 1]), list[|list| - 1])
  }

  /** The reference meaning of a grouping: one key per source that occurs,
      each holding exactly that source's records in order. */
  predicate IsGrouping(groups: seq<Group>, list: seq<Notice>) {
    && (forall i, j | 0 <= i < j < |groups| :: groups[i].source != groups[j].source)
    && (forall i | 0 <= i < |groups| :: groups[i].items == OfSource(list, groups[i].source) && |groups[i].items| > 0)
    && (forall n | n in list :: exists i | 0 <= i < |groups| :: groups[i].source == n.source)
  }

  lemma OfSourceAppend(list: seq<Notice>, n: Notice, source: string)
    ensures OfSource(list + [n], source) == OfSource(list, source) + (if n.source == source then [n] else [])
  {
    FilterConcat(list, [n], SourceIs(source));
  }

  /** A record is among the records of its own source. */
  lemma InOfSource(list: seq<Notice>, n: Notice)
    requires n in list
    ensures n in OfSource(list, n.source)
  {
    assert SourceIs(n.source)(n);
  }

  /** A source with no key in a grouping has no records. */
  lemma OfSourceAbsent(g: seq<Group>, list: seq<Notice>, source: string)
    requires IsGrouping(g, list) && KeyIndex(g, source).None?
    ensures OfSource(list, source) == []
  {
    if OfSource(list, source) != [] {
      FirstOfSource(list, source);
      assert false;
    }
  }

  lemma FirstOfSource(list: seq<Notice>, source: string)
    requires OfSource(list, source) != []
    ensures OfSource(list, source)[0] in list && OfSource(list, source)[0].source == source
  {
    assert OfSource(list, source)[0] in OfSource(list, source);
  }

  /** One `reduce` step keeps the grouping exact. */
  lemma PushPreserves(g: seq<Group>, prefix: seq<Notice>, n: Notice)
    requires IsGrouping(g, prefix)
    ensures IsGrouping(Push(g, n), prefix + [n])
  {
    match KeyIndex(g, n.source)
    case Some(k) =>
      PushExisting(g, prefix, n, k);
    case None =>
      OfSourceAbsent(g, prefix, n.source);
      PushNew(g, prefix, n);
  }

  /** Pushing onto an existing key. */
  lemma PushExisting(g: seq<Group>, prefix: seq<Notice>, n: Notice, k: nat)
    requires IsGrouping(g, prefix) && k < |g| && g[k].source == n.source
    ensures IsGrouping(g[k := Group(n.source, g[k].items + [n])], prefix + [n])
  {
    var list := prefix + [n];
    var r := g[k := Group(n.source, g[k].items + [n])];
    forall i | 0 <= i < |r|
      ensures r[i].items == OfSource(list, r[i].source) && |r[i].items| > 0
    {
      PushExistingItem(g, prefix, n, k, i);
    }
    forall m | m in list
      ensures exists i | 0 <= i < |r| :: r[i].source == m.source
    {
      if m in prefix {
        var i :| 0 <= i < |g| && g[i].source == m.source;
        assert r[i].source == m.source;
      } else {
        assert r[k].source == m.source;
      }
    }
  }

  /** One group after pushing onto key `k`: the pushed group gains the
      record, every other group keeps its items. */
  lemma PushExistingItem(g: seq<Group>, prefix: seq<Notice>, n: Notice, k: nat, i: nat)
    requires IsGrouping(g, prefix) && k < |g| && g[k].source == n.source && i < |g|
    ensures var r := g[k := Group(n.source, g[k].items + [n])];
      r[i].items == OfSource(prefix + [n], r[i].source) && |r[i].items| > 0
  {
    OfSourceAppend(prefix, n, g[i].source);
    if i != k {
      assert g[i].source != g[k].source by {
        if i < k { assert g[i].source != g[k].source; } else { assert g[k].source != g[i].source; }
      }
    }
  }

  /** Pushing a record of a source with no key yet adds the key at the
      end. */
  lemma PushNew(g: seq<Group>, prefix: seq<Notice>, n: Notice)
    requires IsGrouping(g, prefix) && OfSource(prefix, n.source) == []
    requires forall k | 0 <= k < |g| :: g[k].source != n.source
    ensures IsGrouping(g + [Group(n.source, [n])], prefix + [n])
  {
    var list := prefix + [n];
    var r := g + [Group(n.source, [n])];
    forall i | 0 <= i < |r|
      ensures r[i].items == OfSource(list, r[i].source) && |r[i].items| > 0
    {
      OfSourceAppend(prefix, n, r[i].source);
    }
    forall m | m in list
      ensures exists i | 0 <= i < |r| :: r[i].source == m.source
    {
      if m in prefix {
        var i :| 0 <= i < |g| && g[i].source == m.source;
        assert r[i].source == m.source;
      } else {
        assert r[|g|].source == m.source;
      }
    }
  }

  /** Grouping puts every record under its own source exactly once, and in
      order. */
  lemma {:induction false} GroupBySourceIsGrouping(list: seq<Notice>)
    ensures IsGrouping(GroupBySource(list), list)
    decreases |list|
  {
    if |list| > 0 {
      var prefix := list[..|list| - 1];
      assert list == prefix + [list[|list| - 1]];
      GroupBySourceIsGrouping(prefix);
      PushPreserves(GroupBySource(prefix), prefix, list[|list| - 1]);
    }
  }

  /** Every listed record appears in its own source's group and in no
      other. */
  lemma GroupedOnce(list: seq<Notice>, n: Notice, groups: seq<Group>)
    requires n in list && groups == GroupBySource(list)
    ensures exists i | 0 <= i < |groups| :: groups[i].source == n.source && n in groups[i].items
    ensures forall i | 0 <= i < |groups| && n in groups[i].items :: groups[i].source == n.source
  {
    GroupBySourceIsGrouping(list);
    InOfSource(list, n);
    var i :| 0 <= i < |groups| && groups[i].source == n.source;
    assert groups[i].items == OfSource(list, n.source);
    forall j | 0 <= j < |groups| && n in groups[j].items ensures groups[j].source == n.source {
      assert n in OfSource(list, groups[j].source);
    }
  }
}

=== FILE: seqs.dfy ===
/** `Array.prototype.filter` over sequences, with the facts the list
    operations rely on: membership, order and composition. */
module Seqs {
  /** `a` is what is left of `b` after deleting some of its elements:
      the elements of `a` occur in `b` in the same order. */
  ghost predicate IsSubsequence<T>(a: seq<T>, b: seq<T>)
    decreases |b|
  {
    |a| == 0 || (|b| > 0 && ((a[0] == b[0] && IsSubsequence(a[1..], b[1..])) || IsSubsequence(a, b[1..])))
  }

  /** Every sequence is a subsequence of itself. */
  lemma {:induction false} SubsequenceRefl<T>(s: seq<T>)
    ensures IsSubsequence(s, s)
    decreases |s|
  {
    if |s| > 0 {
      SubsequenceRefl(s[1..]);
    }
  }

  /** The elements of `s` satisfying `p`, in their original order. */
  function Filter<T>(s: seq<T>, p: T -> bool): (r: seq<T>)
    ensures |r| <= |s|
    ensures forall x | x in r :: x in s && p(x)
    ensures forall x | x in s && p(x) :: x in r
  {
    if |s| == 0 then [] else (if p(s[0]) then [s[0]] else []) + Filter(s[1..], p)
  }

  /** Filtering deletes elements and never reorders the ones it keeps. */
  lemma {:induction false} FilterSubsequence<T>(s: seq<T>, p: T -> bool)
    ensures IsSubsequence(Filter(s, p), s)
    decreases |s|
  {
    if |s| > 0 {
      FilterSubsequence(s[1..], p);
      if p(s[0]) {
        var r := Filter(s, p);
        assert r == [s[0]] + Filter(s[1..], p);
        assert r[1..] == Filter(s[1..], p);
      } else {
        assert Filter(s, p) == Filter(s[1..], p);
      }
    }
  }

  /** Filtering keeps each passing value exactly as often as it occurs
      and drops every other value. */
  lemma {:induction false} FilterMultiset<T>(s: seq<T>, p: T -> bool, x: T)
    ensures multiset(Filter(s, p))[x] == if p(x) then multiset(s)[x] else 0
    decreases |s|
  {
    if |s| > 0 {
      FilterMultiset(s[1..], p, x);
      assert s == [s[0]] + s[1..];
      assert multiset(s) == multiset([s[0]]) + multiset(s[1..]);
      var h := if p(s[0]) then [s[0]] else [];
      assert multiset(Filter(s, p)) == multiset(h) + multiset(Filter(s[1..], p));
    }
  }

  /** Filtering twice with the same predicate is filtering once. */
  lemma {:induction false} FilterIdempotent<T>(s: seq<T>, p: T -> bool)
    ensures Filter(Filter(s, p), p) == Filter(s, p)
    decreases |s|
  {
    if |s| > 0 {
      FilterIdempotent(s[1..], p);
      FilterConcat(if p(s[0]) then [s[0]] else [], Filter(s[1..], p), p);
    }
  }

  /** Filtering a concatenation filters each part and keeps them in order. */
  lemma {:induction false} FilterConcat<T>(a: seq<T>, b: seq<T>, p: T -> bool)
    ensures Filter(a + b, p) == Filter(a, p) + Filter(b, p)
    decreases |a|
  {
    if |a| > 0 {
      FilterConcat(a[1..], b, p);
      assert (a + b)[1..] == a[1..] + b;
      assert (a + b)[0] == a[0];
      var h := if p(a[0]) then [a[0]] else [];
      calc {
        Filter(a + b, p);
        h + Filter(a[1..] + b, p);
        h + (Filter(a[1..], p) + Filter(b, p));
        (h + Filter(a[1..], p)) + Filter(b, p);
      }
    } else {
      assert a + b == b;
    }
  }

  /** Filtering keeps everything exactly when every element passes. */
  lemma {:induction false} FilterKeepsAll<T>(s: seq<T>, p: T -> bool)
    requires forall i | 0 <= i < |s| :: p(s[i])
    ensures Filter(s, p) == s
    decreases |s|
  {
    if |s| > 0 {
      FilterKeepsAll(s[1..], p);
    }
  }

  /** Two filters applied one after the other, in either order, keep the
      elements that pass both. */
  lemma {:induction false} FilterCommutes<T>(s: seq<T>, p: T -> bool, q: T -> bool)
    ensures Filter(Filter(s, p), q) == Filter(Filter(s, q), p)
    decreases |s|
  {
    if |s| > 0 {
      FilterCommutes(s[1..], p, q);
      FilterConcat(if p(s[0]) then [s[0]] else [], Filter(s[1..], p), q);
      FilterConcat(if q(s[0]) then [s[0]] else [], Filter(s[1..], q), p);
    }
  }

  /** Filters with predicates that agree on every element of the list
      keep the same elements. */
  lemma {:induction false} FilterAgree<T>(s: seq<T>, p: T -> bool, q: T -> bool)
    requires forall i | 0 <= i < |s| :: p(s[i]) == q(s[i])
    ensures Filter(s, p) == Filter(s, q)
    decreases |s|
  {
    if |s| > 0 {
      FilterAgree(s[1..], p, q);
    }
  }
}

=== FILE: session_state.dfy ===
/** The stored focus-session record (`timerState`), the background worker's
    view of storage, the side effects a transition asks the browser for, and
    the messages the popup sends to the background worker. */
module SessionState {
  import opened Wrappers
  import opened Notices

  /** `timerState` as the extension stores it. `endTime` and `pausedAt` are
      epoch milliseconds; `taskId` is the task the session belongs to. */
  datatype TimerState = TimerState(
    savedType: string,
    savedMinutes: int,
    savedSeconds: int,
    savedIsActive: bool,
    endTime: Option<int>,
    pausedAt: Option<int>,
    taskId: Option<int>)

  /** The shape every background transition keeps: a running session has an
      end time and no pause time, a stopped one the reverse, and its saved
      clock reads as minutes and seconds. */
  predicate WellFormed(ts: TimerState) {
    && (ts.savedIsActive <==> ts.endTime.Some?)
    && (ts.savedIsActive <==> ts.pausedAt.None?)
    && ts.savedMinutes >= 0
    && 0 <= ts.savedSeconds < 60
  }

  /** `endTime - now` as JavaScript evaluates it: a `null` end time counts as 0. */
  function EndOrZero(ts: TimerState): int {
    ts.endTime.GetOr(0)
  }

  /** The part of `chrome.storage.local` the background worker reads and writes,
      together with its in-memory `isFocusModeActive` flag. */
  datatype World = World(
    timerState: Option<TimerState>,
    activeTimer: Option<int>,
    focusFlag: bool,
    notificationSettings: Option<NotificationSettings>,
    notifications: seq<Notice>,
    blocked: seq<Notice>,
    stats: Stats)

  /** A request to `chrome.notifications.create`, already decoded from its
      variable argument list. */
  datatype NotificationRequest = NotificationRequest(id: Option<string>, title: Option<string>, message: Option<string>)

  /** What a transition does to the single `pomodoroEnd` alarm. Clearing and
      re-creating it in one transition is the same as setting it. */
  datatype AlarmChange = AlarmKept | AlarmCleared | AlarmSet(when: int)

  /** The browser calls a transition makes: the alarm, the badge text and
      colour, and the notifications it creates, in order. */
  datatype Effects = Effects(
    alarm: AlarmChange,
    badge: Option<string>,
    badgeColor: Option<string>,
    notifications: seq<NotificationRequest>)

  const NO_EFFECTS: Effects := Effects(AlarmKept, None, None, [])

  /** The effects of `first` followed by those of `second`. */
  function Then(first: Effects, second: Effects): (e: Effects)
    ensures e.notifications == first.notifications + second.notifications
    ensures second.alarm != AlarmKept ==> e.alarm == second.alarm
    ensures second.badge.Some? ==> e.badge == second.badge
  {
    Effects(
      if second.alarm.AlarmKept? then first.alarm else second.alarm,
      if second.badge.Some? then second.badge else first.badge,
      if second.badgeColor.Some? then second.badgeColor else first.badgeColor,
      first.notifications + second.notifications)
  }

  /** The alarm registered after `change`, given the one registered before. */
  function AlarmAfter(registered: Option<int>, change: AlarmChange): Option<int> {
    match change
    case AlarmKept => registered
    case AlarmCleared => None
    case AlarmSet(when) => Some(when)
  }

  /** Messages the popup sends over `chrome.runtime.sendMessage`. A missing
      `timerType` or `source` is the empty string. */
  datatype Message =
    | StartPomodoro(taskId: Option<int>, timerType: string)
    | PausePomodoro
    | ResumePomodoro
    | EndPomodoro
    | TimerCompleted(completedType: string, completedTask: Option<int>)
    | ClearNotifications
    | CheckFocusMode(source: string)
    | OtherAction(action: string)
}

=== FILE: settings_form.dfy ===
/** The settings page (`Settings`): the form's fields, their validation on
    input, the reset, the load with its defaults, and the automatic save. */
module SettingsForm {
  import opened Wrappers
  import opened Coerce
  import opened Text
  import opened TimerTypes
  import opened Storage

  datatype Form = Form(
    pomodoroMinutes: int,
    shortBreakMinutes: int,
    longBreakMinutes: int,
    notificationSound: string,
    notificationVolume: int,
    enableSounds: bool,
    autoStartBreaks: bool,
    autoStartPomodoros: bool,
    longBreakInterval: int)

  /** The form's initial state, also what "Reset to Defaults" sets. */
  const DEFAULT_FORM: Form := Form(25, 5, 15, "bell", 70, true, true, false, 4)

  /** The numeric inputs that go through `handleNumberChange`. */
  datatype Field = PomodoroLength | ShortBreakLength | LongBreakLength | LongBreakInterval

  /** The inclusive `[min, max]` of each numeric input: 1 to 120 minutes
      of focus, 1 to 30 and 1 to 60 minutes of break, and a long break
      every 2 to 10 sessions. The defaults lie within every range. */
  function Bounds(field: Field): (b: (int, int))
    ensures 1 <= b.0 <= b.1
    ensures field == PomodoroLength ==> b == (1, 120)
    ensures field == ShortBreakLength ==> b == (1, 30)
    ensures field == LongBreakLength ==> b == (1, 60)
    ensures field == LongBreakInterval ==> b == (2, 10)
    ensures b.0 <= FieldValue(DEFAULT_FORM, field) <= b.1
  {
    match field
    case PomodoroLength => (1, 120)
    case ShortBreakLength => (1, 30)
    case LongBreakLength => (1, 60)
    case LongBreakInterval => (2, 10)
  }

  function FieldValue(f: Form, field: Field): int {
    match field
    case PomodoroLength => f.pomodoroMinutes
    case ShortBreakLength => f.shortBreakMinutes
    case LongBreakLength => f.longBreakMinutes
    case LongBreakInterval => f.longBreakInterval
  }

  function SetField(f: Form, field: Field, v: int): (r: Form)
    ensures FieldValue(r, field) == v
    ensures forall g :: g != field ==> FieldValue(r, g) == FieldValue(f, g)
    ensures r.notificationSound == f.notificationSound && r.notificationVolume == f.notificationVolume
    ensures r.enableSounds == f.enableSounds && r.autoStartBreaks == f.autoStartBreaks
    ensures r.autoStartPomodoros == f.autoStartPomodoros
  {
    match field
    case PomodoroLength => f.(pomodoroMinutes := v)
    case ShortBreakLength => f.(shortBreakMinutes := v)
    case LongBreakLength => f.(longBreakMinutes := v)
    case LongBreakInterval => f.(longBreakInterval := v)
  }

  predicate InBounds(f: Form, field: Field) {
    Bounds(field).0 <= FieldValue(f, field) <= Bounds(field).1
  }

  /** Every numeric field within its input's bounds. */
  predicate Valid(f: Form) {
    forall field :: InBounds(f, field)
  }

  /** `handleNumberChange`: the field takes the parsed value only when it is
      a number within the bounds; anything else leaves the form as it was. */
  function HandleNumberChange(f: Form, field: Field, input: string): (r: Form)
    ensures r == f || (ParseInt(input).Some? && r == SetField(f, field, ParseInt(input).value))
    ensures r != f ==> InBounds(r, field)
    ensures ParseInt(input).None? ==> r == f
    ensures ParseInt(input).Some? && (ParseInt(input).value < Bounds(field).0 || ParseInt(input).value > Bounds(field).1) ==> r == f
  {
    match ParseInt(input)
    case Some(n) => if Bounds(field).0 <= n <= Bounds(field).1 then SetField(f, field, n) else f
    case None => f
  }

  /** Input keeps a valid form valid. */
  lemma InputKeepsValid(f: Form, field: Field, input: string)
    requires Valid(f)
    ensures Valid(HandleNumberChange(f, field, input))
  {
    var r := HandleNumberChange(f, field, input);
    forall g ensures InBounds(r, g) {
      if r != f && g != field {
        assert FieldValue(r, g) == FieldValue(f, g);
        assert InBounds(f, g);
      }
    }
  }

  /** Typing the decimal text of an in-range number sets the field to it. */
  lemma TypingInRangeSets(f: Form, field: Field, n: nat)
    requires Bounds(field).0 <= n <= Bounds(field).1
    ensures HandleNumberChange(f, field, NatToString(n)) == SetField(f, field, n)
  {
    ParseIntOfNatToString(n);
  }

  /** `resetToDefaults`: the form is what a first load with nothing stored
      shows, and what the stored defaults load as. */
  function ResetToDefaults(f: Form): (r: Form)
    ensures r == LoadForm(None, DEFAULT_FORM) && r == LoadForm(Some(DEFAULT_SETTINGS), f)
    ensures Valid(r)
  {
    assert forall field :: InBounds(DEFAULT_FORM, field) by {
      forall field ensures InBounds(DEFAULT_FORM, field) { }
    }
    DEFAULT_FORM
  }

  /** The load as written: numeric and text fields fall back on `||`, so a
      stored volume of `0` reads as `70`. */
  function LoadFormAsWritten(stored: Option<RawSettings>, current: Form): (r: Form)
    ensures stored.None? ==> r == current
    ensures stored.Some? ==> var s := stored.value;
      && r.pomodoroMinutes == OrNumber(s.pomodoroMinutes, 25)
      && r.shortBreakMinutes == OrNumber(s.shortBreakMinutes, 5)
      && r.longBreakMinutes == OrNumber(s.longBreakMinutes, 15)
      && r.notificationSound == OrOptString(s.notificationSound, "bell")
      && r.notificationVolume == OrNumber(s.notificationVolume, 70)
      && r.enableSounds == (s.enableSounds != Some(false))
      && r.autoStartBreaks == (s.autoStartBreaks != Some(false))
      && r.autoStartPomodoros == (s.autoStartPomodoros == Some(true))
      && r.longBreakInterval == OrNumber(s.longBreakInterval, 4)
    ensures stored.Some? && stored.value.notificationVolume == Some(0) ==> r.notificationVolume == 70
  {
    match stored
    case None => current
    case Some(s) =>
      Form(OrNumber(s.pomodoroMinutes, 25), OrNumber(s.shortBreakMinutes, 5), OrNumber(s.longBreakMinutes, 15),
           OrOptString(s.notificationSound, "bell"), OrNumber(s.notificationVolume, 70),
           NotFalse(s.enableSounds), NotFalse(s.autoStartBreaks), OrFalse(s.autoStartPomodoros),
           OrNumber(s.longBreakInterval, 4))
  }

  /** The load with the volume defaulted only when it is missing. */
  function LoadForm(stored: Option<RawSettings>, current: Form): (r: Form)
    ensures stored.None? ==> r == current
    ensures stored.Some? ==> r.notificationVolume == stored.value.notificationVolume.GetOr(70)
    ensures stored.Some? ==> r.enableSounds == (stored.value.enableSounds != Some(false))
    ensures stored.Some? ==> r.autoStartBreaks == (stored.value.autoStartBreaks != Some(false))
    ensures stored.Some? ==> r.autoStartPomodoros == (stored.value.autoStartPomodoros == Some(true))
    ensures stored.Some? && stored.value.notificationVolume != Some(0) ==> r == LoadFormAsWritten(stored, current)
    ensures stored.Some? ==>
      r.(notificationVolume := 0) == LoadFormAsWritten(stored, current).(notificationVolume := 0)
  {
    match stored
    case None => current
    case Some(s) => LoadFormAsWritten(stored, current).(notificationVolume := s.notificationVolume.GetOr(70))
  }

  /** The object the save writes under `settings`; it has no weekly goal. */
  function ToSettings(f: Form): (s: RawSettings)
    ensures s.weeklyGoal.None?
    ensures Valid(f) ==>
      && InitialDuration(POMODORO, s) == f.pomodoroMinutes
      && InitialDuration(SHORT_BREAK, s) == f.shortBreakMinutes
      && InitialDuration(LONG_BREAK, s) == f.longBreakMinutes
  {
    assert Valid(f) ==> InBounds(f, PomodoroLength) && InBounds(f, ShortBreakLength) && InBounds(f, LongBreakLength);
    RawSettings(Some(f.pomodoroMinutes), Some(f.shortBreakMinutes), Some(f.longBreakMinutes),
                Some(f.notificationSound), Some(f.notificationVolume), Some(f.enableSounds),
                Some(f.autoStartBreaks), Some(f.autoStartPomodoros), Some(f.longBreakInterval), None)
  }

  /** Saving a valid form and loading it again gives the same form. */
  lemma SaveLoadRoundTrip(f: Form, current: Form)
    requires Valid(f) && f.notificationSound != ""
    ensures LoadForm(Some(ToSettings(f)), current) == f
  {
    assert InBounds(f, PomodoroLength) && InBounds(f, ShortBreakLength) && InBounds(f, LongBreakLength);
    assert InBounds(f, LongBreakInterval);
  }

  /** As written, a saved volume of `0` does not survive a reload. */
  lemma VolumeZeroLost(f: Form, current: Form)
    requires f.notificationVolume == 0
    ensures LoadFormAsWritten(Some(ToSettings(f)), current).notificationVolume == 70
    ensures LoadFormAsWritten(Some(ToSettings(f)), current) != f
  {
  }

  /** The fields the load defaults with `||` are all truthy, as they are
      in every loaded form and every valid one. */
  predicate AllTruthy(f: Form) {
    && f.pomodoroMinutes != 0 && f.shortBreakMinutes != 0 && f.longBreakMinutes != 0
    && f.longBreakInterval != 0 && f.notificationSound != ""
  }

  /** The save effect: nothing is written while the load is pending;
      afterwards the written settings load as the form that was saved. */
  function AutoSave(isLoading: bool, f: Form, stored: Option<RawSettings>): (r: Option<RawSettings>)
    ensures isLoading ==> r == stored
    ensures !isLoading ==> r.Some? && LoadForm(r, DEFAULT_FORM) == LoadForm(Some(ToSettings(f)), DEFAULT_FORM)
    ensures !isLoading && AllTruthy(f) ==> LoadForm(r, DEFAULT_FORM) == f
    ensures !isLoading && Valid(f) && f.notificationSound != "" ==> LoadForm(r, DEFAULT_FORM) == f
  {
    ValidIsTruthy(f);
    if isLoading then stored else Some(ToSettings(f))
  }

  /** Opening the page, with the corrected `LoadForm`: the load, then the
      save that the end of loading triggers writes the loaded form back.
      It always writes a complete settings object, and what it writes
      loads back as the form the page showed, so opening the page a second
      time shows the same form. `MountAsWritten` is the page's own
      behaviour. */
  function Mount(stored: Option<RawSettings>): (r: Option<RawSettings>)
    ensures r.Some? && r.value.weeklyGoal.None?
    ensures LoadForm(r, DEFAULT_FORM) == LoadForm(stored, DEFAULT_FORM)
  {
    LoadedReloads(LoadForm(stored, DEFAULT_FORM));
    AutoSave(false, LoadForm(stored, DEFAULT_FORM), stored)
  }

  /** Opening the page as written, with `LoadFormAsWritten`: its own
      reload is also a fixed point, so the lost volume is lost for good. */
  function MountAsWritten(stored: Option<RawSettings>): (r: Option<RawSettings>)
    ensures r.Some? && r.value.weeklyGoal.None?
    ensures LoadFormAsWritten(r, DEFAULT_FORM) == LoadFormAsWritten(stored, DEFAULT_FORM)
  {
    LoadedReloads(LoadFormAsWritten(stored, DEFAULT_FORM));
    AutoSave(false, LoadFormAsWritten(stored, DEFAULT_FORM), stored)
  }

  /** A form whose defaulted fields are all truthy, as every loaded form's
      are, survives a save and a load of either kind. */
  lemma LoadedReloads(f: Form)
    requires AllTruthy(f)
    ensures LoadForm(Some(ToSettings(f)), DEFAULT_FORM) == f
    ensures f.notificationVolume != 0 ==> LoadFormAsWritten(Some(ToSettings(f)), DEFAULT_FORM) == f
  {
  }

  /** A valid form with a sound has all its defaulted fields truthy. */
  lemma ValidIsTruthy(f: Form)
    ensures Valid(f) && f.notificationSound != "" ==> AllTruthy(f)
  {
    if Valid(f) {
      assert InBounds(f, PomodoroLength) && InBounds(f, ShortBreakLength) && InBounds(f, LongBreakLength);
      assert InBounds(f, LongBreakInterval);
    }
  }

  /** The sound switch on the page decides whether `playSoundNotification`
      plays: sounds are muted exactly when the saved form turned them off,
      whatever sound and volume are asked for. Without a sound argument the
      parameter default `bell` plays, not the saved sound. */
  lemma SoundFollowsForm(f: Form, soundType: Option<string>, volume: Option<int>)
    ensures PlaySoundNotification(Some(ToSettings(f)), soundType, volume).Muted? <==> !f.enableSounds
    ensures f.enableSounds && soundType.None? ==>
      PlaySoundNotification(Some(ToSettings(f)), soundType, volume) == Play("bell", volume.GetOr(70))
  {
  }

  /** As written, merely opening the page overwrites a stored volume of `0`
      with `70`; with the corrected load the stored form is written back
      unchanged. */
  lemma OpeningThePageRewritesVolume(f: Form)
    requires Valid(f) && f.notificationSound != "" && f.notificationVolume == 0
    ensures MountAsWritten(Some(ToSettings(f))).value.notificationVolume == Some(70)
    ensures Mount(Some(ToSettings(f))) == Some(ToSettings(f))
  {
    SaveLoadRoundTrip(f, DEFAULT_FORM);
  }
}

=== FILE: storage.dfy ===
/** The stored `settings` record and the helpers of `utils/storage.js`:
    `getValue`/`setValue`, `initializeDefaultSettings`, `getTimerSettings`
    and the sound gate of `playSoundNotification`. */
module Storage {
  import opened Wrappers
  import opened Coerce
  import opened TimerTypes
  import opened SessionState

  /** `settings` as stored: every field may be missing. */
  datatype RawSettings = RawSettings(
    pomodoroMinutes: Option<int>,
    shortBreakMinutes: Option<int>,
    longBreakMinutes: Option<int>,
    notificationSound: Option<string>,
    notificationVolume: Option<int>,
    enableSounds: Option<bool>,
    autoStartBreaks: Option<bool>,
    autoStartPomodoros: Option<bool>,
    longBreakInterval: Option<int>,
    weeklyGoal: Option<int>)

  /** `{}`: what `result.settings || {}` yields when nothing is stored. */
  const NO_SETTINGS: RawSettings := RawSettings(None, None, None, None, None, None, None, None, None, None)

  /** The record `initializeDefaultSettings` writes. */
  const DEFAULT_SETTINGS: RawSettings :=
    RawSettings(Some(25), Some(5), Some(15), Some("bell"), Some(70), Some(true), Some(true), Some(false), Some(4), Some(35))

  function SettingsOrEmpty(stored: Option<RawSettings>): RawSettings {
    stored.GetOr(NO_SETTINGS)
  }

  // ---------------------------------------------------------------------
  // getValue / setValue
  // ---------------------------------------------------------------------

  /** `getValue(key, default)`: a stored value (even `null`) is returned as
      it is; only a missing key yields the default. */
  function GetValue<V>(store: map<string, V>, key: string, default: V): (v: V)
    ensures key in store ==> v == store[key]
    ensures key !in store ==> v == default
  {
    if key in store then store[key] else default
  }

  /** `setValue(key, value)`. */
  function SetValue<V>(store: map<string, V>, key: string, value: V): (r: map<string, V>)
    ensures key in r && r[key] == value
    ensures forall k :: k in store && k != key ==> k in r && r[k] == store[k]
    ensures r.Keys == store.Keys + {key}
  {
    store[key := value]
  }

  /** A value written with `setValue` is what `getValue` reads back, and
      other keys read as before. */
  lemma GetAfterSet<V>(store: map<string, V>, key: string, value: V, other: string, default: V)
    ensures GetValue(SetValue(store, key, value), key, default) == value
    ensures other != key ==> GetValue(SetValue(store, key, value), other, default) == GetValue(store, other, default)
  {
  }

  // ---------------------------------------------------------------------
  // initializeDefaultSettings
  // ---------------------------------------------------------------------

  datatype Initialized = Initialized(stored: Option<RawSettings>, settings: RawSettings)

  /** Defaults are written only when no settings are stored; existing
      settings are returned untouched. */
  function InitializeDefaultSettings(stored: Option<RawSettings>): (r: Initialized)
    ensures r.stored == Some(r.settings)
    ensures stored.Some? ==> r.stored == stored
    ensures stored.None? ==> r.settings == DEFAULT_SETTINGS
  {
    match stored
    case None => Initialized(Some(DEFAULT_SETTINGS), DEFAULT_SETTINGS)
    case Some(s) => Initialized(stored, s)
  }

  /** Initialising twice is initialising once. */
  lemma InitializeIdempotent(stored: Option<RawSettings>)
    ensures InitializeDefaultSettings(InitializeDefaultSettings(stored).stored) == InitializeDefaultSettings(stored)
  {
  }

  // ---------------------------------------------------------------------
  // Session lengths and getTimerSettings
  // ---------------------------------------------------------------------

  /** Length in minutes of a session of `timerType` under `settings`: the
      stored length when truthy, else 25/5/15; unknown types use the
      Pomodoro length. */
  function InitialDuration(timerType: string, settings: RawSettings): (m: int)
    ensures m != 0
    ensures timerType == SHORT_BREAK ==> m == OrNumber(settings.shortBreakMinutes, 5)
    ensures timerType == LONG_BREAK ==> m == OrNumber(settings.longBreakMinutes, 15)
    ensures timerType != SHORT_BREAK && timerType != LONG_BREAK ==> m == OrNumber(settings.pomodoroMinutes, 25)
    ensures settings == NO_SETTINGS ==> m == DefaultMinutes(timerType)
    ensures settings == DEFAULT_SETTINGS ==> m == DefaultMinutes(timerType)
  {
    if timerType == SHORT_BREAK then OrNumber(settings.shortBreakMinutes, 5)
    else if timerType == LONG_BREAK then OrNumber(settings.longBreakMinutes, 15)
    else OrNumber(settings.pomodoroMinutes, 25)
  }

  datatype TimerSettings = TimerSettings(
    pomodoro: int,
    shortBreak: int,
    longBreak: int,
    autoStartBreaks: bool,
    autoStartPomodoros: bool,
    longBreakInterval: int,
    currentState: Option<TimerState>)

  /** `getTimerSettings`: the stored values with falsy numbers replaced by
      25/5/15 and 4, auto-start of breaks on unless stored `false`, and
      auto-start of Pomodoros off unless stored `true`. */
  function GetTimerSettings(stored: Option<RawSettings>, timerState: Option<TimerState>): (r: TimerSettings)
    ensures r.pomodoro == InitialDuration(POMODORO, SettingsOrEmpty(stored))
    ensures r.shortBreak == InitialDuration(SHORT_BREAK, SettingsOrEmpty(stored))
    ensures r.longBreak == InitialDuration(LONG_BREAK, SettingsOrEmpty(stored))
    ensures r.longBreakInterval == OrNumber(SettingsOrEmpty(stored).longBreakInterval, 4)
    ensures r.longBreakInterval != 0 && r.currentState == timerState
    ensures !r.autoStartBreaks <==> SettingsOrEmpty(stored).autoStartBreaks == Some(false)
    ensures r.autoStartPomodoros <==> SettingsOrEmpty(stored).autoStartPomodoros == Some(true)
  {
    var s := SettingsOrEmpty(stored);
    TimerSettings(
      OrNumber(s.pomodoroMinutes, 25),
      OrNumber(s.shortBreakMinutes, 5),
      OrNumber(s.longBreakMinutes, 15),
      NotFalse(s.autoStartBreaks),
      OrFalse(s.autoStartPomodoros),
      OrNumber(s.longBreakInterval, 4),
      timerState)
  }

  /** With nothing stored, the timer settings are exactly the written defaults. */
  lemma TimerSettingsDefaultsAgree(timerState: Option<TimerState>)
    ensures GetTimerSettings(None, timerState) == GetTimerSettings(Some(DEFAULT_SETTINGS), timerState)
    ensures GetTimerSettings(None, timerState) == TimerSettings(25, 5, 15, true, false, 4, timerState)
  {
  }

  // ---------------------------------------------------------------------
  // playSoundNotification
  // ---------------------------------------------------------------------

  datatype Sound = Muted | Play(sound: string, volume: int)

  /** `playSoundNotification(soundType, volume)` up to the audio call. The
      parameter defaults (`'bell'`, `70`) apply to missing arguments, so the
      stored volume is never consulted. */
  function PlaySoundNotification(stored: Option<RawSettings>, soundType: Option<string>, volume: Option<int>): (r: Sound)
    ensures r.Muted? <==> SettingsOrEmpty(stored).enableSounds == Some(false)
    ensures r.Play? ==> r.volume == volume.GetOr(70) && r.sound != ""
    ensures r.Play? && soundType.Some? && soundType.value != "" ==> r.sound == soundType.value
  {
    var s := SettingsOrEmpty(stored);
    if s.enableSounds == Some(false) then Muted
    else Play(OrString(soundType.GetOr("bell"), OrOptString(s.notificationSound, "bell")), volume.GetOr(70))
  }
}

=== FILE: task_board.dfy ===
/** The task board (`Tasks`): four columns of tasks, the column operations,
    the move with its in-progress confirmation, and the per-task timer
    toggle that hands a session to the background worker. */
module TaskBoard {
  import opened Wrappers
  import opened Coerce
  import opened TimerTypes
  import opened SessionState
  import Seqs

  datatype Task = Task(id: int, title: string, description: string, priority: string, createdAt: string)

  datatype Column = InProgress | ToDo | Completed | Backlog

  datatype Board = Board(inProgress: seq<Task>, toDo: seq<Task>, completed: seq<Task>, backlog: seq<Task>)

  const EMPTY_BOARD := Board([], [], [], [])

  function Get(b: Board, c: Column): seq<Task> {
    match c
    case InProgress => b.inProgress
    case ToDo => b.toDo
    case Completed => b.completed
    case Backlog => b.backlog
  }

  /** `{...tasks, [c]: s}`: one column replaced, the others kept. */
  function Set(b: Board, c: Column, s: seq<Task>): (r: Board)
    ensures Get(r, c) == s
    ensures forall d :: d != c ==> Get(r, d) == Get(b, d)
  {
    match c
    case InProgress => b.(inProgress := s)
    case ToDo => b.(toDo := s)
    case Completed => b.(completed := s)
    case Backlog => b.(backlog := s)
  }

  /** Every task on the board, with multiplicity. */
  function AllTasks(b: Board): multiset<Task> {
    multiset(b.inProgress) + multiset(b.toDo) + multiset(b.completed) + multiset(b.backlog)
  }

  /** `filter(t => t.id !== id)`. */
  function Without(s: seq<Task>, id: int): (r: seq<Task>)
    ensures forall t | t in r :: t in s && t.id != id
    ensures forall t | t in s && t.id != id :: t in r
    ensures |r| <= |s|
  {
    if s == [] then []
    else (if s[0].id == id then [] else [s[0]]) + Without(s[1..], id)
  }

  /** `findIndex(t => t.id === id)`, with `-1` as `None`. */
  function NotId(id: int): Task -> bool {
    (t: Task) => t.id != id
  }

  /** `Without` is `Array.prototype.filter` with the id test. */
  lemma {:induction false} WithoutIsFilter(s: seq<Task>, id: int)
    ensures Without(s, id) == Seqs.Filter(s, NotId(id))
    decreases |s|
  {
    if s != [] {
      WithoutIsFilter(s[1..], id);
    }
  }

  /** So it keeps the other tasks in their order, each as often as it
      occurs, and drops every copy of the id. */
  lemma WithoutKeepsOrder(s: seq<Task>, id: int)
    ensures Seqs.IsSubsequence(Without(s, id), s)
    ensures forall t | t in s :: multiset(Without(s, id))[t] == if t.id != id then multiset(s)[t] else 0
  {
    WithoutIsFilter(s, id);
    Seqs.FilterSubsequence(s, NotId(id));
    forall t | t in s ensures multiset(Without(s, id))[t] == if t.id != id then multiset(s)[t] else 0 {
      Seqs.FilterMultiset(s, NotId(id), t);
    }
  }

  function FindIndex(s: seq<Task>, id: int): (r: Option<nat>)
    ensures r.Some? ==> r.value < |s| && s[r.value].id == id && forall j | 0 <= j < r.value :: s[j].id != id
    ensures r.None? <==> forall j | 0 <= j < |s| :: s[j].id != id
  {
    if s == [] then None
    else if s[0].id == id then Some(0)
    else match FindIndex(s[1..], id)
      case None => None
      case Some(k) => Some(k + 1)
  }

  predicate HasId(s: seq<Task>, id: int) {
    exists j | 0 <= j < |s| :: s[j].id == id
  }

  /** The id appears in the column exactly once, at `i`. */
  predicate UniqueAt(s: seq<Task>, id: int, i: nat) {
    i < |s| && s[i].id == id && forall j | 0 <= j < |s| && j != i :: s[j].id != id
  }

  // ---------------------------------------------------------------------
  // Column operations
  // ---------------------------------------------------------------------

  /** `getInitialDuration` of the board: the hard-coded table. */
  function BoardDuration(timerType: string): (m: nat)
    ensures m == DefaultMinutes(timerType)
  {
    if timerType == SHORT_BREAK then 5 else if timerType == LONG_BREAK then 15 else 25
  }

  /** `addTask(column)`: a fresh "New Task" with id `now` at the end of the
      column. */
  function AddTask(b: Board, c: Column, now: int, createdAt: string): (r: Board)
    ensures Get(r, c) == Get(b, c) + [Task(now, "New Task", "", "Medium", createdAt)]
    ensures forall d :: d != c ==> Get(r, d) == Get(b, d)
    ensures AllTasks(r) == AllTasks(b) + multiset{Task(now, "New Task", "", "Medium", createdAt)}
  {
    Set(b, c, Get(b, c) + [Task(now, "New Task", "", "Medium", createdAt)])
  }

  /** The edited fields of `updateTask`; a field left `None` is not in the
      update object and keeps its value. */
  datatype Patch = Patch(title: Option<string>, description: Option<string>, priority: Option<string>)

  function ApplyPatch(t: Task, p: Patch): (r: Task)
    ensures r.id == t.id && r.createdAt == t.createdAt
    ensures r.title == p.title.GetOr(t.title) && r.description == p.description.GetOr(t.description)
    ensures r.priority == p.priority.GetOr(t.priority)
  {
    Task(t.id, p.title.GetOr(t.title), p.description.GetOr(t.description), p.priority.GetOr(t.priority), t.createdAt)
  }

  function MapPatch(s: seq<Task>, id: int, p: Patch): (r: seq<Task>)
    ensures |r| == |s|
    ensures forall j | 0 <= j < |s| :: r[j] == if s[j].id == id then ApplyPatch(s[j], p) else s[j]
  {
    if s == [] then [] else [if s[0].id == id then ApplyPatch(s[0], p) else s[0]] + MapPatch(s[1..], id, p)
  }

  /** `updateTask(id, column, updates)`: only tasks with that id in that
      column are merged with the update. */
  function UpdateTask(b: Board, id: int, c: Column, p: Patch): (r: Board)
    ensures |Get(r, c)| == |Get(b, c)|
    ensures forall j | 0 <= j < |Get(b, c)| ::
      Get(r, c)[j] == if Get(b, c)[j].id == id then ApplyPatch(Get(b, c)[j], p) else Get(b, c)[j]
    ensures forall d :: d != c ==> Get(r, d) == Get(b, d)
  {
    Set(b, c, MapPatch(Get(b, c), id, p))
  }

  /** The ids of a column, in order. */
  function Ids(s: seq<Task>): (r: seq<int>)
    ensures |r| == |s| && forall j | 0 <= j < |s| :: r[j] == s[j].id
  {
    seq(|s|, j requires 0 <= j < |s| => s[j].id)
  }

  /** An edit never adds, removes or moves a task: every column keeps its
      ids in order, so the board's id multiset is unchanged. Applying the
      same edit again changes nothing more. */
  lemma UpdateKeepsIds(b: Board, id: int, c: Column, p: Patch)
    ensures forall d :: Ids(Get(UpdateTask(b, id, c, p), d)) == Ids(Get(b, d))
    ensures UpdateTask(UpdateTask(b, id, c, p), id, c, p) == UpdateTask(b, id, c, p)
  {
    var r := UpdateTask(b, id, c, p);
    assert Ids(Get(r, c)) == Ids(Get(b, c));
    var r2 := UpdateTask(r, id, c, p);
    assert Get(r2, c) == Get(r, c);
    assert forall d :: Get(r2, d) == Get(r, d);
  }

  /** The page's own state: the board and the task the timer belongs to. */
  datatype Page = Page(board: Board, activeTimer: Option<int>)

  /** `deleteTask(id, column)`. */
  function DeleteTask(pg: Page, id: int, c: Column): (r: Page)
    ensures !HasId(Get(r.board, c), id)
    ensures forall t | t in Get(pg.board, c) && t.id != id :: t in Get(r.board, c)
    ensures forall t | t in Get(r.board, c) :: t in Get(pg.board, c)
    ensures forall t | t in Get(pg.board, c) :: multiset(Get(r.board, c))[t] == if t.id != id then multiset(Get(pg.board, c))[t] else 0
    ensures Seqs.IsSubsequence(Get(r.board, c), Get(pg.board, c))
    ensures forall d :: d != c ==> Get(r.board, d) == Get(pg.board, d)
    ensures r.activeTimer == if pg.activeTimer == Some(id) then None else pg.activeTimer
  {
    WithoutKeepsOrder(Get(pg.board, c), id);
    Page(Set(pg.board, c, Without(Get(pg.board, c), id)),
         if pg.activeTimer == Some(id) then None else pg.activeTimer)
  }

  /** `clearColumn(column)` with the answer to its confirmation. */
  function ClearColumn(pg: Page, c: Column, confirmed: bool): (r: Page)
    ensures !confirmed ==> r == pg
    ensures confirmed ==> Get(r.board, c) == [] && forall d :: d != c ==> Get(r.board, d) == Get(pg.board, d)
    ensures confirmed ==> (r.activeTimer.None? <==> pg.activeTimer.None? || (TruthyNumber(pg.activeTimer) && HasId(Get(pg.board, c), pg.activeTimer.value)))
    ensures r.activeTimer.Some? ==> r.activeTimer == pg.activeTimer
  {
    if !confirmed then pg
    else
      var stop := TruthyNumber(pg.activeTimer) && HasId(Get(pg.board, c), pg.activeTimer.value);
      Page(Set(pg.board, c, []), if stop then None else pg.activeTimer)
  }

  // ---------------------------------------------------------------------
  // Moving tasks
  // ---------------------------------------------------------------------

  /** `moveTask` exactly as the object literal is written: the computed key
      `[fromColumn]` comes last and overrides the `toDo` built just before
      it when the task leaves `toDo`. */
  function MoveTaskAsWritten(b: Board, id: int, from: Column, to: Column, confirmed: bool): (r: Board)
    ensures FindIndex(Get(b, from), id).None? ==> r == b
  {
    match FindIndex(Get(b, from), id)
    case None => b
    case Some(i) =>
      var task := Get(b, from)[i];
      if to == InProgress && |b.inProgress| > 0 then
        if !confirmed then b
        else Set(Set(Set(b, InProgress, [task]), ToDo, b.toDo + b.inProgress), from, Without(Get(b, from), id))
      else
        Set(Set(b, from, Without(Get(b, from), id)), to, Get(b, to) + [task])
  }

  /** The move with the displaced in-progress tasks kept: when the task
      leaves `toDo`, they go after the remaining to-do tasks. */
  function MoveTask(b: Board, id: int, from: Column, to: Column, confirmed: bool): (r: Board)
    ensures FindIndex(Get(b, from), id).None? ==> r == b
    ensures to == InProgress && |b.inProgress| > 0 && !confirmed ==> r == b
    ensures FindIndex(Get(b, from), id).Some? && from != to && (to != InProgress || |b.inProgress| == 0) ==>
      && Get(r, from) == Without(Get(b, from), id)
      && Get(r, to) == Get(b, to) + [Get(b, from)[FindIndex(Get(b, from), id).value]]
      && forall d :: d != from && d != to ==> Get(r, d) == Get(b, d)
    ensures FindIndex(Get(b, from), id).Some? && from != to && to == InProgress && |b.inProgress| > 0 && confirmed ==>
      && r.inProgress == [Get(b, from)[FindIndex(Get(b, from), id).value]]
      && r.toDo == (if from == ToDo then Without(b.toDo, id) else b.toDo) + b.inProgress
      && Get(r, from) == (if from == ToDo then Without(b.toDo, id) + b.inProgress else Without(Get(b, from), id))
      && forall d :: d != InProgress && d != ToDo && d != from ==> Get(r, d) == Get(b, d)
  {
    match FindIndex(Get(b, from), id)
    case None => b
    case Some(i) =>
      var task := Get(b, from)[i];
      if to == InProgress && |b.inProgress| > 0 then
        if !confirmed then b
        else if from == ToDo then b.(inProgress := [task], toDo := Without(b.toDo, id) + b.inProgress)
        else Set(Set(Set(b, InProgress, [task]), ToDo, b.toDo + b.inProgress), from, Without(Get(b, from), id))
      else
        Set(Set(b, from, Without(Get(b, from), id)), to, Get(b, to) + [task])
  }

  /** Removing the only task with a given id takes exactly that task out. */
  lemma {:induction false} WithoutUnique(s: seq<Task>, id: int, i: nat)
    requires UniqueAt(s, id, i)
    ensures multiset(Without(s, id)) + multiset{s[i]} == multiset(s)
  {
    var t := s[1..];
    ConsMultiset(s);
    if i == 0 {
      WithoutHead(s, id);
    } else {
      TailUnique(s, id, i);
      WithoutUnique(t, id, i - 1);
      var w := Without(t, id);
      assert Without(s, id) == [s[0]] + w;
      assert multiset([s[0]] + w) == multiset{s[0]} + multiset(w);
    }
  }

  lemma ConsMultiset(s: seq<Task>)
    requires |s| > 0
    ensures multiset(s) == multiset{s[0]} + multiset(s[1..])
  {
    assert s == [s[0]] + s[1..];
  }

  /** Removing an id found only at the head leaves the tail. */
  lemma WithoutHead(s: seq<Task>, id: int)
    requires UniqueAt(s, id, 0)
    ensures Without(s, id) == s[1..]
  {
    var t := s[1..];
    forall j | 0 <= j < |t| ensures t[j].id != id { assert t[j] == s[j + 1]; }
    WithoutNone(t, id);
  }

  /** An id unique at `i > 0` is unique in the tail at `i - 1`. */
  lemma TailUnique(s: seq<Task>, id: int, i: nat)
    requires UniqueAt(s, id, i) && i > 0
    ensures UniqueAt(s[1..], id, i - 1) && s[1..][i - 1] == s[i] && s[0].id != id
  {
    var t := s[1..];
    forall j | 0 <= j < |t| && j != i - 1 ensures t[j].id != id { assert t[j] == s[j + 1]; }
  }

  lemma {:induction false} WithoutNone(s: seq<Task>, id: int)
    requires forall j | 0 <= j < |s| :: s[j].id != id
    ensures Without(s, id) == s
  {
    if s != [] {
      WithoutNone(s[1..], id);
      assert s == [s[0]] + s[1..];
    }
  }

  /** Moving a task whose id is unique in its column between two different
      columns conserves the board's tasks. */
  lemma MoveConserves(b: Board, id: int, from: Column, to: Column, confirmed: bool, i: nat)
    requires from != to && UniqueAt(Get(b, from), id, i)
    ensures AllTasks(MoveTask(b, id, from, to, confirmed)) == AllTasks(b)
  {
    var src := Get(b, from);
    var task, w := src[i], Without(src, id);
    WithoutUnique(src, id, i);
    MoveTaskFound(b, id, from, to, confirmed, i);
    if to == InProgress && |b.inProgress| > 0 {
      if confirmed && from == ToDo {
        ToDoDisplaceConserves(b, task, w);
      } else if confirmed {
        DisplaceConserves(b, from, task, w);
      }
    } else {
      OrdinaryMoveConserves(b, from, to, task, w);
    }
  }

  /** The board `MoveTask` builds for a task found at `i`, case by case. */
  lemma MoveTaskFound(b: Board, id: int, from: Column, to: Column, confirmed: bool, i: nat)
    requires UniqueAt(Get(b, from), id, i)
    ensures var r, task, w := MoveTask(b, id, from, to, confirmed), Get(b, from)[i], Without(Get(b, from), id);
      && (to == InProgress && |b.inProgress| > 0 && confirmed && from == ToDo ==>
            r == b.(inProgress := [task], toDo := w + b.inProgress))
      && (to == InProgress && |b.inProgress| > 0 && confirmed && from != ToDo ==>
            r == Set(Set(Set(b, InProgress, [task]), ToDo, b.toDo + b.inProgress), from, w))
      && (to == InProgress && |b.inProgress| > 0 && !confirmed ==> r == b)
      && (!(to == InProgress && |b.inProgress| > 0) ==> r == Set(Set(b, from, w), to, Get(b, to) + [task]))
  {
    assert FindIndex(Get(b, from), id) == Some(i);
  }

  /** Replacing one column swaps that column's tasks in the board's multiset. */
  lemma AllTasksSet(b: Board, c: Column, s: seq<Task>)
    ensures AllTasks(Set(b, c, s)) + multiset(Get(b, c)) == AllTasks(b) + multiset(s)
  {
  }

  /** Taking a task out of one column and appending it to another keeps the board's tasks. */
  lemma OrdinaryMoveConserves(b: Board, from: Column, to: Column, task: Task, rest: seq<Task>)
    requires from != to && multiset(rest) + multiset{task} == multiset(Get(b, from))
    ensures AllTasks(Set(Set(b, from, rest), to, Get(b, to) + [task])) == AllTasks(b)
  {
    var b1 := Set(b, from, rest);
    AllTasksSet(b, from, rest);
    AllTasksSet(b1, to, Get(b, to) + [task]);
    assert Get(b1, to) == Get(b, to);
  }

  /** The confirmed move into a busy `inProgress` from a column other than
      `toDo`: the displaced tasks join `toDo`, so nothing is lost. */
  lemma DisplaceConserves(b: Board, from: Column, task: Task, rest: seq<Task>)
    requires from != ToDo && from != InProgress && multiset(rest) + multiset{task} == multiset(Get(b, from))
    ensures AllTasks(Set(Set(Set(b, InProgress, [task]), ToDo, b.toDo + b.inProgress), from, rest)) == AllTasks(b)
  {
    var b1 := Set(b, InProgress, [task]);
    var b2 := Set(b1, ToDo, b.toDo + b.inProgress);
    AllTasksSet(b, InProgress, [task]);
    AllTasksSet(b1, ToDo, b.toDo + b.inProgress);
    AllTasksSet(b2, from, rest);
    assert Get(b1, ToDo) == b.toDo;
    assert Get(b2, from) == Get(b, from);
  }

  /** The confirmed move out of `toDo` into a busy `inProgress`: the
      displaced tasks go after the remaining to-do tasks. */
  lemma ToDoDisplaceConserves(b: Board, task: Task, rest: seq<Task>)
    requires multiset(rest) + multiset{task} == multiset(b.toDo)
    ensures AllTasks(b.(inProgress := [task], toDo := rest + b.inProgress)) == AllTasks(b)
  {
    assert multiset(rest + b.inProgress) == multiset(rest) + multiset(b.inProgress);
  }

  /** The two definitions differ only when a task leaves `toDo` for a
      non-empty `inProgress` with the move confirmed. */
  lemma MoveAgreesOutsideLoss(b: Board, id: int, from: Column, to: Column, confirmed: bool)
    requires !(from == ToDo && to == InProgress && |b.inProgress| > 0 && confirmed)
    ensures MoveTaskAsWritten(b, id, from, to, confirmed) == MoveTask(b, id, from, to, confirmed)
  {
  }

  /** As written, moving the only `toDo` task with that id into a non-empty
      `inProgress` loses every task that was in progress. */
  lemma MoveFromToDoLosesInProgress(b: Board, id: int, i: nat)
    requires UniqueAt(b.toDo, id, i) && |b.inProgress| > 0
    ensures AllTasks(MoveTaskAsWritten(b, id, ToDo, InProgress, true)) + multiset(b.inProgress) == AllTasks(b)
    ensures MoveTaskAsWritten(b, id, ToDo, InProgress, true).toDo == Without(b.toDo, id)
  {
    assert FindIndex(b.toDo, id) == Some(i);
    var task := b.toDo[i];
    var w := Without(b.toDo, id);
    WithoutUnique(b.toDo, id, i);
    assert MoveTaskAsWritten(b, id, ToDo, InProgress, true) == b.(inProgress := [task], toDo := w);
  }

  /** A concrete instance: task 2 dragged from `toDo` onto an `inProgress`
      holding task 1 leaves task 1 nowhere on the board. */
  lemma MoveLossExample()
    ensures var t1 := Task(1, "a", "", "Medium", "");
      var t2 := Task(2, "b", "", "Medium", "");
      var b := Board([t1], [t2], [], []);
      && MoveTaskAsWritten(b, 2, ToDo, InProgress, true) == Board([t2], [], [], [])
      && MoveTask(b, 2, ToDo, InProgress, true) == Board([t2], [t1], [], [])
  {
  }

  /** The confirmed drop of a `toDo` task onto a busy `inProgress`: the
      case where the literal in `moveTask` loses the in-progress tasks. */
  predicate LosesDisplaced(b: Board, from: Column, to: Column, confirmed: bool) {
    from == ToDo && to == InProgress && |b.inProgress| > 0 && confirmed
  }

  /** `handleDrop`: a move happens only between different columns, and
      only for a task found in the source column; a declined displacement
      leaves the board alone. The move is `moveTask` as written, so a task
      whose id is unique in its column is never duplicated, and the only
      tasks lost are the displaced in-progress ones when the task leaves
      `toDo`. */
  function Drop(b: Board, id: int, from: Column, to: Column, confirmed: bool): (r: Board)
    ensures from == to ==> r == b
    ensures !HasId(Get(b, from), id) ==> r == b
    ensures to == InProgress && |b.inProgress| > 0 && !confirmed ==> r == b
    ensures from != to && HasId(Get(b, from), id) && (to != InProgress || |b.inProgress| == 0 || confirmed) ==>
      HasId(Get(r, to), id) && !HasId(Get(r, from), id)
    ensures (exists i :: UniqueAt(Get(b, from), id, i)) && !LosesDisplaced(b, from, to, confirmed) ==>
      AllTasks(r) == AllTasks(b)
    ensures (exists i :: UniqueAt(Get(b, from), id, i)) && LosesDisplaced(b, from, to, confirmed) ==>
      AllTasks(r) + multiset(b.inProgress) == AllTasks(b) && r.toDo == Without(b.toDo, id)
  {
    if from != to then
      DropFacts(b, id, from, to, confirmed);
      MoveTaskAsWritten(b, id, from, to, confirmed)
    else b
  }

  /** The facts `Drop` promises about a move between two columns. */
  lemma DropFacts(b: Board, id: int, from: Column, to: Column, confirmed: bool)
    requires from != to
    ensures var r := MoveTaskAsWritten(b, id, from, to, confirmed);
      && (!HasId(Get(b, from), id) ==> r == b)
      && (HasId(Get(b, from), id) && (to != InProgress || |b.inProgress| == 0 || confirmed) ==>
            HasId(Get(r, to), id) && !HasId(Get(r, from), id))
      && ((exists i :: UniqueAt(Get(b, from), id, i)) && !LosesDisplaced(b, from, to, confirmed) ==>
            AllTasks(r) == AllTasks(b))
      && ((exists i :: UniqueAt(Get(b, from), id, i)) && LosesDisplaced(b, from, to, confirmed) ==>
            AllTasks(r) + multiset(b.inProgress) == AllTasks(b) && r.toDo == Without(b.toDo, id))
  {
    var r := MoveTaskAsWritten(b, id, from, to, confirmed);
    if HasId(Get(b, from), id) && (to != InProgress || |b.inProgress| == 0 || confirmed) {
      var k := FindIndex(Get(b, from), id).value;
      var task := Get(b, from)[k];
      var w := Without(Get(b, from), id);
      assert !HasId(w, id) by {
        forall j | 0 <= j < |w| ensures w[j].id != id { assert w[j] in w; }
      }
      if to == InProgress && |b.inProgress| > 0 {
        assert r.inProgress == [task];
        assert Get(r, to)[0] == task;
        assert Get(r, from) == w;
      } else {
        assert Get(r, to) == Get(b, to) + [task];
        assert Get(r, to)[|Get(b, to)|] == task;
        assert Get(r, from) == w;
      }
    }
    if exists i :: UniqueAt(Get(b, from), id, i) {
      var i :| UniqueAt(Get(b, from), id, i);
      if LosesDisplaced(b, from, to, confirmed) {
        MoveFromToDoLosesInProgress(b, id, i);
      } else {
        MoveAgreesOutsideLoss(b, id, from, to, confirmed);
        MoveConserves(b, id, from, to, confirmed, i);
      }
    }
  }

  /** `handleDrop` built on the corrected move: the displaced in-progress
      tasks go back to `toDo`, so a task whose id is unique in its column
      is moved and nothing on the board is lost. */
  function DropCorrected(b: Board, id: int, from: Column, to: Column, confirmed: bool): (r: Board)
    ensures !LosesDisplaced(b, from, to, confirmed) ==> r == Drop(b, id, from, to, confirmed)
    ensures LosesDisplaced(b, from, to, confirmed) && HasId(b.toDo, id) ==>
      HasId(r.inProgress, id) && r.toDo == Without(b.toDo, id) + b.inProgress
    ensures (exists i :: UniqueAt(Get(b, from), id, i)) ==> AllTasks(r) == AllTasks(b)
  {
    if from != to then
      DropCorrectedFacts(b, id, from, to, confirmed);
      MoveTask(b, id, from, to, confirmed)
    else b
  }

  /** The facts `DropCorrected` promises about a move between two columns. */
  lemma DropCorrectedFacts(b: Board, id: int, from: Column, to: Column, confirmed: bool)
    requires from != to
    ensures var r := MoveTask(b, id, from, to, confirmed);
      && (!LosesDisplaced(b, from, to, confirmed) ==> r == MoveTaskAsWritten(b, id, from, to, confirmed))
      && (LosesDisplaced(b, from, to, confirmed) && HasId(b.toDo, id) ==>
            HasId(r.inProgress, id) && r.toDo == Without(b.toDo, id) + b.inProgress)
      && ((exists i :: UniqueAt(Get(b, from), id, i)) ==> AllTasks(r) == AllTasks(b))
  {
    var r := MoveTask(b, id, from, to, confirmed);
    if !LosesDisplaced(b, from, to, confirmed) {
      MoveAgreesOutsideLoss(b, id, from, to, confirmed);
    }
    if LosesDisplaced(b, from, to, confirmed) && HasId(b.toDo, id) {
      var k := FindIndex(b.toDo, id).value;
      assert r.inProgress == [b.toDo[k]];
      assert r.inProgress[0].id == id;
    }
    if exists i :: UniqueAt(Get(b, from), id, i) {
      var i :| UniqueAt(Get(b, from), id, i);
      MoveConserves(b, id, from, to, confirmed, i);
    }
  }

  /** The drag of the loss example through `handleDrop`: as written task 1
      disappears, corrected it goes back to `toDo`. */
  lemma DropLossExample()
    ensures var t1 := Task(1, "a", "", "Medium", "");
      var t2 := Task(2, "b", "", "Medium", "");
      var b := Board([t1], [t2], [], []);
      && Drop(b, 2, ToDo, InProgress, true) == Board([t2], [], [], [])
      && DropCorrected(b, 2, ToDo, InProgress, true) == Board([t2], [t1], [], [])
  {
    MoveLossExample();
  }

  /** The tasks effect persists the board only when some column is
      non-empty, so emptying the last column leaves the stored board as it
      was. */
  function Persist(stored: Option<Board>, b: Board): (r: Option<Board>)
    ensures r == stored || r == Some(b)
    ensures r == Some(b) <==> (b != EMPTY_BOARD || stored == Some(b))
  {
    if |b.inProgress| > 0 || |b.toDo| > 0 || |b.completed| > 0 || |b.backlog| > 0 then Some(b) else stored
  }

  lemma ClearingLastColumnIsNotPersisted(pg: Page, c: Column)
    requires |Get(pg.board, c)| > 0 && forall d :: d != c ==> Get(pg.board, d) == []
    ensures Persist(Some(pg.board), ClearColumn(pg, c, true).board) == Some(pg.board)
  {
    var r := ClearColumn(pg, c, true).board;
    assert Get(r, InProgress) == [] && Get(r, ToDo) == [] && Get(r, Completed) == [] && Get(r, Backlog) == [];
  }

  // ---------------------------------------------------------------------
  // The per-task timer toggle
  // ---------------------------------------------------------------------

  /** The board's copy of the stored session, read with `||` defaults. */
  datatype TaskTimer = TaskTimer(minutes: int, seconds: int, isActive: bool, timerType: string)

  /** `setTimerSettings` from a stored session. */
  function ReadTimer(stored: Option<TimerState>, current: TaskTimer): (r: TaskTimer)
    ensures stored.None? ==> r == current
    ensures stored.Some? ==> r.isActive == stored.value.savedIsActive && r.timerType == TypeOrPomodoro(stored.value.savedType)
    ensures stored.Some? ==> r.minutes == (if stored.value.savedMinutes != 0 then stored.value.savedMinutes else 25)
    ensures stored.Some? ==> r.seconds == stored.value.savedSeconds
  {
    match stored
    case None => current
    case Some(ts) => TaskTimer(OrNumber(Some(ts.savedMinutes), 25), OrNumber(Some(ts.savedSeconds), 0), ts.savedIsActive, OrString(ts.savedType, POMODORO))
  }

  const INITIAL_TASK_TIMER := TaskTimer(25, 0, false, POMODORO)

  /** The board's storage listener reading back what the toggle stored:
      the running flag is the toggle's, the type is the toggle's whenever
      it was set, a start reads the full length of its type, and a pause
      reads the clock that was showing. */
  lemma ToggleReadsBack(pg: Page, timer: TaskTimer, taskId: int, now: int, confirmed: bool, current: TaskTimer)
    ensures var t := TogglePomodoroForTask(pg, timer, taskId, now, confirmed);
      var r := ReadTimer(Some(t.timerState), current);
      var running := pg.activeTimer == Some(taskId) && timer.isActive;
      && r.isActive == t.timer.isActive
      && (timer.timerType != "" ==> r.timerType == t.timer.timerType)
      && (timer.timerType == "" ==> r.timerType == POMODORO)
      && (!running ==> r.minutes == DefaultMinutes(r.timerType) && r.seconds == 0)
      && (running ==> r.minutes == (if timer.minutes != 0 then timer.minutes else 25) && r.seconds == timer.seconds)
  {
  }


  /** What `togglePomodoroForTask` writes and sends. */
  datatype Toggle = Toggle(page: Page, timer: TaskTimer, timerState: TimerState, message: Message)

  /** The column `Object.keys(tasks).find(...)` picks: the first, in board
      order, holding the id. */
  function ColumnOf(b: Board, id: int): (r: Option<Column>)
    ensures r.Some? ==> HasId(Get(b, r.value), id)
    ensures r.None? <==> forall c :: !HasId(Get(b, c), id)
    ensures r.Some? && r.value != InProgress ==> !HasId(b.inProgress, id)
    ensures r.Some? && r.value != InProgress && r.value != ToDo ==> !HasId(b.toDo, id)
    ensures r == Some(Backlog) ==> !HasId(b.completed, id)
  {
    if HasId(b.inProgress, id) then Some(InProgress)
    else if HasId(b.toDo, id) then Some(ToDo)
    else if HasId(b.completed, id) then Some(Completed)
    else if HasId(b.backlog, id) then Some(Backlog)
    else None
  }

  /** `togglePomodoroForTask(taskId)`; `confirmed` answers the move's
      confirmation when `inProgress` is occupied. */
  function TogglePomodoroForTask(pg: Page, timer: TaskTimer, taskId: int, now: int, confirmed: bool): (r: Toggle)
    ensures r.page.activeTimer == Some(taskId) && r.timerState.taskId == Some(taskId)
    ensures var running := pg.activeTimer == Some(taskId) && timer.isActive;
      && r.timer == timer.(isActive := !running)
      && r.timerState.savedIsActive == !running && r.timerState.endTime.None?
      && r.timerState.savedType == OrString(timer.timerType, POMODORO)
      && (running ==> r.timerState.savedMinutes == timer.minutes && r.timerState.savedSeconds == timer.seconds
                      && r.timerState.pausedAt == Some(now) && r.page.board == pg.board && r.message == PausePomodoro)
      && (!running ==> r.timerState.savedMinutes == DefaultMinutes(r.timerState.savedType) && r.timerState.savedSeconds == 0
                       && r.timerState.pausedAt.None? && r.message == StartPomodoro(Some(taskId), ""))
  {
    var running := pg.activeTimer == Some(taskId) && timer.isActive;
    var timerType := OrString(timer.timerType, POMODORO);
    var ts := TimerState(timerType,
                         if running then timer.minutes else BoardDuration(timerType),
                         if running then timer.seconds else 0,
                         !running, None, if running then Some(now) else None, Some(taskId));
    var board :=
      if running then pg.board
      else match ColumnOf(pg.board, taskId)
        case Some(c) => if c != InProgress then MoveTaskAsWritten(pg.board, taskId, c, InProgress, confirmed) else pg.board
        case None => pg.board;
    Toggle(Page(board, Some(taskId)), timer.(isActive := !running), ts,
           if running then PausePomodoro else StartPomodoro(Some(taskId), ""))
  }

  /** Starting the timer of a task that is alone with its id on the board
      puts it in progress, unless the user declines to displace the current
      in-progress tasks. */
  lemma ToggleStartMovesTaskInProgress(pg: Page, timer: TaskTimer, taskId: int, now: int, confirmed: bool)
    requires !(pg.activeTimer == Some(taskId) && timer.isActive)
    requires exists c :: HasId(Get(pg.board, c), taskId)
    requires |pg.board.inProgress| == 0 || confirmed || HasId(pg.board.inProgress, taskId)
    ensures HasId(TogglePomodoroForTask(pg, timer, taskId, now, confirmed).page.board.inProgress, taskId)
  {
    var b := pg.board;
    var c := ColumnOf(b, taskId).value;
    if c != InProgress {
      var i := FindIndex(Get(b, c), taskId).value;
      var r := MoveTaskAsWritten(b, taskId, c, InProgress, confirmed);
      if |b.inProgress| > 0 {
        assert r.inProgress == [Get(b, c)[i]];
      } else {
        assert r.inProgress == b.inProgress + [Get(b, c)[i]];
      }
      assert r.inProgress[|r.inProgress| - 1].id == taskId;
    }
  }
}

=== FILE: text.dfy ===
/** String helpers with the JavaScript behaviour the extension depends on:
    number-to-string conversion, `parseInt(s, 10)`, substring search,
    `replace` of the first occurrence, `trim` and ASCII lower-casing. */
module Text {
  import opened Wrappers

  predicate IsDigit(c: char) {
    '0' <= c <= '9'
  }

  predicate AllDigits(s: string) {
    forall i :: 0 <= i < |s| ==> IsDigit(s[i])
  }

  function DigitChar(d: nat): (c: char)
    requires d < 10
    ensures IsDigit(c)
  {
    "0123456789"[d]
  }

  function DigitValue(c: char): nat
    requires IsDigit(c)
  {
    c as int - '0' as int
  }

  /** Decimal text of a natural number, most significant digit first. */
  function NatToString(n: nat): (s: string)
    ensures |s| >= 1 && AllDigits(s)
    ensures n < 10 <==> |s| == 1
    decreases n
  {
    if n < 10 then [DigitChar(n)] else NatToString(n / 10) + [DigitChar(n % 10)]
  }

  /** `String(i)` / a template literal of an integer. */
  function IntToString(i: int): string {
    if i < 0 then "-" + NatToString(-i) else NatToString(i)
  }

  /** The value of a string of decimal digits. */
  function DigitsValue(s: string): nat
    requires AllDigits(s)
  {
    if |s| == 0 then 0 else DigitsValue(s[..|s| - 1]) * 10 + DigitValue(s[|s| - 1])
  }

  /** Reading back the decimal text of `n` gives `n`. */
  lemma {:induction false} NatToStringValue(n: nat)
    ensures DigitsValue(NatToString(n)) == n
    decreases n
  {
    if n >= 10 {
      var s := NatToString(n);
      assert s[..|s| - 1] == NatToString(n / 10);
      NatToStringValue(n / 10);
      assert DigitValue(DigitChar(n % 10)) == n % 10;
    } else {
      assert DigitValue(DigitChar(n)) == n;
    }
  }

  /** Distinct numbers have distinct decimal texts. */
  lemma NatToStringInjective(a: nat, b: nat)
    requires NatToString(a) == NatToString(b)
    ensures a == b
  {
    NatToStringValue(a);
    NatToStringValue(b);
  }

  /** A leading zero does not change the value of a digit string. */
  lemma {:induction false} LeadingZeroValue(s: string)
    requires AllDigits(s)
    ensures AllDigits("0" + s) && DigitsValue("0" + s) == DigitsValue(s)
    decreases |s|
  {
    var z := "0" + s;
    assert AllDigits(z) by {
      forall i | 0 <= i < |z| ensures IsDigit(z[i]) {
        if i > 0 { assert z[i] == s[i - 1]; }
      }
    }
    if |s| > 0 {
      assert z[..|z| - 1] == "0" + s[..|s| - 1];
      LeadingZeroValue(s[..|s| - 1]);
    }
  }

  // ---------------------------------------------------------------------
  // Whitespace and trimming (String.prototype.trim)
  // ---------------------------------------------------------------------

  /** The characters JavaScript's `trim` and `parseInt` treat as white space
      or line terminators. */
  predicate IsSpace(c: char) {
    var k := c as int;
    k == 0x09 || k == 0x0A || k == 0x0B || k == 0x0C || k == 0x0D || k == 0x20
    || k == 0xA0 || k == 0x1680 || (0x2000 <= k <= 0x200A) || k == 0x2028
    || k == 0x2029 || k == 0x202F || k == 0x205F || k == 0x3000 || k == 0xFEFF
  }

  /** Drops the leading white space: everything removed is white space
      and what is left does not start with any. */
  function TrimStart(s: string): (r: string)
    ensures |r| <= |s| && r == s[|s| - |r|..]
    ensures |r| > 0 ==> !IsSpace(r[0])
    ensures forall j | 0 <= j < |s| - |r| :: IsSpace(s[j])
    ensures |s| > 0 && !IsSpace(s[0]) ==> r == s
  {
    if |s| > 0 && IsSpace(s[0]) then
      var r := TrimStart(s[1..]);
      assert forall j | 1 <= j < |s| - |r| :: IsSpace(s[j]) by {
        forall j | 1 <= j < |s| - |r| ensures IsSpace(s[j]) { assert s[j] == s[1..][j - 1]; }
      }
      r
    else s
  }

  /** Drops the trailing white space, symmetrically. */
  function TrimEnd(s: string): (r: string)
    ensures |r| <= |s| && r == s[..|r|]
    ensures |r| > 0 ==> !IsSpace(r[|r| - 1])
    ensures forall j | |r| <= j < |s| :: IsSpace(s[j])
    ensures |s| > 0 && !IsSpace(s[|s| - 1]) ==> r == s
  {
    if |s| > 0 && IsSpace(s[|s| - 1]) then
      var r := TrimEnd(s[..|s| - 1]);
      assert forall j | |r| <= j < |s| - 1 :: IsSpace(s[j]) by {
        forall j | |r| <= j < |s| - 1 ensures IsSpace(s[j]) { assert s[j] == s[..|s| - 1][j]; }
      }
      r
    else s
  }

  /** `s.trim()`: the result is the piece of `s` left after removing white
      space on both sides; it has neither a leading nor a trailing
      white-space character. */
  function Trim(s: string): (r: string)
    ensures exists i :: && OccursAt(s, r, i)
                        && (forall j | 0 <= j < i :: IsSpace(s[j]))
                        && (forall j | i + |r| <= j < |s| :: IsSpace(s[j]))
    ensures |r| > 0 ==> !IsSpace(r[0]) && !IsSpace(r[|r| - 1])
  {
    var t := TrimStart(s);
    var r := TrimEnd(t);
    TrimPiece(s, t, r);
    r
  }

  /** Where the trimmed text sits in `s`: after the leading white space
      `t` was cut from, and before the trailing white space `r` was cut
      from. */
  lemma TrimPiece(s: string, t: string, r: string)
    requires |t| <= |s| && t == s[|s| - |t|..] && (forall j | 0 <= j < |s| - |t| :: IsSpace(s[j]))
    requires |r| <= |t| && r == t[..|r|] && (forall j | |r| <= j < |t| :: IsSpace(t[j]))
    ensures var i := |s| - |t|;
      && OccursAt(s, r, i)
      && (forall j | 0 <= j < i :: IsSpace(s[j]))
      && (forall j | i + |r| <= j < |s| :: IsSpace(s[j]))
    ensures |r| > 0 ==> r[0] == t[0]
  {
    var i := |s| - |t|;
    PrefixOfSuffix(s, i, t, r);
    SuffixSpaces(s, i, t, |r|);
  }

  /** A prefix of the suffix from `i` occurs at `i`. */
  lemma PrefixOfSuffix(s: string, i: nat, t: string, r: string)
    requires i <= |s| && t == s[i..] && |r| <= |t| && r == t[..|r|]
    ensures OccursAt(s, r, i)
  {
  }

  /** White space at the end of a suffix is white space of the whole. */
  lemma SuffixSpaces(s: string, i: nat, t: string, k: nat)
    requires i <= |s| && t == s[i..] && k <= |t|
    requires forall j | k <= j < |t| :: IsSpace(t[j])
    ensures forall j | i + k <= j < |s| :: IsSpace(s[j])
  {
    forall j | i + k <= j < |s| ensures IsSpace(s[j]) {
      assert s[j] == t[j - i];
    }
  }

  /** Trimming twice is trimming once. */
  lemma TrimIdempotent(s: string)
    ensures Trim(Trim(s)) == Trim(s)
  {
    var r := Trim(s);
    if |r| > 0 {
      assert TrimStart(r) == r;
      assert TrimEnd(r) == r;
    }
  }

  // ---------------------------------------------------------------------
  // parseInt(s, 10)
  // ---------------------------------------------------------------------

  /** The longest prefix of `s` made of decimal digits. */
  function DigitPrefix(s: string): (r: string)
    ensures AllDigits(r) && |r| <= |s| && r == s[..|r|]
    ensures |r| < |s| ==> !IsDigit(s[|r|])
  {
    if |s| > 0 && IsDigit(s[0]) then [s[0]] + DigitPrefix(s[1..]) else ""
  }

  /** `parseInt(s, 10)`: skip leading white space, read an optional sign and
      the longest run of decimal digits; `None` stands for `NaN` (no digit). */
  function ParseInt(s: string): (r: Option<int>)
    ensures r.None? <==> |DigitPrefix(SignedBody(TrimStart(s)))| == 0
  {
    var t := TrimStart(s);
    var digits := DigitPrefix(SignedBody(t));
    if |digits| == 0 then None
    else if |t| > 0 && t[0] == '-' then Some(-(DigitsValue(digits) as int))
    else Some(DigitsValue(digits))
  }

  /** `t` without its leading sign character, if any. */
  function SignedBody(t: string): string {
    if |t| > 0 && (t[0] == '-' || t[0] == '+') then t[1..] else t
  }

  /** `parseInt` reads back the decimal text of every natural number. */
  lemma ParseIntOfNatToString(n: nat)
    ensures ParseInt(NatToString(n)) == Some(n)
  {
    var s := NatToString(n);
    DigitNotSpace(s[0]);
    assert TrimStart(s) == s;
    assert SignedBody(s) == s;
    AllDigitsPrefix(s);
    NatToStringValue(n);
  }

  /** The digit run of a digit string followed by a non-digit is that
      digit string. */
  lemma {:induction false} DigitPrefixStops(d: string, t: string)
    requires AllDigits(d) && (|t| == 0 || !IsDigit(t[0]))
    ensures DigitPrefix(d + t) == d
    decreases |d|
  {
    if |d| > 0 {
      assert AllDigits(d[1..]) by {
        forall i | 0 <= i < |d[1..]| ensures IsDigit(d[1..][i]) { assert d[1..][i] == d[i + 1]; }
      }
      DigitPrefixStops(d[1..], t);
      assert (d + t)[1..] == d[1..] + t;
      assert [d[0]] + d[1..] == d;
    } else {
      assert d + t == t;
    }
  }

  lemma DigitNotSpace(c: char)
    requires IsDigit(c)
    ensures !IsSpace(c) && c != '-' && c != '+'
  {
  }

  lemma {:induction false} AllDigitsPrefix(s: string)
    requires AllDigits(s)
    ensures DigitPrefix(s) == s
    decreases |s|
  {
    if |s| > 0 {
      assert AllDigits(s[1..]) by {
        forall i | 0 <= i < |s[1..]| ensures IsDigit(s[1..][i]) { assert s[1..][i] == s[i + 1]; }
      }
      AllDigitsPrefix(s[1..]);
      assert [s[0]] + s[1..] == s;
    }
  }

  // ---------------------------------------------------------------------
  // Substring search and replacement
  // ---------------------------------------------------------------------

  predicate StartsWith(s: string, p: string) {
    |p| <= |s| && s[..|p|] == p
  }

  /** `s.includes(p)` and the regular expressions made of literal text. */
  predicate Contains(s: string, p: string)
    decreases |s|
  {
    StartsWith(s, p) || (|s| > 0 && Contains(s[1..], p))
  }

  /** `p` occurs in `s` starting at index `i`. */
  predicate OccursAt(s: string, p: string, i: int) {
    0 <= i <= |s| - |p| && s[i..i + |p|] == p
  }

  /** `Contains` agrees with the existence of an occurrence at some index. */
  lemma {:induction false} ContainsIff(s: string, p: string)
    ensures Contains(s, p) <==> exists i :: OccursAt(s, p, i)
    decreases |s|
  {
    if StartsWith(s, p) {
      assert OccursAt(s, p, 0);
    } else if |s| > 0 {
      ContainsIff(s[1..], p);
      if exists i :: OccursAt(s, p, i) {
        var i :| OccursAt(s, p, i);
        assert i > 0;
        OccursInTail(s, p, i - 1);
      }
      if Contains(s[1..], p) {
        var j :| OccursAt(s[1..], p, j);
        OccursInTail(s, p, j);
      }
    } else {
      assert forall i :: !OccursAt(s, p, i);
    }
  }

  /** An occurrence in the tail is an occurrence one further on in `s`. */
  lemma OccursInTail(s: string, p: string, j: int)
    requires |s| > 0 && j >= 0
    ensures OccursAt(s[1..], p, j) <==> OccursAt(s, p, j + 1)
  {
    if 0 <= j <= |s| - 1 - |p| {
      assert s[1..][j..j + |p|] == s[j + 1..j + 1 + |p|];
    }
  }

  /** Text placed around an occurrence keeps it an occurrence. */
  lemma ContainsInfix(a: string, p: string, b: string)
    ensures Contains(a + p + b, p)
  {
    var s := a + p + b;
    assert OccursAt(s, p, |a|);
    ContainsIff(s, p);
  }

  /** Index of the first occurrence of `p` in `s` (`s.indexOf(p)`). */
  function IndexOf(s: string, p: string): (r: Option<nat>)
    ensures r.Some? ==> r.value + |p| <= |s| && s[r.value..r.value + |p|] == p
    ensures r.Some? ==> forall j :: 0 <= j < r.value ==> !StartsWith(s[j..], p)
    ensures r.None? <==> !Contains(s, p)
    decreases |s|
  {
    if StartsWith(s, p) then Some(0)
    else if |s| == 0 then None
    else
      match IndexOf(s[1..], p)
      case None => None
      case Some(i) =>
        NoEarlierStart(s, p, i);
        Some(i + 1)
  }

  /** No occurrence before `i + 1` in `s` when none starts at 0 and none
      starts before `i` in its tail. */
  lemma NoEarlierStart(s: string, p: string, i: nat)
    requires |s| > 0 && !StartsWith(s, p) && i <= |s| - 1
    requires forall j :: 0 <= j < i ==> !StartsWith(s[1..][j..], p)
    ensures forall j :: 0 <= j < i + 1 ==> !StartsWith(s[j..], p)
  {
    forall j | 0 <= j < i + 1 ensures !StartsWith(s[j..], p) {
      if j > 0 {
        assert s[j..] == s[1..][j - 1..];
      }
    }
  }

  /** `s.replace(p, q)` with a string pattern: only the first occurrence is
      replaced; without an occurrence `s` is returned unchanged. */
  /** A string that starts with `p` loses exactly that prefix when `p` is
      replaced by nothing. */
  lemma ReplaceLeadingPrefix(s: string, p: string)
    requires StartsWith(s, p)
    ensures ReplaceFirst(s, p, "") == s[|p|..]
  {
    assert IndexOf(s, p) == Some(0);
    assert s[..0] + "" + s[|p|..] == s[|p|..];
  }

  function ReplaceFirst(s: string, p: string, q: string): (r: string)
    ensures !Contains(s, p) ==> r == s
    ensures Contains(s, p) ==> exists i :: && OccursAt(s, p, i)
                                           && (forall j | 0 <= j < i :: !OccursAt(s, p, j))
                                           && r == s[..i] + q + s[i + |p|..]
  {
    match IndexOf(s, p)
    case None => s
    case Some(i) =>
      assert forall j | 0 <= j < i :: !OccursAt(s, p, j) by {
        forall j | 0 <= j < i ensures !OccursAt(s, p, j) {
          assert !StartsWith(s[j..], p);
        }
      }
      s[..i] + q + s[i + |p|..]
  }

  // ---------------------------------------------------------------------
  // Lower-casing (String.prototype.toLowerCase, ASCII letters)
  // ---------------------------------------------------------------------

  function LowerChar(c: char): char {
    if 'A' <= c <= 'Z' then (c as int + 32) as char else c
  }

  function ToLower(s: string): (r: string)
    ensures |r| == |s| && forall i :: 0 <= i < |s| ==> r[i] == LowerChar(s[i])
  {
    seq(|s|, i requires 0 <= i < |s| => LowerChar(s[i]))
  }

  /** Lower-casing is idempotent. */
  lemma ToLowerIdempotent(s: string)
    ensures ToLower(ToLower(s)) == ToLower(s)
  {
  }
}

=== FILE: timer_types.dfy ===
/** The three focus-session types, their built-in default lengths and the
    millisecond arithmetic shared by the background worker and the popup. */
module TimerTypes {

  const POMODORO: string := "POMODORO"
  const SHORT_BREAK: string := "SHORT_BREAK"
  const LONG_BREAK: string := "LONG_BREAK"

  const MS_PER_SECOND: int := 1000
  const MS_PER_MINUTE: int := 60000

  /** The hard-coded table 25/5/15 minutes; any other type string counts as a
      Pomodoro. */
  function DefaultMinutes(timerType: string): (m: nat)
    ensures m in {5, 15, 25}
    ensures m == 5 <==> timerType == SHORT_BREAK
    ensures m == 15 <==> timerType == LONG_BREAK
  {
    if timerType == SHORT_BREAK then 5
    else if timerType == LONG_BREAK then 15
    else 25
  }

  predicate IsBreak(timerType: string) {
    timerType == SHORT_BREAK || timerType == LONG_BREAK
  }

  /** `timerType || 'POMODORO'`, with the empty string standing for a missing type. */
  function TypeOrPomodoro(timerType: string): (t: string)
    ensures t != ""
    ensures timerType != "" ==> t == timerType
  {
    if timerType == "" then POMODORO else timerType
  }

  /** Minutes and seconds shown for a remaining time in milliseconds:
      `floor(ms / 60000)` and `floor((ms % 60000) / 1000)`. */
  datatype Clock = Clock(minutes: int, seconds: int)

  function Decompose(remainingMs: int): (c: Clock)
    requires remainingMs >= 0
    ensures c.minutes >= 0 && 0 <= c.seconds < 60
    ensures (c.minutes * 60 + c.seconds) * MS_PER_SECOND <= remainingMs
    ensures remainingMs < (c.minutes * 60 + c.seconds) * MS_PER_SECOND + MS_PER_SECOND
  {
    var m := remainingMs / MS_PER_MINUTE;
    var r := remainingMs % MS_PER_MINUTE;
    var s := r / MS_PER_SECOND;
    assert remainingMs == m * 60000 + r;
    assert s * 1000 <= r < s * 1000 + 1000;
    Clock(m, s)
  }

  /** The clock decomposition is exact on whole seconds: a remaining time of
      `(m*60+s)` seconds with `s < 60` reads back as `m:s`. */
  lemma DecomposeWholeSeconds(m: nat, s: nat)
    requires s < 60
    ensures Decompose((m * 60 + s) * MS_PER_SECOND) == Clock(m, s)
  {
    var ms := (m * 60 + s) * MS_PER_SECOND;
    assert ms == m * MS_PER_MINUTE + s * 1000;
    var c := Decompose(ms);
    assert c.minutes * 60 + c.seconds == m * 60 + s;
  }
}

=== FILE: timer_view.dfy ===
/** The popup's countdown (`PomodoroTimer`): the clock it shows for the
    stored session, computed from its absolute end time; the per-second
    tick; the encoder `saveTimerState`; the write-back a running instance
    makes each time its countdown effect re-runs, which re-anchors the
    stored end time on the displayed clock; and the `MM:SS` formatter. */
module TimerView {
  import opened Wrappers
  import opened Coerce
  import opened Text
  import opened TimerTypes
  import opened SessionState
  import opened Storage
  import FocusSession

  /** What `saveTimerState` writes: `timerState` and `activeTimer`. */
  datatype Saved = Saved(timerState: TimerState, activeTimer: Option<int>)

  /** `saveTimerState(isRunning, mins, secs, type)` of the instance showing
      task `activeTaskId`: a running state ends `mins:secs` after `now`, a
      stopped one is stamped paused at `now`. */
  function SaveTimerState(isRunning: bool, mins: int, secs: int, timerType: string, activeTaskId: Option<int>, now: int): (r: Saved)
    ensures r.timerState.savedIsActive == isRunning
    ensures r.timerState.savedType == timerType
    ensures r.timerState.savedMinutes == mins && r.timerState.savedSeconds == secs
    ensures isRunning ==> r.timerState.endTime == Some(now + FocusSession.SavedMs(r.timerState)) && r.timerState.pausedAt.None?
    ensures !isRunning ==> r.timerState.endTime.None? && r.timerState.pausedAt == Some(now)
    ensures r.timerState.taskId == IdOrNull(activeTaskId) && r.activeTimer == IdOrNull(activeTaskId)
    ensures mins >= 0 && 0 <= secs < 60 ==> WellFormed(r.timerState)
  {
    var totalMs := (mins * 60 + secs) * MS_PER_SECOND;
    var endTime := if isRunning then Some(now + totalMs) else None;
    var ts := TimerState(timerType, mins, secs, isRunning, endTime, if isRunning then None else Some(now), IdOrNull(activeTaskId));
    Saved(ts, IdOrNull(activeTaskId))
  }

  /** An instance answers to the stored session when both are untargeted, or
      when both name the same task. */
  predicate Relevant(activeTaskId: Option<int>, ts: TimerState) {
    || (!TruthyNumber(activeTaskId) && !TruthyNumber(ts.taskId))
    || (TruthyNumber(activeTaskId) && ts.taskId == activeTaskId)
  }

  /** The duration picked for the instance's own type by the nested
      conditional of the load: any type other than the two breaks that is
      not `POMODORO` falls to the long-break length. */
  function SelectorDuration(timerType: string, settings: RawSettings): (m: int)
    ensures timerType in {POMODORO, SHORT_BREAK, LONG_BREAK} ==> m == InitialDuration(timerType, settings)
    ensures timerType !in {POMODORO, SHORT_BREAK} ==> m == InitialDuration(LONG_BREAK, settings)
  {
    if timerType == POMODORO then OrNumber(settings.pomodoroMinutes, 25)
    else if timerType == SHORT_BREAK then OrNumber(settings.shortBreakMinutes, 5)
    else OrNumber(settings.longBreakMinutes, 15)
  }

  /** What one instance shows after loading; `writeBack` is the state it
      writes to storage, if any. */
  datatype View = View(minutes: int, seconds: int, isActive: bool, timerType: string, writeBack: Option<Saved>)

  /** `max(0, endTime - now)` for a stored end time. */
  function Remaining(ts: TimerState, now: int): nat {
    FocusSession.RemainingMs(ts, now)
  }

  /** `loadTimerState` of the instance with task `activeTaskId` whose own
      type is `currentType`. */
  function LoadView(stored: Option<TimerState>, settings: Option<RawSettings>, activeTaskId: Option<int>,
                    currentType: string, now: int): (v: View)
    ensures stored.None? || !Relevant(activeTaskId, stored.value) ==>
      v == View(SelectorDuration(currentType, SettingsOrEmpty(settings)), 0, false, currentType, None)
    ensures stored.Some? && Relevant(activeTaskId, stored.value) ==>
      var ts := stored.value;
      && v.timerType == OrString(ts.savedType, currentType)
      && (ts.savedIsActive && TruthyNumber(ts.endTime) && Remaining(ts, now) > 0 ==>
            && v.isActive && v.writeBack.None? && 0 <= v.seconds < 60 && v.minutes >= 0
            && (v.minutes * 60 + v.seconds) * MS_PER_SECOND <= Remaining(ts, now)
            && Remaining(ts, now) < (v.minutes * 60 + v.seconds) * MS_PER_SECOND + MS_PER_SECOND)
      && (ts.savedIsActive && TruthyNumber(ts.endTime) && Remaining(ts, now) == 0 ==>
            && !v.isActive && v.seconds == 0
            && v.minutes == InitialDuration(v.timerType, SettingsOrEmpty(settings))
            && v.writeBack == Some(SaveTimerState(false, v.minutes, 0, v.timerType, activeTaskId, now)))
      && (!(ts.savedIsActive && TruthyNumber(ts.endTime)) ==>
            && v.isActive == ts.savedIsActive && v.writeBack.None? && v.seconds == ts.savedSeconds
            && v.minutes == (if ts.savedMinutes != 0 then ts.savedMinutes
                             else InitialDuration(v.timerType, SettingsOrEmpty(settings))))
  {
    var s := SettingsOrEmpty(settings);
    if stored.None? || !Relevant(activeTaskId, stored.value) then
      View(SelectorDuration(currentType, s), 0, false, currentType, None)
    else
      var ts := stored.value;
      var savedType := OrString(ts.savedType, currentType);
      var initial := InitialDuration(savedType, s);
      if ts.savedIsActive && TruthyNumber(ts.endTime) then
        var rem := Remaining(ts, now);
        if rem > 0 then
          var c := Decompose(rem);
          View(c.minutes, c.seconds, true, savedType, None)
        else
          View(initial, 0, false, savedType, Some(SaveTimerState(false, initial, 0, savedType, activeTaskId, now)))
      else
        View(OrNumber(Some(ts.savedMinutes), initial), OrNumber(Some(ts.savedSeconds), 0), ts.savedIsActive, savedType, None)
  }

  /** One firing of the once-a-second interval of a running instance. */
  datatype TickResult =
    | Unchanged
    | Countdown(minutes: int, seconds: int)
    | Expired(minutes: int, saved: Saved, message: Message)

  /** The tick recomputes the clock from the stored end time; once it has
      passed, the instance stops at the full length of its type, writes that
      stopped state and reports the completion to the background worker. */
  function Tick(stored: Option<TimerState>, settings: Option<RawSettings>, timerType: string,
                activeTaskId: Option<int>, now: int): (r: TickResult)
    ensures stored.None? || !TruthyNumber(stored.value.endTime) ==> r == Unchanged
    ensures r.Countdown? ==>
      && 0 <= r.seconds < 60 && r.minutes >= 0
      && (r.minutes * 60 + r.seconds) * MS_PER_SECOND <= Remaining(stored.value, now)
      && Remaining(stored.value, now) < (r.minutes * 60 + r.seconds) * MS_PER_SECOND + MS_PER_SECOND
    ensures r.Expired? ==>
      && Remaining(stored.value, now) == 0
      && r.minutes == InitialDuration(timerType, SettingsOrEmpty(settings))
      && !r.saved.timerState.savedIsActive && r.saved.timerState.savedMinutes == r.minutes
      && r.saved.timerState.savedSeconds == 0
      && r.message == TimerCompleted(timerType, activeTaskId)
    ensures stored.Some? && TruthyNumber(stored.value.endTime) ==> (r.Expired? <==> Remaining(stored.value, now) == 0)
    ensures stored.Some? && TruthyNumber(stored.value.endTime) ==> (r.Countdown? <==> Remaining(stored.value, now) > 0)
    ensures r.Expired? ==>
      && r.saved.timerState.endTime.None? && r.saved.timerState.pausedAt == Some(now)
      && r.saved.timerState.savedType == timerType
      && r.saved.timerState.taskId == IdOrNull(activeTaskId) && r.saved.activeTimer == IdOrNull(activeTaskId)
  {
    if stored.None? || !TruthyNumber(stored.value.endTime) then Unchanged
    else
      var rem := Remaining(stored.value, now);
      if rem > 0 then
        var c := Decompose(rem);
        Countdown(c.minutes, c.seconds)
      else
        var d := InitialDuration(timerType, SettingsOrEmpty(settings));
        Expired(d, SaveTimerState(false, d, 0, timerType, activeTaskId, now), TimerCompleted(timerType, activeTaskId))
  }

  /** The countdown effect of a running instance. It re-runs on mount and
      whenever the running flag, the type or the displayed minute changes,
      and each time it first writes the displayed clock back as a running
      state ending that long after `now`; a stopped or not yet loaded
      instance writes nothing. */
  function SyncOnRerun(initialized: bool, minutes: Option<int>, seconds: int, isActive: bool,
                       timerType: string, activeTaskId: Option<int>, now: int): (r: Option<Saved>)
    ensures r.Some? <==> initialized && minutes.Some? && isActive
    ensures r.Some? ==>
      && r.value.timerState.savedIsActive && r.value.timerState.savedType == timerType
      && r.value.timerState.endTime == Some(now + (minutes.value * 60 + seconds) * MS_PER_SECOND)
      && r.value.timerState.taskId == IdOrNull(activeTaskId) && r.value.activeTimer == IdOrNull(activeTaskId)
  {
    if !initialized || minutes.None? then None
    else if isActive then Some(SaveTimerState(true, minutes.value, seconds, timerType, activeTaskId, now))
    else None
  }

  /** The re-anchoring is not exact. The clock shown at `shownAt` is the
      floor of what was left then, so rewriting it at `now` moves the stored
      end time by the time since `shownAt`, minus the dropped fraction of a
      second: up to a second earlier when the effect runs at once. */
  lemma SyncDrift(ts: TimerState, shownAt: int, now: int, minutes: int, seconds: int, timerType: string,
                  activeTaskId: Option<int>)
    requires TruthyNumber(ts.endTime) && Remaining(ts, shownAt) > 0 && shownAt <= now
    requires (minutes * 60 + seconds) * MS_PER_SECOND <= Remaining(ts, shownAt)
    requires Remaining(ts, shownAt) < (minutes * 60 + seconds) * MS_PER_SECOND + MS_PER_SECOND
    ensures var e := SyncOnRerun(true, Some(minutes), seconds, true, timerType, activeTaskId, now).value.timerState.endTime.value;
      ts.endTime.value + (now - shownAt) - MS_PER_SECOND < e <= ts.endTime.value + (now - shownAt)
  {
    assert Remaining(ts, shownAt) == ts.endTime.value - shownAt;
  }

  /** Each tick that changes the displayed minute triggers the re-anchoring
      on the clock it just computed. */
  lemma TickThenSync(ts: TimerState, settings: Option<RawSettings>, timerType: string, activeTaskId: Option<int>,
                     tickTime: int, now: int)
    requires tickTime <= now
    requires Tick(Some(ts), settings, timerType, activeTaskId, tickTime).Countdown?
    ensures var c := Tick(Some(ts), settings, timerType, activeTaskId, tickTime);
      var e := SyncOnRerun(true, Some(c.minutes), c.seconds, true, timerType, activeTaskId, now).value.timerState.endTime.value;
      ts.endTime.value + (now - tickTime) - MS_PER_SECOND < e <= ts.endTime.value + (now - tickTime)
  {
    var c := Tick(Some(ts), settings, timerType, activeTaskId, tickTime);
    SyncDrift(ts, tickTime, now, c.minutes, c.seconds, timerType, activeTaskId);
  }

  /** A concrete instance: 60.5 s before the end the clock turns to `01:00`,
      and the write-back made at that instant ends the session half a
      second early. */
  lemma SyncShortensExample(ts: TimerState, settings: Option<RawSettings>, timerType: string, t: int)
    requires ts.endTime == Some(t + 60500) && t + 60500 != 0
    ensures Tick(Some(ts), settings, timerType, None, t) == Countdown(1, 0)
    ensures SyncOnRerun(true, Some(1), 0, true, timerType, None, t).value.timerState.endTime == Some(t + 60000)
  {
    assert Remaining(ts, t) == 60500;
    var c := Decompose(60500);
    assert c.minutes * 60 + c.seconds == 60;
  }

  // ---------------------------------------------------------------------
  // Properties of the view
  // ---------------------------------------------------------------------

  /** A freshly loaded instance and a ticking one show the same clock for
      the same stored session at the same instant. */
  lemma LoadAndTickAgree(stored: Option<TimerState>, settings: Option<RawSettings>, activeTaskId: Option<int>,
                         currentType: string, now: int)
    requires stored.Some? && Relevant(activeTaskId, stored.value)
    requires stored.value.savedIsActive && TruthyNumber(stored.value.endTime)
    ensures var v := LoadView(stored, settings, activeTaskId, currentType, now);
      Tick(stored, settings, v.timerType, activeTaskId, now)
        == (if v.isActive then Countdown(v.minutes, v.seconds) else Expired(v.minutes, v.writeBack.value, TimerCompleted(v.timerType, activeTaskId)))
  {
  }

  /** The stopped state an instance writes after finding its session
      expired is a fixed point: loading it again, at any later time, shows
      the same clock and writes nothing. */
  lemma ExpiredWriteBackIsStable(stored: Option<TimerState>, settings: Option<RawSettings>, activeTaskId: Option<int>,
                                 currentType: string, now: int, later: int)
    requires LoadView(stored, settings, activeTaskId, currentType, now).writeBack.Some?
    ensures var v := LoadView(stored, settings, activeTaskId, currentType, now);
      var v2 := LoadView(Some(v.writeBack.value.timerState), settings, activeTaskId, v.timerType, later);
      v2 == v.(writeBack := None)
  {
  }

  /** The stopped state a tick writes on expiry shows as that type's full
      length on the next load. */
  lemma ExpiredTickReloads(stored: Option<TimerState>, settings: Option<RawSettings>, timerType: string,
                           activeTaskId: Option<int>, now: int, later: int)
    requires Tick(stored, settings, timerType, activeTaskId, now).Expired?
    ensures var r := Tick(stored, settings, timerType, activeTaskId, now);
      LoadView(Some(r.saved.timerState), settings, activeTaskId, timerType, later)
        == View(r.minutes, 0, false, timerType, None)
  {
  }

  /** After the background starts a session, the instance it belongs to
      counts down from the type's full length, `k` ms later showing the
      floor of what is left. */
  lemma StartThenView(w: World, taskId: Option<int>, timerType: string, t0: int, k: int, activeTaskId: Option<int>)
    requires 0 <= k < DefaultMinutes(timerType) * MS_PER_MINUTE
    requires t0 + DefaultMinutes(timerType) * MS_PER_MINUTE != 0
    requires Relevant(activeTaskId, FocusSession.Start(w, taskId, timerType, t0).world.timerState.value)
    ensures var v := LoadView(FocusSession.Start(w, taskId, timerType, t0).world.timerState, None, activeTaskId, POMODORO, t0 + k);
      && v.isActive && v.writeBack.None?
      && Clock(v.minutes, v.seconds) == Decompose(DefaultMinutes(timerType) * MS_PER_MINUTE - k)
  {
  }

  /** A Pomodoro started at `t0` reads `24:55` five seconds later. */
  lemma StartScenario(w: World, t0: int)
    requires t0 >= 0
    ensures var v := LoadView(FocusSession.Start(w, None, POMODORO, t0).world.timerState, None, None, POMODORO, t0 + 5000);
      v.minutes == 24 && v.seconds == 55 && v.isActive
  {
    DecomposeWholeSeconds(24, 55);
  }

  /** After a background pause, the instance shows exactly the frozen clock
      (a frozen `0` minutes reads as the full length). */
  lemma PauseThenView(w: World, t: int, activeTaskId: Option<int>, currentType: string, later: int)
    requires FocusSession.IsRunning(w) && Relevant(activeTaskId, w.timerState.value)
    ensures var ts := FocusSession.Pause(w, t).world.timerState.value;
      var v := LoadView(Some(ts), None, activeTaskId, currentType, later);
      && !v.isActive && v.writeBack.None? && v.seconds == ts.savedSeconds
      && (ts.savedMinutes != 0 ==> v.minutes == ts.savedMinutes)
  {
  }

  /** An instance that does not own the stored session shows its own type's
      default and never writes. */
  lemma IrrelevantInstanceIsInert(ts: TimerState, settings: Option<RawSettings>, activeTaskId: Option<int>,
                                  currentType: string, now: int)
    requires !Relevant(activeTaskId, ts) && currentType in {POMODORO, SHORT_BREAK, LONG_BREAK}
    ensures var v := LoadView(Some(ts), settings, activeTaskId, currentType, now);
      v == View(InitialDuration(currentType, SettingsOrEmpty(settings)), 0, false, currentType, None)
  {
  }

  /** `handleTimerTypeChange`: the instance switches to `newType`, stops at
      that type's full length and writes the stopped state, which the next
      load shows unchanged. */
  function ChangeType(newType: string, settings: Option<RawSettings>, activeTaskId: Option<int>, now: int): (v: View)
    ensures !v.isActive && v.seconds == 0 && v.timerType == newType
    ensures v.minutes == InitialDuration(newType, SettingsOrEmpty(settings))
    ensures v.writeBack == Some(SaveTimerState(false, v.minutes, 0, newType, activeTaskId, now))
    ensures forall later :: LoadView(Some(v.writeBack.value.timerState), settings, activeTaskId, newType, later) == v.(writeBack := None)
  {
    var d := InitialDuration(newType, SettingsOrEmpty(settings));
    View(d, 0, false, newType, Some(SaveTimerState(false, d, 0, newType, activeTaskId, now)))
  }

  // ---------------------------------------------------------------------
  // MM:SS
  // ---------------------------------------------------------------------

  /** A number padded to two characters when below ten. */
  function Pad2(n: int): string {
    if n < 10 then "0" + IntToString(n) else IntToString(n)
  }

  /** `MM:SS` as both the timer and the task board print it. */
  function ClockText(minutes: int, seconds: int): string {
    Pad2(minutes) + ":" + Pad2(seconds)
  }

  /** `formatTime`: "Loading..." until the minutes are known; then the
      minutes, a colon and two digits of seconds, where the minutes take
      two digits below 100 and as many as they need above. */
  function FormatTime(minutes: Option<int>, seconds: int): (r: string)
    ensures minutes.None? <==> r == "Loading..."
    ensures minutes.Some? && minutes.value >= 0 && 0 <= seconds < 60 ==>
      var k := |r| - 3;
      && |r| >= 5 && r[k] == ':' && AllDigits(r[..k]) && AllDigits(r[k + 1..])
      && DigitsValue(r[..k]) == minutes.value && DigitsValue(r[k + 1..]) == seconds
      && (minutes.value < 100 <==> |r| == 5)
  {
    match minutes
    case None => "Loading..."
    case Some(m) =>
      ClockTextNotLoading(m, seconds);
      if m >= 0 && 0 <= seconds < 60 then ClockTextReadsBack(m, seconds); ClockText(m, seconds)
      else ClockText(m, seconds)
  }

  /** The clock always holds a colon, so it is never the placeholder. */
  lemma ClockTextNotLoading(minutes: int, seconds: int)
    ensures ClockText(minutes, seconds) != "Loading..."
  {
    var r := ClockText(minutes, seconds);
    assert r[|Pad2(minutes)|] == ':';
    assert ':' !in "Loading...";
  }

  /** The `MM:SS` of a clock with seconds below 60 splits at its third
      character from the end into two digit groups that read back as the
      clock; it is five characters exactly when the minutes are below 100. */
  lemma ClockTextReadsBack(minutes: int, seconds: int)
    requires minutes >= 0 && 0 <= seconds < 60
    ensures var r := ClockText(minutes, seconds);
      var k := |r| - 3;
      && |r| >= 5 && r[k] == ':' && AllDigits(r[..k]) && AllDigits(r[k + 1..])
      && DigitsValue(r[..k]) == minutes && DigitsValue(r[k + 1..]) == seconds
      && (minutes < 100 <==> |r| == 5)
  {
    var r := ClockText(minutes, seconds);
    Pad2ReadsBack(minutes);
    Pad2ReadsBack(seconds);
    var k := |r| - 3;
    assert k == |Pad2(minutes)|;
    assert r[..k] == Pad2(minutes) && r[k + 1..] == Pad2(seconds);
  }

  /** A padded natural number is at least two digits that read back as it:
      exactly two below 100, and its plain decimal text from 10 on. */
  lemma Pad2ReadsBack(n: int)
    requires n >= 0
    ensures |Pad2(n)| >= 2 && AllDigits(Pad2(n)) && DigitsValue(Pad2(n)) == n
    ensures n < 100 <==> |Pad2(n)| == 2
    ensures n >= 10 ==> Pad2(n) == NatToString(n)
  {
    NatToStringValue(n);
    if n < 10 {
      LeadingZeroValue(NatToString(n));
    } else {
      assert NatToString(n) == NatToString(n / 10) + [DigitChar(n % 10)];
      assert n < 100 <==> n / 10 < 10;
    }
  }
}

=== FILE: wrappers.dfy ===
/** The optional-value datatype used for every JavaScript value that may be
    `null` or `undefined` in the extension's storage records. */
module Wrappers {

  datatype Option<+T> = None | Some(value: T) {

    /** The wrapped value, or `default` when there is none. */
    function GetOr(default: T): T {
      match this
      case Some(v) => v
      case None => default
    }
  }
}
